=== FILE: README.md ===
# Sales reporting core in Dafny

A model of the monthly sales-reporting pipeline and proofs about it. The pipeline has these parts:

- it ingests the QRY extract files;
- it resolves every sales record against the entity-mapping table;
- it produces three report variants: the receivables management report, the USA Spa report and the GVL report;
- it formats the report cells.

Each report variant is a single left-to-right fold over its configured sections. The fold keeps the report lines so far, `section_totals` (title ↦ section amounts) and a grand-total accumulator. The three variants differ in how the grand total is built:

- **Receivables** adds the component totals and every section whose title contains "Sales". At the grand-total line it deducts the recorded 'Company … Sales' sections. Each section may have one fallback item, which takes the residual of the section total.
- **USA Spa** adds every regular section and never a component total. Each line also carries differences and percentage deviations against budget and prior. The report unit (kUSD or kEUR) is chosen from the sales columns and the reference values.
- **GVL** adds the component totals only. A salesperson's budget and prior are the value of the first matching reference row, never a sum.

Modules, one per file:

| file | module | what it models |
|---|---|---|
| `wrappers.dfy` | `Wrappers` | `Option` |
| `text.dfy` | `Text` | the string operations the code uses: strip, split/join, find, replace, `in` |
| `numbers.dfy` | `Numbers` | `str(int)`, decimal parsing as `float()` reads it, round-half-to-even |
| `seqs.dfy` | `Seqs` | boolean-mask selection (`Where`) and column sums |
| `resolver.dfy` | `EntityResolver` | `apply_mappings` |
| `ingestion.dfy` | `QryIngestion` | `process_qry_files` |
| `common.dfy` | `ReportCommon` | sections, amounts, report lines, `section_totals` as an insertion-ordered dictionary |
| `receivables.dfy` | `Receivables` | `_prepare_data` and `calculate_report` of the receivables generator |
| `usa_spa.dfy` | `UsaSpa` | `_prepare_data` (with `sum_numeric`) and `calculate_report` of the USA Spa generator |
| `gvl.dfy` | `Gvl` | `_prepare_data`, `_get_budget_value`, `_get_prior_value` and `calculate_report` of the GVL generator |
| `display.dfy` | `Display` | `format_number`, `format_percentage`, the `export_to_csv` header rule |
| `utils.dfy` | `Utils` | `print_progress` and the column-header builders |
| `sharepoint.dfy` | `SharePoint` | the path logic of the document-library client, `download_inputs`, `upload_outputs` |
| `suggestions.dfy` | `Suggestions` | `normalize` and the top-8 ordering of mapping suggestions |

Data frames become sequences of row datatypes. A column that may be absent becomes a `has…` flag on the table. A NaN cell becomes `None`.

Conditions the code raises on are modelled as `None` results:

- a key column without the classification columns (a `KeyError` in the merge);
- a reference date that is not DD/MM/YYYY;
- `print_progress` with `total == 0`.

The clock (`datetime.now()`), the `EUR_TO_USD` environment variable, the directory listing and the file contents are parameters.

### Behaviour worth knowing

The model follows the code in each case.

- **Fallback line threshold.** A receivables fallback line is dropped unless some residual measure exceeds 0.1 in magnitude (`src/receivables_report_generator.py:234-235`). A residual of 0.3 is therefore kept, although it displays as "0".
- **Display rounding.** `format_number` calls Python's `round` (`src/base_report_generator.py:187-188`), which rounds half to even: 2.5 shows as "2" and 3.5 as "4".
- **Resolver misses.** The resolver merges each record once, on its employee or its customer path. It makes no second pass with the other name against the other index, and it keeps no ledger of unmatched names; it only logs their count. A miss leaves all five classification fields null (`EntityResolver.MissLeavesUnclassified`).
- **Missing classification columns.** A mapping table without some expected column only triggers a logged warning (`src/qry_data_mapping.py:14-16`). A table that has a key column but lacks a classification column then fails when those columns are selected (`src/qry_data_mapping.py:27`).
- **USA Spa section lookup.** A USA Spa section without items looks its region up slightly differently from an item: it does not test the kEUR sum for zero. `UsaSpa.SectionLookup` proves that this never changes the value.

## Model

| member | source | states |
|---|---|---|
| `EntityResolver.BuildIndex` | src/qry_data_mapping.py:26-46 | a key is in the index iff some mapping row carries it (`KeysExactly`); the index maps the key to the classification of the first row with that key (`FirstRowKept`): null keys dropped, duplicates keep-first |
| `EntityResolver.StripCellFacts` | src/qry_data_mapping.py:19 | a stripped cell is a slice of the cell, neither starts nor ends with whitespace, and stripping it again changes nothing; a null cell stays null |
| `EntityResolver.StripRowFacts` | src/qry_data_mapping.py:19 | every cell of a stripped mapping row has those properties, so the rows the index is built from are already in stripped form |
| `EntityResolver.StrippedRows` | src/qry_data_mapping.py:19 | every stripped row is in stripped form and stripping it again changes nothing; rows already stripped are kept as they are; a null key stays null and a present one stays present |
| `EntityResolver.MergesArePathLookup` | src/qry_data_mapping.py:30-66 | the employee merge, the customer merge and the fill-in of nulls together equal a lookup along the record's own path (GmbH/AG by employee, others by customer) |
| `EntityResolver.Resolve` | src/qry_data_mapping.py:24-66 | one output per input record, in order, carrying the record unchanged and the classification of its own path |
| `EntityResolver.MissLeavesUnclassified` | src/qry_data_mapping.py:30-40 | an employee-path record whose name is missing from the index (or with no employee pass) gets all five fields null; the customer index is not consulted |
| `EntityResolver.ContainsIgnoreCase` | src/qry_data_mapping.py:83 | the result is true iff the pattern matches case-insensitively at some position |
| `EntityResolver.RelabelValue` | src/qry_data_mapping.py:86-93 | values other than the legacy label are unchanged, and the legacy label never survives |
| `EntityResolver.RelabelIdempotent` | src/qry_data_mapping.py:85-93 | relabelling twice is relabelling once; the record, market group and company group are untouched |
| `EntityResolver.RelabelAllIdempotent` | src/qry_data_mapping.py:85-93 | relabelling a whole table twice is relabelling it once, keeping length and order |
| `EntityResolver.ApplyMappings` | src/qry_data_mapping.py:8-95 | fails iff a key column is present without the classification columns; otherwise returns no more rows than the input, each carrying an input record |
| `Seqs.WhereConj` | src/qry_data_mapping.py:75-83 | two successive row selections are one selection by the conjunction of their predicates |
| `Seqs.FiltersCommute` | src/qry_data_mapping.py:75-83 | per-row filters applied in either order select the same rows |
| `Seqs.WhereMultiset` | src/receivables_report_generator.py:63-71 | a row selection keeps each selected row as often as it occurs and drops every other row |
| `Seqs.FlatMapAppend` | src/qry_data_ingestion.py:40-87 | collecting per-item results over a concatenation concatenates the results |
| `EntityResolver.ApplyMappingsIsOneFilter` | src/qry_data_mapping.py:75-93 | the successive Export/Switzerland/Interco filters select exactly the resolved rows that pass all of them, in input order, then relabel |
| `QryIngestion.StemOfName` | src/qry_data_ingestion.py:43 | for a name `QRY_` + stem + `.csv` whose stem has no '.' and no further `QRY_`, removing the markers gives back exactly the stem |
| `QryIngestion.StemOfPlainName` | src/qry_data_ingestion.py:43 | a name carrying neither marker is its own stem |
| `QryIngestion.MetaOfParts` | src/qry_data_ingestion.py:44-54 | fewer than three parts give 'unknown' for all three fields; otherwise the category is the first part, joined by a following 'OPEN'/'TOTAL' status, the timeframe is the next part, and category '_' timeframe '_' region gives back the joined parts (the region empty when a status name has only three parts) |
| `QryIngestion.FileNameRoundTrip` | src/qry_data_ingestion.py:42-54 | parsing a name built as `QRY_[category]_[timeframe]_[region].csv` returns that category (with its status), timeframe and region |
| `QryIngestion.PartsOfName` | src/qry_data_ingestion.py:43 | splitting the stem of `QRY_` + parts joined by '_' + `.csv` gives back the parts |
| `QryIngestion.SplitJoinUnderscore` | src/qry_data_ingestion.py:43-52 | `split('_')` inverts `'_'.join` for parts without '_' |
| `QryIngestion.SplitLine` | src/qry_data_ingestion.py:59-66 | no split iff the stripped line without its trailing '=' signs has no '=' (a blank line included); otherwise entity '=' value text is exactly that trimmed line, and the value text has no '=', so the split is at its last '=' |
| `QryIngestion.ParseLine` | src/qry_data_ingestion.py:59-79 | in terms of the raw line: nothing iff the trimmed line has no '=' or the text after its last '=' does not parse (',' read as '.'); otherwise the entity and a '='-free text that reads as the value make up the trimmed line |
| `QryIngestion.LineSplits` | src/qry_data_ingestion.py:63-66 | `entity=text` with no '=' in text splits into exactly that entity and text |
| `QryIngestion.ValueOfNat` | src/qry_data_ingestion.py:67-69 | a whole number written in digits reads back as itself |
| `QryIngestion.ValueOfDecimalComma` | src/qry_data_ingestion.py:67-69 | a value written with a decimal comma reads back with the comma as decimal point |
| `QryIngestion.LineRoundTrip` | src/qry_data_ingestion.py:59-77 | writing `entity=n` and parsing gives back the entity and n |
| `QryIngestion.DecimalCommaRoundTrip` | src/qry_data_ingestion.py:59-77 | writing `entity=whole,tenth` and parsing gives back the entity and whole + tenth/10 |
| `QryIngestion.CleanCustomer` | src/qry_data_ingestion.py:97 | the cleaned name is the text after the last '=' (all of it when there is none) and contains no '=' |
| `QryIngestion.EntityOf` | src/qry_data_ingestion.py:100-101 | Gmbh/GmbH become GmbH and nothing else does, CH and AG (only) become AG, every other region is kept as its own entity |
| `QryIngestion.CurrencyOf` | src/qry_data_ingestion.py:104-105 | CHF iff CH, USD iff USA, GBP iff UK, EUR for every other region |
| `QryIngestion.FxRate` | src/qry_data_ingestion.py:130-133 | CHF 1.08, USD 0.96, GBP 1.20, EUR and every currency outside the table 1 |
| `QryIngestion.MakeRecord` | src/qry_data_ingestion.py:93-133 | the line's value and the file's category; employee name for GmbH/CH files (case-blind), cleaned customer otherwise; entity and currency of the file's region; value times that currency's rate |
| `QryIngestion.LineRecords` | src/qry_data_ingestion.py:59-82 | at most one record per line, each well formed and of the file's category |
| `QryIngestion.LineRecordsOne` | src/qry_data_ingestion.py:59-82 | one line gives exactly its record when it parses and nothing otherwise |
| `QryIngestion.LineRecordsAppend` | src/qry_data_ingestion.py:59-82 | the records of a run of lines are those of its parts, in order; with `LineRecordsOne` this fixes the records of every file: one per parseable line, in line order |
| `QryIngestion.LineRecordsMembers` | src/qry_data_ingestion.py:59-82 | every parseable line's record is in the file's records, and every record is the record of some parseable line |
| `QryIngestion.FileRecords` | src/qry_data_ingestion.py:40-84 | files that are not QRY csv files or cannot be read contribute nothing; a readable QRY file gives the records of its lines under the metadata of its name |
| `QryIngestion.AllRecords` | src/qry_data_ingestion.py:40-87 | every record of the listing is well formed |
| `QryIngestion.ProcessQryFiles` | src/qry_data_ingestion.py:25-135 | a missing folder gives an empty table; otherwise the records of every file of the listing |
| `QryIngestion.AllRecordsAppend` | src/qry_data_ingestion.py:40-87 | files are read independently: the records of a listing are those of its parts, concatenated |
| `QryIngestion.AllRecordsOne` | src/qry_data_ingestion.py:40-87 | a listing of one file gives that file's records |
| `QryIngestion.IngestExtract` | src/qry_data_ingestion.py:25-135 | a folder holding one QRY file of `entity=n` lines gives one record per line, in order, with that line's entity and value and the category and region of the file name |
| `QryIngestion.IngestedLookupName` | src/qry_data_ingestion.py:93-101 | the name the resolver looks an ingested record up by is null exactly for the misrouted regions (employee regions other than GmbH/CH, and 'AG'); GmbH and CH records are looked up by employee with the name on the line |
| `Receivables.ToSalesRow` | src/receivables_report_generator.py:60-62 | kEUR is the chosen value column (converted if present) divided by 1000, NaN read as 0; the company group, market group, region and channel columns are carried over unchanged |
| `Receivables.Prepare` | src/receivables_report_generator.py:50-71 | fails iff a budget date is malformed; otherwise row i of the sales is the i-th AR sale converted; each budget row of the month (any year) and each prior row whose date text starts with 2024-MM is kept as often as it occurs, and no other row |
| `Receivables.PreparedSalesTotal` | src/receivables_report_generator.py:56-62 | the prepared kEUR actuals times 1000 add up to the AR rows' EUR column (the converted one when present), NaN as 0 |
| `Receivables.DataRows` | src/receivables_report_generator.py:227-248 | data lines only: one per item when the residual exceeds the 0.1 threshold, otherwise one per explicit item (fallback items dropped) |
| `Receivables.DataRowsShown` | src/receivables_report_generator.py:214-248 | with the residual shown, line i is item i with its caption and its own amounts, or the residual for a fallback item |
| `Receivables.DataRowsHidden` | src/receivables_report_generator.py:214-248 | with the residual hidden, the lines are the explicit items alone, in order, each with its caption and its own amounts |
| `Receivables.RegularRows` | src/receivables_report_generator.py:247-277 | data lines, then the section total line iff 'show_total' or a component title, then a spacer |
| `Receivables.DataRowsSum` | src/receivables_report_generator.py:223-248 | the shown lines add up to the explicit items plus the residual of the (single) fallback |
| `Receivables.FallbackCompletesSection` | src/receivables_report_generator.py:227-243 | with one shown fallback line, the section's lines add up to the section total |
| `Receivables.TotalsAreLatest` | src/receivables_report_generator.py:261-266 | `section_totals[title]` is the total of the last regular section with that title, absent if none |
| `Receivables.UnmappedIgnored` | src/receivables_report_generator.py:107-108 | dropping unmapped sections from the configuration changes nothing |
| `Receivables.ComponentSumIsRef` | src/receivables_report_generator.py:110-117 | a component total sums the latest recorded totals of its titles, unknown titles adding 0 |
| `Receivables.CompanySalesIsSales` | src/receivables_report_generator.py:85-90 | every title deducted as 'Company … Sales' contains "Sales", so it was added to the grand total before |
| `Receivables.GrandInvariant` | src/receivables_report_generator.py:78-283 | with distinct regular section titles, the accumulator is the intended grand total plus the recorded company sales sections |
| `Receivables.GrandTotalLine` | src/receivables_report_generator.py:79-105 | with distinct titles the grand-total line shows component totals plus non-company sales sections, and changes nothing else |
| `UsaSpa.ThousandsSeparated` | src/usa_spa_report.py:178-184 | digits with a thousands comma read as the digits without it |
| `UsaSpa.CleanKeeps` | src/usa_spa_report.py:180 | text without spaces or no-break spaces loses only its commas |
| `UsaSpa.EmptyCellIsZero` | src/usa_spa_report.py:180-184 | an empty reference cell ("nan") counts as 0 |
| `UsaSpa.Prepare` | src/usa_spa_report.py:102-149 | fails iff a budget date is malformed; otherwise the reference tables are the period selections below |
| `UsaSpa.BudgetMonth` | src/usa_spa_report.py:102-105 | a row is kept iff its date parses and falls in the clock's month, in any year, each kept row as often as in the input; the columns stay |
| `UsaSpa.PriorMonth` | src/usa_spa_report.py:141-149 | a row is kept iff it falls in the clock's month a year back (when some date does not parse, iff its date text starts with YYYY-MM of that month), each kept row as often as in the input |
| `UsaSpa.UnitSelection` | src/usa_spa_report.py:194-205 | the unit is kEUR iff no USD sales column and both USD reference totals are 0; it changes iff kEUR actuals meet USD reference values |
| `UsaSpa.ActualsRescaled` | src/usa_spa_report.py:206-217 | the actuals are the USA spa AR rows in order, multiplied by the rate exactly when the unit changed |
| `UsaSpa.AccumulateConsistent` | src/usa_spa_report.py:328-334 | accumulating consistent figures gives the figures of the summed amounts |
| `UsaSpa.ItemLookup` | src/usa_spa_report.py:296-306 | a non-zero kUSD sum wins; the value is otherwise the kEUR sum or 0 |
| `UsaSpa.SectionLookup` | src/usa_spa_report.py:336-343 | the section lookup by region always equals the item lookup |
| `UsaSpa.RegionAmounts` | src/usa_spa_report.py:336-343 | a section without items reads its region's amounts exactly as an item would |
| `UsaSpa.ItemsFigures` | src/usa_spa_report.py:286-334 | the section's seven figures after the item loop are those of the summed amounts of its truthy items, shown or not |
| `UsaSpa.ItemRows` | src/usa_spa_report.py:313-326 | every item line is a data line whose differences and percentages agree with its amounts |
| `UsaSpa.ItemRowsAddUp` | src/usa_spa_report.py:313-334 | the shown item lines add up to the section's amounts (hidden lines are all zero) |
| `UsaSpa.SectionFigures` | src/usa_spa_report.py:275-348 | a section's figures are consistent with its amounts |
| `UsaSpa.DataRows` | src/usa_spa_report.py:284-365 | a section's body consists of data lines whose differences and percentages agree with their amounts |
| `UsaSpa.DataRowsAddUp` | src/usa_spa_report.py:286-363 | a section's data lines add up to the section's amounts |
| `UsaSpa.RegularRows` | src/usa_spa_report.py:364-414 | data lines, then the total line iff 'show_total', then a spacer, all consistent |
| `UsaSpa.ComponentFiguresSum` | src/usa_spa_report.py:244-255 | a component total's figures are those of the summed recorded amounts |
| `UsaSpa.LinesConsistent` | src/usa_spa_report.py:219-414 | on every report line each difference is actual minus reference and each percentage is the deviation, 0 for a zero reference |
| `UsaSpa.TotalsAreLatest` | src/usa_spa_report.py:382-391 | `section_totals[title]` is the figures of the last regular section with that title, absent if none |
| `UsaSpa.GrandIsBaseTotal` | src/usa_spa_report.py:392-399 | the accumulator carries the figures of all regular sections' amounts summed; component totals never add |
| `UsaSpa.GrandTotalLine` | src/usa_spa_report.py:225-239 | the grand-total line shows those figures and changes nothing else |
| `UsaSpa.RecordedSumIsRef` | src/usa_spa_report.py:247-251 | the recorded sums of a component's titles are the latest regular sections' amounts |
| `UsaSpa.ComponentTotalLine` | src/usa_spa_report.py:244-273 | a component-total line shows the figures of its titles' latest amounts summed and leaves totals and grand total alone |
| `UsaSpa.UnmappedIgnored` | src/usa_spa_report.py:241-242 | dropping unmapped sections from the configuration changes nothing |
| `Gvl.Prepare` | src/gvl_report.py:49-75 | fails iff a budget or prior date is malformed; otherwise the AR sales, the budget rows of the month and the prior rows of the month a year back |
| `Gvl.ArSalesMembers` | src/gvl_report.py:56-61 | exactly the AR rows reach the report, each converted to kEUR, in table order and each as often as it occurs |
| `Gvl.PreparedActual` | src/gvl_report.py:57-152 | a salesperson's actual (the `.sum()` of kEUR over their rows) times 1000 is the sum of the EUR cells of every AR row they sold, repeats counted, NaN as 0 |
| `Gvl.BudgetRows` | src/gvl_report.py:63-70 | a row is a budget row of the period iff it comes from the budget (salesperson cleaned) and falls in the clock's month |
| `Gvl.PriorRows` | src/gvl_report.py:63-75 | a row is a prior row of the period iff it comes from the prior table and falls in the month a year back |
| `Gvl.BudgetValueIsFirst` | src/gvl_report.py:63-81 | a salesperson's budget is the value of the first budget row, in file order, that is of the month and for that salesperson; 0 when there is none |
| `Gvl.PriorValueIsFirst` | src/gvl_report.py:63-89 | the same for the prior value, over the rows of the month a year back |
| `Gvl.FirstValue` | src/gvl_report.py:77-89 | 0 when no row is for the salesperson; otherwise the value of the first such row |
| `Gvl.LookupIsFirst` | src/gvl_report.py:77-89 | the membership test plus `iloc[0]` of the matching rows is exactly the first-match value |
| `Gvl.FirstValueAppend` | src/gvl_report.py:79-81 | rows added after a match do not change the value: duplicates are never summed |
| `Gvl.ItemRows` | src/gvl_report.py:144-164 | every item line is a data line |
| `Gvl.ItemRowsPositional` | src/gvl_report.py:144-164 | the item lines are, in order, one line per item with a truthy filter value, carrying its caption and its salesperson's actual, budget and prior |
| `Gvl.ItemRowsAddUp` | src/gvl_report.py:144-168 | the item lines add up to the section sums |
| `Gvl.ItemRowsCount` | src/gvl_report.py:146-164 | one line per item with a truthy filter value, even an all-zero one |
| `Gvl.SectionAmounts` | src/gvl_report.py:169-185 | a section without items has prior 0 |
| `Gvl.DataRows` | src/gvl_report.py:169-188 | a section's body consists of data lines only |
| `Gvl.DataRowsPositional` | src/gvl_report.py:144-185 | with items, the item lines above; without, one line titled with the section for a truthy 'sales_employee' (actual, first budget value, prior 0), else none |
| `Gvl.DataRowsAddUp` | src/gvl_report.py:144-185 | a section's data lines add up to its sums |
| `Gvl.RegularRows` | src/gvl_report.py:187-217 | data lines, then the total line iff 'show_total', then a spacer |
| `Gvl.TotalsAreLatest` | src/gvl_report.py:201-206 | `section_totals[title]` is the sums of the last regular section with that title, absent if none |
| `Gvl.ComponentSumIsRef` | src/gvl_report.py:112-119 | a component total sums the latest recorded sums of its titles, unknown titles adding 0 |
| `Gvl.GrandIsComponents` | src/gvl_report.py:112-135 | the accumulator is the sum of the component totals so far; regular sections never add |
| `Gvl.GrandTotalLine` | src/gvl_report.py:97-107 | the grand-total line shows the component totals so far and changes nothing else |
| `Gvl.ComponentTotalLine` | src/gvl_report.py:112-129 | a component-total line shows its titles' latest sums and leaves `section_totals` alone |
| `Gvl.UnmappedIgnored` | src/gvl_report.py:109-110 | dropping unmapped sections from the configuration changes nothing |
| `RowFlags.Returned` | src/receivables_report_generator.py:286-291 | the three casts fail (KeyError) iff some flag column is carried by no row dict; otherwise each row's flag is False only where its dict wrote False, a missing key reading as True |
| `RowFlags.Intended` | src/receivables_report_generator.py:268-277 | a line is a spacer iff it is a spacer line, a grand total iff it is the grand-total line, and a total iff it is a section, component or grand total |
| `RowFlags.IntendedSeparates` | src/receivables_report_generator.py:268-277 | the intended flags tell the kinds apart, except section and component totals |
| `RowFlags.ReceivablesFlagsAsWritten` | src/receivables_report_generator.py:214-291 | as written, a section total comes back as spacer, total and grand total, a data line as a grand total, and the cast raises when no line writes all three keys; only spacers, component and grand totals come back as intended |
| `RowFlags.ReceivablesFlagsExample` | src/receivables_report_generator.py:214-291 | a data line, its section total and the spacer come back as (grand), (spacer, total, grand) and (spacer) |
| `RowFlags.ReceivablesSectionTotalsNotExported` | src/receivables_report_generator.py:426-428 | as written, no receivables section total reaches the CSV export |
| `RowFlags.UsaSpaFlagsAsWritten` | src/usa_spa_report.py:315-422 | as written, a region line comes back as a spacer and grand total, item lines and section totals as grand totals |
| `RowFlags.GvlFlagsAsWritten` | src/gvl_report.py:157-225 | as written, data lines and section totals come back as grand totals, and the cast raises when no line writes all three keys |
| `RowFlags.WriteAllReturnsIntended` | src/receivables_report_generator.py:268-291 | when every dict writes all three keys, a non-empty report returns exactly the intended flags |
| `ReportCommon.PutGet` | src/receivables_report_generator.py:262-266 | after `totals[k] = v`, reading k gives v and every other key is unchanged |
| `ReportCommon.PutKeepsUnique` | src/receivables_report_generator.py:262-266 | assignment keeps the dictionary's keys distinct |
| `ReportCommon.SumWhereKeyAppend` | src/receivables_report_generator.py:85-90 | the deduction over a dictionary with one more entry adds that entry iff its key matches |
| `Display.DeltaPercent` | src/base_report_generator.py:213-214 | (p + 100) × reference = actual × 100 for a non-zero reference; 0 otherwise |
| `Display.IntToStringParses` | src/base_report_generator.py:188 | the integer text reads back as the integer |
| `Display.FormatNumber` | src/base_report_generator.py:170-192 | the placeholder for exactly 0; otherwise the half-to-even rounded integer, which reads back within 0.5 of the value |
| `Display.FormatNumberExample` | src/base_report_generator.py:180-188 | 1234.56 shows as "1235" |
| `Display.FormatNumberTies` | src/base_report_generator.py:182-192 | ties go to the even neighbour (0.5 → "0", 2.5 → "2", -2.5 → "-2"); 0.2 shows as "0"; exact 0 shows the placeholder |
| `Display.FixedOneParses` | src/base_report_generator.py:215 | the one-decimal text reads back as the number rounded to tenths, ties to the even tenth, so within 0.05 of it |
| `Display.FixedOneShape` | src/base_report_generator.py:215 | the one-decimal text has exactly one digit after its point |
| `Display.FormatPercentage` | src/base_report_generator.py:194-216 | the placeholder for a zero denominator; otherwise a '%'-terminated number with exactly one decimal that reads back as the deviation rounded to tenths (within 0.05) |
| `Display.FormatPercentageExample` | src/base_report_generator.py:208-216 | 125 against 100 shows as "25.0%"; a zero denominator shows the placeholder |
| `Display.CsvHeaders` | src/base_report_generator.py:218-230 | the headers replace the column names iff there is one per column; the column count never changes |
| `Utils.FloorDiv` | src/utils.py:28 | Python `//`: the quotient rounds toward negative infinity |
| `Utils.Truncate` | src/utils.py:26 | Python `int()` on a float truncates toward zero |
| `Utils.PrintProgress` | src/utils.py:13-33 | fails iff total is 0; a line break iff current == total; for 0 ≤ current ≤ total a 30-wide bar of ⌊30·current/total⌋ '#' and a percentage in 0..100 |
| `Utils.FilledInRange` | src/utils.py:26-29 | for 0 ≤ current ≤ total the filled length is within the bar and the percentage within 0..100 |
| `Utils.MonthAbbrev` | src/utils.py:114 | the month abbreviation has three letters |
| `Utils.MonthDigits` | src/receivables_report_generator.py:70 | `{month:02d}` is two digits that read as the month |
| `Utils.YearShortFourDigits` | src/utils.py:115 | `str(year)[2:]` of a four-digit year is its last two digits |
| `Utils.YearShortValue` | src/utils.py:115 | that text reads as the year modulo 100 |
| `Utils.ColumnHeader` | src/utils.py:97-119 | the header starts with the month abbreviation and '-', ends with " MTD" iff requested, and has 'A' just before that suffix (or at its end) |
| `Utils.ColumnHeaderYear` | src/utils.py:97-119 | for a four-digit year: the month abbreviation, '-', the year modulo 100 in two digits, 'A', then " MTD" if requested |
| `Utils.BudgetHeaderMatchesColumnHeader` | src/utils.py:122-140 | the budget header is the plain actuals header with 'B' for the final 'A' |
| `Utils.PriorHeaderIsColumnHeaderOfPriorYear` | src/utils.py:143-164 | the prior header is the actuals header of the prior year, by default the clock's year minus one |
| `Utils.YearLabelsConsecutive` | src/utils.py:167-185 | the current label is the prior label plus one, modulo 100 |
| `SharePoint.RelativePath` | src/sharepoint_client.py:99-105 | the remote path is the site prefix (when it starts with it), some '/', the result, some '/'; the result neither starts nor ends with '/' |
| `SharePoint.DriveItemPath` | src/sharepoint_client.py:107-116 | "Shared Documents/" followed by the item path gives back the relative path; other paths are kept whole |
| `SharePoint.UploadMatchesDownload` | src/sharepoint_client.py:165-184 | upload and download address the same drive item for the same inputs |
| `SharePoint.DriveRetry` | src/sharepoint_client.py:137-146 | the drive name has no '/', and drive name '/' rest gives back the relative path |
| `SharePoint.Basename` | src/sharepoint_client.py:207 | the base name has no '/' and ends the path, after a '/' when the path has one |
| `SharePoint.JoinBasename` | src/sharepoint_client.py:207 | the local path is the remote file's base name (the text after its last '/') directly inside the directory |
| `SharePoint.LocalInputPaths` | src/sharepoint_client.py:204-210 | each key maps, in order, to the remote file's base name directly inside the temporary directory |
| `SharePoint.BasenameOfJoin` | src/sharepoint_client.py:207 | the base name of a directory joined with a slash-free name is that name |
| `SharePoint.LocalNamesKept` | src/sharepoint_client.py:204-210 | each local copy has the base name of its remote file |
| `SharePoint.OutputUploads` | src/sharepoint_client.py:212-217 | three uploads, .csv, .txt and .html, local base + extension to folder + name + extension |
| `SharePoint.OutputUploadsDistinct` | src/sharepoint_client.py:212-217 | the three uploads use three different local files and three different remote files |
| `Suggestions.Blank` | scripts/find_mapping_suggestions.py:32 | same length; letters, digits and whitespace kept, every other character a space |
| `Suggestions.BlankKeepsAlnums` | scripts/find_mapping_suggestions.py:32 | blanking keeps the letters and digits in order |
| `Suggestions.Collapse` | scripts/find_mapping_suggestions.py:33 | only letters, digits and single spaces, empty iff empty, starting with a space iff the text does, letters and digits kept in order |
| `Suggestions.CollapseSpaces` | scripts/find_mapping_suggestions.py:33 | a non-empty run of whitespace becomes one space |
| `Suggestions.CollapseAlnum` | scripts/find_mapping_suggestions.py:33 | a letter or digit is kept as it is |
| `Suggestions.CollapseAppend` | scripts/find_mapping_suggestions.py:33 | collapsing works piece by piece when no whitespace run is cut in two; with the two lemmas above this fixes the result run by run |
| `Suggestions.CollapseFixed` | scripts/find_mapping_suggestions.py:33 | a text of letters, digits and single spaces is left as it is |
| `Suggestions.Normalize` | scripts/find_mapping_suggestions.py:28-34 | "" for a missing value; otherwise the stripped, lower-cased name with every other character blanked and whitespace runs collapsed: lower-case letters, digits and single spaces keeping its letters and digits, empty iff the stripped name is |
| `Suggestions.NormalizeTwice` | scripts/find_mapping_suggestions.py:28-34 | normalising a normalised name only strips it |
| `Suggestions.NormalizeTrailingSeparator` | scripts/find_mapping_suggestions.py:28-34 | "a-" normalises to "a ": punctuation at the end leaves a trailing space |
| `Suggestions.NormalizeStripsSeparator` | scripts/find_mapping_suggestions.py:28-34 | and "a " normalises to "a", so normalising is not idempotent |
| `Suggestions.Insert` | scripts/find_mapping_suggestions.py:67 | inserting into a sorted list keeps it sorted and adds exactly that element |
| `Suggestions.SortByScore` | scripts/find_mapping_suggestions.py:67 | sorted by non-increasing score, a permutation of the input |
| `Suggestions.PrefixOfSorted` | scripts/find_mapping_suggestions.py:68 | a prefix of a sorted list is sorted, and the rest is what was cut |
| `Suggestions.TopSuggestions` | scripts/find_mapping_suggestions.py:62-68 | min(8, n) suggestions, best first, drawn from the candidates, none left out scoring above one kept |
| `Text.TrimIsSlice` | src/qry_data_ingestion.py:60 | stripping leaves a contiguous slice of the text |
| `Text.TrimEnds` | src/qry_data_ingestion.py:60 | the stripped text neither starts nor ends with a stripped character |
| `Text.SplitJoin` | src/qry_data_ingestion.py:43 | joining the pieces of a split with the separator gives back the text |
| `Text.AroundLast` | src/qry_data_ingestion.py:66 | `rsplit('=', 1)` splits at the last '=', the right piece free of '=' |
| `Text.RemoveSeparator` | src/usa_spa_report.py:180 | removing a separator that occurs only between two pieces joins the pieces |
| `Numbers.RoundHalfEven` | src/base_report_generator.py:188 | the nearest integer, ties to the even one |
| `Numbers.RoundHalfEvenUnique` | src/base_report_generator.py:188 | the rounding is the only integer within a half of the value that is even at a tie |
| `Numbers.RoundHalfEvenNegate` | src/base_report_generator.py:188 | rounding is symmetric: round(-x) = -round(x) |
| `Numbers.DigitsParse` | src/usa_spa_report.py:184 | a run of digits parses as the number it denotes |

## Left out

- Reading and writing files, the network, the authentication, the web front end and the orchestration script (`full_report.py`): only their path and naming logic is modelled.
- The rendering of reports (`render_report`, `export_report`, PDF, TXT and HTML layout). Only the cell formatting and the CSV header rule are modelled.
- The USA Spa budget/prior file substitution (src/usa_spa_report.py:80-100, 106-139, 151-170). It searches a directory for alternative files, which is I/O. The model takes the reference tables as given.
- `pd.to_datetime` is an input. Reference dates arrive as already parsed (`DateOk`) or as malformed (`DateMalformed`).
- Floating point. Amounts are exact reals, so rounding error and summation order do not appear. NaN in reference value cells is not modelled either: the GVL 'Value_kEUR' and the receivables reference columns are taken as numbers.
- `float()` and `pd.to_numeric` are modelled for plain decimal text only. Exponents, 'inf' and 'nan' literals are read as unparsable.
- Unicode case mapping. `Text.LowerStr` lowers ASCII only. The Interco filter adds the two dotted/dotless i characters, the one non-ASCII case that matters for that pattern.
- `format_mtd_date_range`: it is a plain `strftime` with no logic.
- `urllib.parse.quote` is an opaque function parameter.
- The similarity score (`difflib.SequenceMatcher`) is an input. `Suggestions.TopSuggestions` does not state that the sort is stable.
- The constant output columns of `process_qry_files` ('Metric', 'Load_Timestamp', 'Customer Code', 'Total Open Value (EUR)').
- The order of the directory listing is taken as given.
- EntityResolver.ApplyMappings: states that the output rows come from the input, but not the order-preserving filter. That is stated by `EntityResolver.ApplyMappingsIsOneFilter`.
- Gvl.SectionAmounts: states only the forced zero prior of a section without items. Its sums are related to its lines by `Gvl.DataRowsAddUp`.
- Receivables.GrandTotalLine: assumes distinct regular section titles. With a repeated title, `section_totals` keeps only the later section while the accumulator has added both.
- Receivables.GrandInvariant: proved only for distinct regular section titles, which the generator never checks. With a repeated title, `section_totals` keeps only the later section while the accumulator has added both, so the recorded company sales no longer account for what was added.
- The unmapped-entity logging and the mapping-column warnings are log output only.
- Stem: states only that the name never grows, plus its value on the names of the naming scheme (`QryIngestion.StemOfName`, `QryIngestion.StemOfPlainName`). Python's `replace` removes occurrences left to right and does not rescan, so a name such as ".c.csvsv" still holds ".csv" afterwards; a general "no marker remains" promise would be false.
- The report generators' flag columns are modelled twice: the report lines carry the kind each line is meant to have, and `RowFlags` models the flag triple the generators actually return (see Findings).

## Findings

| source | as written | input that shows it | evidently intended | confidence | as-written member | corrected member |
|---|---|---|---|---|---|---|
| src/receivables_report_generator.py:252-258 | the section-total dict has no 'is_spacer' and no 'is_grand_total' key; `pd.DataFrame(report_data)` fills the missing cells with NaN and `astype(bool)` (lines 286-291) turns NaN into True. The same happens to data lines ('is_grand_total'), to the USA Spa region line (src/usa_spa_report.py:352-362) and to the USA Spa and GVL section totals | a receivables section with 'show_total': its total line comes back as spacer, total and grand total, so the renderers print it as a blank line and the CSV export (lines 427-428) drops it | every row dict writes all three flags, so each line keeps the flags of its kind | not executed | `RowFlags.ReceivablesFlagsAsWritten`, `RowFlags.ReceivablesFlagsExample` | `RowFlags.WriteAllReturnsIntended`, `RowFlags.Intended` |

=== FILE: common.dfy ===
/** What the three report generators share: the section configuration, the amounts a row
    carries, the typed report rows and the `section_totals` dictionary. */
module ReportCommon {
  import opened Wrappers
  import Utils

  /** A date as `pd.to_datetime` yields it. */
  datatype Date = Date(year: int, month: Utils.Month, day: int)

  /** A 'Date' cell parsed with a fixed format: a date, an empty cell (NaT), or text that is not a
      date in that format (which makes the parse raise). */
  datatype DateCell = DateOk(date: Date) | DateMissing | DateMalformed

  /** A numeric cell as a column sum sees it: NaN contributes nothing. */
  function Cell(x: Option<real>): real {
    x.GetOr(0.0)
  }

  /** Actual, budget and prior amounts of one report line. */
  datatype Amounts = Amounts(actual: real, budget: real, prior: real) {
    function Plus(o: Amounts): Amounts {
      Amounts(actual + o.actual, budget + o.budget, prior + o.prior)
    }
    function Minus(o: Amounts): Amounts {
      Amounts(actual - o.actual, budget - o.budget, prior - o.prior)
    }
  }

  const Zero: Amounts := Amounts(0.0, 0.0, 0.0)

  /** Amounts add like numbers: Zero is neutral, the order of addends is free, and Minus undoes Plus. */
  lemma AmountsAlgebra(a: Amounts, b: Amounts, c: Amounts)
    ensures a.Plus(Zero) == a && Zero.Plus(a) == a
    ensures a.Plus(b) == b.Plus(a)
    ensures a.Plus(b).Plus(c) == a.Plus(b.Plus(c))
    ensures a.Plus(b).Minus(b) == a
  {
  }

  /** Python truthiness of an optional string config value. */
  predicate Truthy(v: Option<string>) {
    v.Some? && v.value != ""
  }

  /** `column == value` on one cell: a null cell, or a null value, never matches. */
  predicate Matches(cell: Option<string>, value: Option<string>) {
    cell.Some? && cell == value
  }

  /** A section item; `caption` is its 'label'. `regionMap` is `None` when the item has no 'budget_region_map' key and
      `Some(v)` with the key's value otherwise. */
  datatype Item = Item(caption: string, filterValue: Option<string>, isFallback: bool, regionMap: Option<Option<string>>)

  /** One entry of the configuration's `sections` list. `items` are the items of a regular
      section and `hasItems` says whether its 'items' key is present at all; `totalItems` is the
      'items' key of a total section, which lists section titles. */
  datatype Section = Section(
    title: string,
    isGrandTotal: bool,
    isUnmapped: bool,
    isTotal: bool,
    showTotal: bool,
    hasItems: bool,
    items: seq<Item>,
    totalItems: Option<seq<string>>,
    components: seq<string>,
    companyGroup: Option<string>,
    marketGroup: Option<string>,
    sectionType: Option<string>,   // 'type'
    region: Option<string>,
    salesEmployee: Option<string>)

  /** How a section is handled; the flags are tested in this order. */
  datatype Kind = GrandTotal | Unmapped | ComponentTotal | Regular

  function KindOf(s: Section): Kind {
    if s.isGrandTotal then GrandTotal
    else if s.isUnmapped then Unmapped
    else if s.isTotal then ComponentTotal
    else Regular
  }

  /** The titles a component total sums: its 'items' if present, else its 'components'. */
  function ComponentTitles(s: Section): seq<string> {
    if s.totalItems.Some? then s.totalItems.value else s.components
  }

  datatype RowKind = DataRow | SectionTotalRow | ComponentTotalRow | GrandTotalRow | SpacerRow

  datatype ReportRow = ReportRow(caption: string, amounts: Amounts, kind: RowKind)

  const Spacer: ReportRow := ReportRow("", Zero, SpacerRow)

  /** Data lines, an optional total line and a spacer, in this order. */
  lemma Layout(data: seq<ReportRow>, total: seq<ReportRow>)
    requires forall i :: 0 <= i < |data| ==> data[i].kind == DataRow
    requires |total| <= 1 && forall i :: 0 <= i < |total| ==> total[i].kind == SectionTotalRow
    ensures var rows := data + total + [Spacer];
      && rows[|rows| - 1] == Spacer
      && (|total| == 1 <==> |rows| >= 2 && rows[|rows| - 2].kind == SectionTotalRow)
      && (|total| == 1 ==> rows[|rows| - 2] == total[0])
      && rows[..|rows| - 1 - |total|] == data
  {
    var rows := data + total + [Spacer];
    if |total| == 0 && |data| > 0 {
      assert rows[|rows| - 2] == data[|data| - 1];
    }
    assert rows[..|rows| - 1 - |total|] == data;
  }

  /** The amounts of a run of lines added up. */
  function RowsSum(rows: seq<ReportRow>): Amounts {
    if |rows| == 0 then Zero else rows[0].amounts.Plus(RowsSum(rows[1..]))
  }

  lemma RowsSumOne(r: ReportRow)
    ensures RowsSum([r]) == r.amounts
  {
    assert [r][1..] == [];
    AmountsAlgebra(r.amounts, Zero, Zero);
  }

  lemma {:induction false} RowsSumAppend(a: seq<ReportRow>, b: seq<ReportRow>)
    ensures RowsSum(a + b) == RowsSum(a).Plus(RowsSum(b))
    decreases |a|
  {
    if |a| == 0 {
      assert a + b == b;
    } else {
      assert (a + b)[1..] == a[1..] + b;
      RowsSumAppend(a[1..], b);
    }
  }

  // ---------------------------------------------------------------- section_totals

  /** A dictionary keyed by section title, as its items in insertion order. */
  type Dict<V> = seq<(string, V)>

  /** `section_totals` when it records amounts. */
  type Totals = Dict<Amounts>

  function Keys<V>(t: Dict<V>): (ks: seq<string>)
    ensures |ks| == |t| && forall i :: 0 <= i < |t| ==> ks[i] == t[i].0
  {
    seq(|t|, i requires 0 <= i < |t| => t[i].0)
  }

  predicate UniqueKeys<V>(t: Dict<V>) {
    forall i, j :: 0 <= i < j < |t| ==> t[i].0 != t[j].0
  }

  function Get<V>(t: Dict<V>, k: string): (r: Option<V>)
    ensures r.Some? <==> k in Keys(t)
    ensures r.Some? ==> exists i :: 0 <= i < |t| && t[i] == (k, r.value)
  {
    if |t| == 0 then None
    else if t[0].0 == k then Some(t[0].1)
    else
      var r := Get(t[1..], k);
      assert Keys(t) == [t[0].0] + Keys(t[1..]);
      assert r.Some? ==> exists i :: 0 <= i < |t| && t[i] == (k, r.value) by {
        if r.Some? {
          var i :| 0 <= i < |t[1..]| && t[1..][i] == (k, r.value);
          assert t[i + 1] == (k, r.value);
        }
      }
      r
  }

  /** `d[k] = v`: an existing key keeps its place, a new key goes last. */
  function Put<V>(t: Dict<V>, k: string, v: V): Dict<V> {
    if |t| == 0 then [(k, v)]
    else if t[0].0 == k then [(k, v)] + t[1..]
    else [t[0]] + Put(t[1..], k, v)
  }

  lemma KeysCons<V>(h: (string, V), t: Dict<V>)
    ensures Keys([h] + t) == [h.0] + Keys(t)
  {
  }

  /** A new key is appended after all the others. */
  lemma {:induction false} PutNew<V>(t: Dict<V>, k: string, v: V)
    requires k !in Keys(t)
    ensures Put(t, k, v) == t + [(k, v)]
    decreases |t|
  {
    if |t| > 0 {
      KeysCons(t[0], t[1..]);
      assert [t[0]] + t[1..] == t;
      PutNew(t[1..], k, v);
    }
  }

  /** Re-assigning an existing key leaves the keys and their order unchanged. */
  lemma {:induction false} PutExisting<V>(t: Dict<V>, k: string, v: V)
    requires k in Keys(t)
    ensures Keys(Put(t, k, v)) == Keys(t)
    decreases |t|
  {
    KeysCons(t[0], t[1..]);
    assert [t[0]] + t[1..] == t;
    if t[0].0 == k {
      KeysCons((k, v), t[1..]);
    } else {
      PutExisting(t[1..], k, v);
      KeysCons(t[0], Put(t[1..], k, v));
    }
  }

  /** Every entry after `d[k] = v` is the new one or an old one. */
  lemma {:induction false} PutEntries<V>(t: Dict<V>, k: string, v: V)
    ensures forall e :: e in Put(t, k, v) ==> e == (k, v) || e in t
    decreases |t|
  {
    if |t| > 0 && t[0].0 != k {
      PutEntries(t[1..], k, v);
    }
  }

  /** After `d[k] = v`, `d[k]` is `v` and every other key reads as before. */
  lemma {:induction false} PutGet<V>(t: Dict<V>, k: string, v: V, k2: string)
    ensures Get(Put(t, k, v), k2) == if k2 == k then Some(v) else Get(t, k2)
    decreases |t|
  {
    if |t| > 0 && t[0].0 != k {
      PutGet(t[1..], k, v, k2);
      assert Put(t, k, v)[1..] == Put(t[1..], k, v);
    }
  }

  lemma {:induction false} PutKeepsUnique<V>(t: Dict<V>, k: string, v: V)
    requires UniqueKeys(t)
    ensures UniqueKeys(Put(t, k, v))
  {
    var r := Put(t, k, v);
    if k !in Keys(t) {
      PutNew(t, k, v);
      assert forall i :: 0 <= i < |t| ==> t[i].0 != k;
    } else {
      PutExisting(t, k, v);
      assert forall i :: 0 <= i < |r| ==> r[i].0 == Keys(t)[i];
    }
  }

  /** A component total: the recorded totals of the listed titles; unrecorded titles add nothing. */
  function ComponentSum(totals: Totals, titles: seq<string>): Amounts {
    if |titles| == 0 then Zero else Get(totals, titles[0]).GetOr(Zero).Plus(ComponentSum(totals, titles[1..]))
  }

  /** Sum of the amounts recorded under keys satisfying `p`. */
  function SumWhereKey(t: Totals, p: string -> bool): Amounts {
    if |t| == 0 then Zero
    else (if p(t[0].0) then t[0].1 else Zero).Plus(SumWhereKey(t[1..], p))
  }

  lemma {:induction false} SumWhereKeyAppend(t: Totals, k: string, v: Amounts, p: string -> bool)
    ensures SumWhereKey(t + [(k, v)], p) == SumWhereKey(t, p).Plus(if p(k) then v else Zero)
    decreases |t|
  {
    if |t| == 0 {
      assert t + [(k, v)] == [(k, v)];
      assert [(k, v)][1..] == [];
    } else {
      assert (t + [(k, v)])[1..] == t[1..] + [(k, v)];
      SumWhereKeyAppend(t[1..], k, v, p);
    }
  }
}

=== FILE: display.dfy ===
/** Cell formatting shared by the report generators (src/base_report_generator.py). */
module Display {
  import opened Wrappers
  import opened Text
  import opened Numbers

  function Abs(x: real): real {
    if x < 0.0 then -x else x
  }

  /** Percentage deviation of `actual` from `reference` (`actual / reference * 100 - 100`),
      0 when there is no reference to compare with. */
  function DeltaPercent(actual: real, reference: real): (p: real)
    ensures reference != 0.0 ==> (p + 100.0) * reference == actual * 100.0
    ensures reference == 0.0 ==> p == 0.0
  {
    if reference != 0.0 then actual / reference * 100.0 - 100.0 else 0.0
  }

  /** `str(i)` reads back as `i`. */
  lemma IntToStringParses(i: int)
    ensures ParseDecimal(IntToString(i)) == Some(i as real)
  {
    var s := IntToString(i);
    if i < 0 {
      var u := NatToString(-i);
      StripNumeral(s);
      assert s[1..] == u;
      assert '.' !in u by { assert forall k :: 0 <= k < |u| ==> IsDigit(u[k]); }
      NatToStringValue(-i);
    } else {
      NatToStringParses(i);
    }
  }

  /** `format_number`: the value rounded half-to-even to an integer, `placeholder` for an exact zero,
      and the literal "0" for a non-zero magnitude below one half. */
  function FormatNumber(value: real, placeholder: string): (r: string)
    ensures value == 0.0 ==> r == placeholder
    ensures value != 0.0 ==> r == IntToString(RoundHalfEven(value))
    ensures value != 0.0 ==> ParseDecimal(r) == Some(RoundHalfEven(value) as real)
    ensures value != 0.0 ==> Abs(ParseDecimal(r).value - value) <= 1.0 / 2.0
  {
    var n := RoundHalfEven(value);
    IntToStringParses(n);
    if Abs(value) >= 1.0 / 2.0 then IntToString(n)
    else if value == 0.0 then placeholder
    else
      assert n == 0;
      assert IntToString(n) == [DigitChar(0)];
      "0"
  }

  /** Worked case of `format_number`: 1234.56 shows as "1235". */
  lemma FormatNumberExample()
    ensures FormatNumber(1234.56, "-") == "1235"
  {
    RoundHalfEvenUnique(1234.56, 1235);
    IntText1235();
  }

  lemma IntText1235()
    ensures IntToString(1235) == "1235"
  {
    assert NatToString(12) == NatToString(1) + [DigitChar(2)];
    assert NatToString(123) == NatToString(12) + [DigitChar(3)];
    assert NatToString(1235) == NatToString(123) + [DigitChar(5)];
  }

  /** `format_number` ties go to the even neighbour (0.5 as "0", 2.5 as "2", -2.5 as "-2"), a small
      non-zero value shows as "0" and an exact zero as the placeholder. */
  lemma FormatNumberTies()
    ensures FormatNumber(0.5, "-") == "0" && FormatNumber(2.5, "-") == "2" && FormatNumber(-2.5, "-") == "-2"
    ensures FormatNumber(0.2, "-") == "0" && FormatNumber(0.0, "-") == "-"
  {
    FormatsAs(0.5, 0, "0");
    FormatsAs(2.5, 2, "2");
    FormatsAs(-2.5, -2, "-2");
    FormatsAs(0.2, 0, "0");
  }

  /** A non-zero value whose rounding is `n` shows as the text of `n`. */
  lemma FormatsAs(x: real, n: int, text: string)
    requires x != 0.0 && -1.0 / 2.0 <= n as real - x <= 1.0 / 2.0
    requires (n as real - x == 1.0 / 2.0 || x - n as real == 1.0 / 2.0) ==> n % 2 == 0
    requires -9 <= n <= 9 && text == (if n < 0 then "-" else "") + [DigitChar(if n < 0 then -n else n)]
    ensures FormatNumber(x, "-") == text
  {
    RoundHalfEvenUnique(x, n);
    assert FormatNumber(x, "-") == IntToString(n);
    SmallIntText(n);
  }

  lemma SmallIntText(n: int)
    requires -9 <= n <= 9
    ensures IntToString(n) == (if n < 0 then "-" else "") + [DigitChar(if n < 0 then -n else n)]
  {
  }

  /** `f"{x:.1f}"`: sign, whole part, one decimal, the tenths rounded half-to-even. */
  function FixedOne(x: real): string {
    (if x < 0.0 then "-" else "") + TenthsText(TenthsOf(x))
  }

  /** The magnitude of `x` in tenths, rounded half-to-even. */
  function TenthsOf(x: real): (t: nat)
    ensures -1.0 / 2.0 <= t as real - Abs(x) * 10.0 <= 1.0 / 2.0
  {
    RoundHalfEven(Abs(x) * 10.0)
  }

  /** `x` rounded to tenths, ties to the even tenth, the sign kept. */
  function NearestTenth(x: real): (v: real)
    ensures Abs(v - x) <= 1.0 / 20.0
    ensures (v < 0.0 ==> x < 0.0) && (x > 0.0 ==> v >= 0.0)
  {
    var t := TenthsOf(x) as real / 10.0;
    if x < 0.0 then -t else t
  }

  /** The one-decimal text has exactly one digit after its point. */
  lemma FixedOneShape(x: real)
    ensures |FixedOne(x)| >= 3 && FixedOne(x)[|FixedOne(x)| - 2] == '.' && IsDigit(FixedOne(x)[|FixedOne(x)| - 1])
  {
    var t := TenthsOf(x);
    var u := TenthsText(t);
    assert u[|u| - 2] == '.';
    assert FixedOne(x) == (if x < 0.0 then "-" else "") + u;
  }

  /** The one-decimal text reads back as the number rounded to tenths. */
  lemma FixedOneParses(x: real)
    ensures ParseDecimal(FixedOne(x)) == Some(NearestTenth(x))
    ensures Abs(ParseDecimal(FixedOne(x)).value - x) <= 1.0 / 20.0
  {
    if x < 0.0 {
      FixedOneNegative(x);
    } else {
      FixedOneNonNegative(x);
    }
  }

  lemma FixedOneNegative(x: real)
    requires x < 0.0
    ensures ParseDecimal(FixedOne(x)) == Some(NearestTenth(x))
  {
    var t := TenthsOf(x);
    var v := t as real / 10.0;
    FixedOneParts(x);
    NegatedTenths(FixedOne(x), t, v);
    NearestTenthParts(x, v);
  }

  lemma FixedOneNonNegative(x: real)
    requires x >= 0.0
    ensures ParseDecimal(FixedOne(x)) == Some(NearestTenth(x))
  {
    var t := TenthsOf(x);
    var v := t as real / 10.0;
    FixedOneParts(x);
    UnsignedTenths(FixedOne(x), t, v);
    NearestTenthParts(x, v);
  }

  /** The tenths text reads back as its value `v`. */
  lemma UnsignedTenths(s: string, t: nat, v: real)
    requires s == TenthsText(t) && v == t as real / 10.0
    ensures ParseDecimal(s) == Some(v)
  {
    TenthsTextNumeral(t);
    UnsignedParses(s, v);
  }

  /** With a minus sign in front, the tenths text reads back as its negated value `-v`. */
  lemma NegatedTenths(s: string, t: nat, v: real)
    requires s == "-" + TenthsText(t) && v == t as real / 10.0
    ensures ParseDecimal(s) == Some(-v)
  {
    TenthsTextNumeral(t);
    NegatedParses(s, TenthsText(t), v);
  }

  lemma NearestTenthParts(x: real, v: real)
    requires v == TenthsOf(x) as real / 10.0
    ensures NearestTenth(x) == if x < 0.0 then -v else v
  {
  }

  lemma FixedOneParts(x: real)
    ensures x < 0.0 ==> FixedOne(x) == "-" + TenthsText(TenthsOf(x)) && NearestTenth(x) == -(TenthsOf(x) as real / 10.0)
    ensures x >= 0.0 ==> FixedOne(x) == TenthsText(TenthsOf(x)) && NearestTenth(x) == TenthsOf(x) as real / 10.0
  {
  }

  lemma TenthsTextNumeral(t: nat)
    ensures var u := TenthsText(t);
      |u| > 0 && IsDigit(u[0]) && IsDigit(u[|u| - 1]) && ParseUnsigned(u) == Some(t as real / 10.0)
  {
    var u := TenthsText(t);
    assert IsDigit(u[0]) by { assert IsDigit(NatToString(t / 10)[0]); }
    assert IsDigit(u[|u| - 1]);
    TenthsTextParses(t);
  }

  /** `format_percentage`: the deviation of numerator from denominator to one decimal with a
      percent sign, or `placeholder` when the denominator is zero. */
  function FormatPercentage(numerator: real, denominator: real, placeholder: string): (r: string)
    ensures denominator == 0.0 ==> r == placeholder
    ensures denominator != 0.0 ==>
      && EndsWith(r, "%") && |r| >= 4
      && r[|r| - 3] == '.' && IsDigit(r[|r| - 2])
      && ParseDecimal(r[..|r| - 1]) == Some(NearestTenth(DeltaPercent(numerator, denominator)))
      && Abs(ParseDecimal(r[..|r| - 1]).value - DeltaPercent(numerator, denominator)) <= 1.0 / 20.0
  {
    if denominator != 0.0 then
      var pct := DeltaPercent(numerator, denominator);
      var body := FixedOne(pct);
      FixedOneParses(pct);
      FixedOneShape(pct);
      assert (body + "%")[..|body|] == body;
      body + "%"
    else placeholder
  }

  /** Worked case of `format_percentage`: 125 against 100 shows as "25.0%"; no denominator shows
      the placeholder. */
  lemma FormatPercentageExample()
    ensures FormatPercentage(125.0, 100.0, "-") == "25.0%"
    ensures FormatPercentage(125.0, 0.0, "-") == "-"
  {
    assert DeltaPercent(125.0, 100.0) == 25.0;
    RoundHalfEvenUnique(250.0, 250);
    assert NatToString(25) == NatToString(2) + [DigitChar(5)];
    assert FixedOne(25.0) == "25.0";
  }

  /** `export_to_csv` header rule: the given headers replace the column names only when there is
      exactly one header per column; the number of columns never changes. */
  function CsvHeaders(columns: seq<string>, headers: seq<string>): (r: seq<string>)
    ensures |r| == |columns|
    ensures r == headers || r == columns
    ensures r == headers <== |headers| == |columns|
  {
    if |headers| == |columns| then headers else columns
  }
}

=== FILE: flags.dfy ===
/** The three flag columns of a report DataFrame ('is_spacer', 'is_total', 'is_grand_total') as the
    generators return them. `pd.DataFrame(report_data)` leaves NaN where a row dict lacks a key, and
    the following `astype(bool)` turns NaN into True; a column that no row dict carries makes the
    cast raise KeyError. */
module RowFlags {
  import opened Wrappers
  import opened ReportCommon

  /** The flag keys one row dict writes; `None` where the dict has no such key. */
  datatype Written = Written(spacer: Option<bool>, total: Option<bool>, grand: Option<bool>)

  /** The flags of one row after the cast. */
  datatype Flags = Flags(spacer: bool, total: bool, grand: bool)

  /** `bool(NaN)` is True. */
  function AsBool(c: Option<bool>): bool {
    c.None? || c.value
  }

  function Read(w: Written): Flags {
    Flags(AsBool(w.spacer), AsBool(w.total), AsBool(w.grand))
  }

  /** Every flag column exists: some row dict carries each key. */
  predicate HasColumns(ds: seq<Written>) {
    && (exists i :: 0 <= i < |ds| && ds[i].spacer.Some?)
    && (exists i :: 0 <= i < |ds| && ds[i].total.Some?)
    && (exists i :: 0 <= i < |ds| && ds[i].grand.Some?)
  }

  /** The three casts: KeyError (`None`) when a column is missing, else one flag triple per row. */
  function Returned(ds: seq<Written>): (r: Option<seq<Flags>>)
    ensures r.None? <==> !HasColumns(ds)
    ensures r.Some? ==> |r.value| == |ds|
    ensures r.Some? ==> forall i :: 0 <= i < |ds| ==>
      (r.value[i].spacer <==> ds[i].spacer != Some(false)) &&
      (r.value[i].total <==> ds[i].total != Some(false)) &&
      (r.value[i].grand <==> ds[i].grand != Some(false))
  {
    if HasColumns(ds) then Some(seq(|ds|, i requires 0 <= i < |ds| => Read(ds[i]))) else None
  }

  /** The flags a row of each kind is meant to carry. */
  function Intended(kind: RowKind): (f: Flags)
    ensures f.spacer <==> kind == SpacerRow
    ensures f.grand <==> kind == GrandTotalRow
    ensures f.total <==> kind == SectionTotalRow || kind == ComponentTotalRow || kind == GrandTotalRow
  {
    Flags(kind.SpacerRow?, kind.SectionTotalRow? || kind.ComponentTotalRow? || kind.GrandTotalRow?, kind.GrandTotalRow?)
  }

  /** The intended flags tell the kinds apart, except that a section total and a component total
      both read as plain totals. */
  lemma IntendedSeparates(a: RowKind, b: RowKind)
    requires Intended(a) == Intended(b)
    ensures a == b || ({a, b} <= {SectionTotalRow, ComponentTotalRow})
  {
  }

  /** A dict that writes all three keys with the intended values. */
  function WriteAll(kind: RowKind): Written {
    var f := Intended(kind);
    Written(Some(f.spacer), Some(f.total), Some(f.grand))
  }

  /** Which generator built the row. */
  datatype Report = ReceivablesReport | UsaSpaReport | GvlReport

  /** The keys the generators' dict literals actually write. Data lines carry 'is_total' and
      'is_spacer' but no 'is_grand_total'; the receivables section total carries only 'is_total';
      a USA Spa region line (`regionLine`, the line a section without items emits for its region)
      carries only 'is_total'; the USA Spa and GVL section totals lack 'is_grand_total'. Spacers,
      component totals and grand totals write all three. */
  function WrittenAsIs(report: Report, kind: RowKind, regionLine: bool): Written {
    match kind
    case DataRow =>
      if report == UsaSpaReport && regionLine then Written(None, Some(false), None)
      else Written(Some(false), Some(false), None)
    case SectionTotalRow =>
      if report == ReceivablesReport then Written(None, Some(true), None)
      else Written(Some(false), Some(true), None)
    case _ => WriteAll(kind)
  }

  function ReceivablesWritten(rows: seq<ReportRow>): seq<Written> {
    seq(|rows|, i requires 0 <= i < |rows| => WrittenAsIs(ReceivablesReport, rows[i].kind, false))
  }

  function GvlWritten(rows: seq<ReportRow>): seq<Written> {
    seq(|rows|, i requires 0 <= i < |rows| => WrittenAsIs(GvlReport, rows[i].kind, false))
  }

  function UsaSpaWritten(kinds: seq<RowKind>, regionLines: seq<bool>): seq<Written>
    requires |kinds| == |regionLines|
  {
    seq(|kinds|, i requires 0 <= i < |kinds| => WrittenAsIs(UsaSpaReport, kinds[i], regionLines[i]))
  }

  /** A row kind whose dict writes every key. */
  predicate FullDict(k: RowKind) {
    k == SpacerRow || k == ComponentTotalRow || k == GrandTotalRow
  }

  /** The returned flags of one dict literal, by generator and row kind. */
  lemma ReadAsIs(report: Report, kind: RowKind, regionLine: bool)
    requires regionLine ==> report == UsaSpaReport && kind == DataRow
    ensures var f := Read(WrittenAsIs(report, kind, regionLine));
      && (regionLine ==> f == Flags(true, false, true))
      && (kind == DataRow && !regionLine ==> f == Flags(false, false, true))
      && (kind == SectionTotalRow ==> f == (if report == ReceivablesReport then Flags(true, true, true) else Flags(false, true, true)))
      && (f == Intended(kind) <==> FullDict(kind))
  {
  }

  /** The columns exist exactly when some dict writes all three keys, given that every other dict
      writes 'is_total'. */
  lemma {:induction false} ColumnsIffFull(ds: seq<Written>, kinds: seq<RowKind>)
    requires |ds| == |kinds|
    requires forall i :: 0 <= i < |ds| ==> ds[i].total.Some?
    requires forall i :: 0 <= i < |ds| ==> (FullDict(kinds[i]) <==> ds[i].spacer.Some? && ds[i].grand.Some?)
    requires forall i :: 0 <= i < |ds| ==> (ds[i].grand.Some? ==> FullDict(kinds[i]))
    ensures HasColumns(ds) <==> exists j :: 0 <= j < |kinds| && FullDict(kinds[j])
  {
    if exists j :: 0 <= j < |kinds| && FullDict(kinds[j]) {
      var j :| 0 <= j < |kinds| && FullDict(kinds[j]);
      assert ds[j].spacer.Some? && ds[j].total.Some? && ds[j].grand.Some?;
    }
  }

  function Kinds(rows: seq<ReportRow>): (ks: seq<RowKind>)
    ensures |ks| == |rows| && forall i :: 0 <= i < |rows| ==> ks[i] == rows[i].kind
  {
    seq(|rows|, i requires 0 <= i < |rows| => rows[i].kind)
  }

  /** As written, the receivables report returns a section total as a spacer that is also a grand
      total (so the renderers print it as a blank line and the CSV export drops it) and every data
      line as a grand total; it raises when no spacer, component total or grand total is present,
      the empty report included. Spacers and the two kinds of total that write all keys come back
      as intended. */
  lemma ReceivablesFlagsAsWritten(rows: seq<ReportRow>)
    ensures Returned(ReceivablesWritten(rows)).None? <==> forall j :: 0 <= j < |rows| ==> !FullDict(rows[j].kind)
    ensures Returned(ReceivablesWritten(rows)).Some? ==> forall i :: 0 <= i < |rows| ==>
      && (rows[i].kind == SectionTotalRow ==> Returned(ReceivablesWritten(rows)).value[i] == Flags(true, true, true))
      && (rows[i].kind == DataRow ==> Returned(ReceivablesWritten(rows)).value[i] == Flags(false, false, true))
      && (Returned(ReceivablesWritten(rows)).value[i] == Intended(rows[i].kind) <==> FullDict(rows[i].kind))
  {
    var ds := ReceivablesWritten(rows);
    ColumnsIffFull(ds, Kinds(rows));
    forall i | 0 <= i < |rows| {
      ReadAsIs(ReceivablesReport, rows[i].kind, false);
    }
  }

  /** As written, the GVL report returns every data line and every section total as a grand
      total; it raises when no spacer, component total or grand total is present. */
  lemma GvlFlagsAsWritten(rows: seq<ReportRow>)
    ensures Returned(GvlWritten(rows)).None? <==> forall j :: 0 <= j < |rows| ==> !FullDict(rows[j].kind)
    ensures Returned(GvlWritten(rows)).Some? ==> forall i :: 0 <= i < |rows| ==>
      && (rows[i].kind == SectionTotalRow ==> Returned(GvlWritten(rows)).value[i] == Flags(false, true, true))
      && (rows[i].kind == DataRow ==> Returned(GvlWritten(rows)).value[i] == Flags(false, false, true))
      && (Returned(GvlWritten(rows)).value[i] == Intended(rows[i].kind) <==> FullDict(rows[i].kind))
  {
    var ds := GvlWritten(rows);
    ColumnsIffFull(ds, Kinds(rows));
    forall i | 0 <= i < |rows| {
      ReadAsIs(GvlReport, rows[i].kind, false);
    }
  }

  /** As written, the USA Spa report returns a region line as a spacer that is also a grand total
      (printed as a blank line, dropped from the CSV), and item lines and section totals as grand
      totals. */
  lemma UsaSpaFlagsAsWritten(kinds: seq<RowKind>, regionLines: seq<bool>)
    requires |kinds| == |regionLines|
    requires forall i :: 0 <= i < |kinds| && regionLines[i] ==> kinds[i] == DataRow
    ensures Returned(UsaSpaWritten(kinds, regionLines)).None? <==> forall j :: 0 <= j < |kinds| ==> !FullDict(kinds[j])
    ensures Returned(UsaSpaWritten(kinds, regionLines)).Some? ==> forall i :: 0 <= i < |kinds| ==>
      && (regionLines[i] ==> Returned(UsaSpaWritten(kinds, regionLines)).value[i] == Flags(true, false, true))
      && (kinds[i] == DataRow && !regionLines[i] ==> Returned(UsaSpaWritten(kinds, regionLines)).value[i] == Flags(false, false, true))
      && (kinds[i] == SectionTotalRow ==> Returned(UsaSpaWritten(kinds, regionLines)).value[i] == Flags(false, true, true))
      && (Returned(UsaSpaWritten(kinds, regionLines)).value[i] == Intended(kinds[i]) <==> FullDict(kinds[i]))
  {
    var ds := UsaSpaWritten(kinds, regionLines);
    ColumnsIffFull(ds, kinds);
    forall i | 0 <= i < |kinds| {
      ReadAsIs(UsaSpaReport, kinds[i], regionLines[i]);
    }
  }

  /** One small receivables report that shows the discrepancy: a data line, its section total and
      the spacer come back as (grand total), (spacer, total, grand total) and (spacer). */
  lemma ReceivablesFlagsExample()
    ensures var rows := [ReportRow("A", Zero, DataRow), ReportRow("S", Zero, SectionTotalRow), Spacer];
      Returned(ReceivablesWritten(rows)) == Some([Flags(false, false, true), Flags(true, true, true), Flags(true, false, false)])
  {
    var rows := [ReportRow("A", Zero, DataRow), ReportRow("S", Zero, SectionTotalRow), Spacer];
    ReceivablesFlagsAsWritten(rows);
    assert FullDict(rows[2].kind);
    var r := Returned(ReceivablesWritten(rows)).value;
    assert r[0] == Flags(false, false, true) && r[1] == Flags(true, true, true) && r[2] == Flags(true, false, false);
    assert |r| == 3;
    assert r == [Flags(false, false, true), Flags(true, true, true), Flags(true, false, false)];
  }

  /** With every dict writing all three keys, any non-empty report returns exactly the intended
      flags of its rows. */
  lemma WriteAllReturnsIntended(kinds: seq<RowKind>)
    requires |kinds| > 0
    ensures Returned(seq(|kinds|, i requires 0 <= i < |kinds| => WriteAll(kinds[i]))) ==
            Some(seq(|kinds|, i requires 0 <= i < |kinds| => Intended(kinds[i])))
  {
    var ds := seq(|kinds|, i requires 0 <= i < |kinds| => WriteAll(kinds[i]));
    assert ds[0].spacer.Some? && ds[0].total.Some? && ds[0].grand.Some?;
    assert HasColumns(ds);
    var want := seq(|kinds|, i requires 0 <= i < |kinds| => Intended(kinds[i]));
    var r := Returned(ds).value;
    forall i | 0 <= i < |kinds|
      ensures r[i] == want[i]
    {
    }
    assert r == want;
  }

  /** The positions, from `start` on, of the rows the CSV export keeps: those whose returned
      'is_spacer' is False, in order. */
  function CsvKept(flags: seq<Flags>, start: nat): (r: seq<nat>)
    requires start <= |flags|
    ensures forall k :: k in r <==> start <= k < |flags| && !flags[k].spacer
    ensures forall i, j :: 0 <= i < j < |r| ==> r[i] < r[j]
    decreases |flags| - start
  {
    if start == |flags| then []
    else
      var rest := CsvKept(flags, start + 1);
      assert forall j :: 0 <= j < |rest| ==> rest[j] in rest;
      (if flags[start].spacer then [] else [start]) + rest
  }

  /** As written, no receivables section total reaches the CSV export. */
  lemma ReceivablesSectionTotalsNotExported(rows: seq<ReportRow>, i: nat)
    requires i < |rows| && rows[i].kind == SectionTotalRow
    requires Returned(ReceivablesWritten(rows)).Some?
    ensures i !in CsvKept(Returned(ReceivablesWritten(rows)).value, 0)
  {
    ReceivablesFlagsAsWritten(rows);
  }
}

=== FILE: gvl.dfy ===
/** The GVL report (src/gvl_report.py): AR sales per salesperson in kEUR against the budget and
    the prior-year value looked up for that salesperson, with a grand total that adds up the
    component totals only. */
module Gvl {
  import opened Wrappers
  import opened Text
  import opened Seqs
  import opened ReportCommon
  import Utils

  // ---------------------------------------------------------------- _prepare_data

  /** A resolved sales row; `employee` is 'Sales_Employee_Cleaned' and `None` amounts are NaN. */
  datatype SalesInput = SalesInput(
    documentType: Option<string>,
    employee: Option<string>,
    converted: Option<real>,   // 'Value_in_EUR_converted'
    totalValue: Option<real>)  // 'Total Value (EUR)'

  /** The sales table; `hasConverted` says whether the converted-value column exists. */
  datatype SalesTable = SalesTable(hasConverted: bool, rows: seq<SalesInput>)

  /** A budget or prior row: its 'Date' cell, its 'Sales Employee / Account' cell and 'Value_kEUR'. */
  datatype RefInput = RefInput(date: DateCell, account: Option<string>, keur: real)

  /** A reference row keyed by its cleaned salesperson. */
  datatype RefRow = RefRow(date: DateCell, employee: string, keur: real)

  datatype SalesRow = SalesRow(employee: Option<string>, kEur: real)

  /** The period data the report is computed from. */
  datatype Prepared = Prepared(sales: seq<SalesRow>, budget: seq<RefRow>, prior: seq<RefRow>)

  /** 'Sales_Employee_Cleaned' of a reference row: the account trimmed, an empty cell read as "". */
  function CleanAccount(account: Option<string>): string {
    Strip(account.GetOr(""))
  }

  function ToRefRow(r: RefInput): RefRow {
    RefRow(r.date, CleanAccount(r.account), r.keur)
  }

  function ToSalesRow(hasConverted: bool, r: SalesInput): SalesRow {
    SalesRow(r.employee, Cell(if hasConverted then r.converted else r.totalValue) / 1000.0)
  }

  predicate IsAr(r: SalesInput) {
    r.documentType == Some("AR")
  }

  /** A budget row of the clock's month, in any year. */
  predicate InBudgetPeriod(now: Utils.Now, r: RefRow) {
    r.date.DateOk? && r.date.date.month == now.month
  }

  /** A prior row of the clock's month in the year before. */
  predicate InPriorPeriod(now: Utils.Now, r: RefRow) {
    r.date.DateOk? && r.date.date.year == now.year - 1 && r.date.date.month == now.month
  }

  predicate Unparsable(rows: seq<RefInput>) {
    exists i :: 0 <= i < |rows| && rows[i].date.DateMalformed?
  }

  /** `_prepare_data` for the clock reading `now`: AR sales in kEUR, and the budget and prior rows of
      the period keyed by their cleaned salesperson. `None` when a budget or prior date does not
      parse. */
  function Prepare(sales: SalesTable, budget: seq<RefInput>, prior: seq<RefInput>, now: Utils.Now): (p: Option<Prepared>)
    ensures p.None? <==> Unparsable(budget) || Unparsable(prior)
    ensures p.Some? ==> p.value.sales == ArSales(sales)
    ensures p.Some? ==> p.value.budget == BudgetRows(budget, now) && p.value.prior == PriorRows(prior, now)
  {
    if Unparsable(budget) || Unparsable(prior) then None
    else Some(Prepared(ArSales(sales), BudgetRows(budget, now), PriorRows(prior, now)))
  }

  /** The AR sales rows in kEUR. */
  function ArSales(sales: SalesTable): seq<SalesRow> {
    SalesRows(sales.hasConverted, Where(sales.rows, IsAr))
  }

  function SalesRows(hasConverted: bool, ar: seq<SalesInput>): seq<SalesRow> {
    seq(|ar|, i requires 0 <= i < |ar| => ToSalesRow(hasConverted, ar[i]))
  }

  /** Exactly the AR rows of the sales table reach the report, each converted to kEUR, in table
      order and with their multiplicity. */
  lemma ArSalesMembers(sales: SalesTable)
    ensures forall x :: x in ArSales(sales) <==> exists y :: y in sales.rows && IsAr(y) && x == ToSalesRow(sales.hasConverted, y)
    ensures var ar := Where(sales.rows, IsAr);
      && |ArSales(sales)| == |ar|
      && forall i :: 0 <= i < |ar| ==> ArSales(sales)[i] == ToSalesRow(sales.hasConverted, ar[i])
  {
    var ar := Where(sales.rows, IsAr);
    var r := ArSales(sales);
    forall x | x in r ensures exists y :: y in sales.rows && IsAr(y) && x == ToSalesRow(sales.hasConverted, y) {
      var i :| 0 <= i < |r| && r[i] == x;
      assert ar[i] in ar;
    }
    forall y | y in sales.rows && IsAr(y) ensures ToSalesRow(sales.hasConverted, y) in r {
      assert y in ar;
      var i :| 0 <= i < |ar| && ar[i] == y;
      assert r[i] == ToSalesRow(sales.hasConverted, y);
    }
  }

  /** The budget rows of the clock's month. */
  function BudgetRows(budget: seq<RefInput>, now: Utils.Now): (r: seq<RefRow>)
    ensures forall x :: x in r <==> (exists i :: 0 <= i < |budget| && x == ToRefRow(budget[i])) && InBudgetPeriod(now, x)
  {
    RefRowsMembers(budget);
    Where(RefRows(budget), BudgetPeriodOf(now))
  }

  function BudgetPeriodOf(now: Utils.Now): RefRow -> bool {
    (x: RefRow) => InBudgetPeriod(now, x)
  }

  function PriorPeriodOf(now: Utils.Now): RefRow -> bool {
    (x: RefRow) => InPriorPeriod(now, x)
  }

  /** The prior rows of the clock's month a year back. */
  function PriorRows(prior: seq<RefInput>, now: Utils.Now): (r: seq<RefRow>)
    ensures forall x :: x in r <==> (exists i :: 0 <= i < |prior| && x == ToRefRow(prior[i])) && InPriorPeriod(now, x)
  {
    RefRowsMembers(prior);
    Where(RefRows(prior), PriorPeriodOf(now))
  }

  function RefRows(rows: seq<RefInput>): (r: seq<RefRow>)
    ensures |r| == |rows| && forall i :: 0 <= i < |rows| ==> r[i] == ToRefRow(rows[i])
  {
    seq(|rows|, i requires 0 <= i < |rows| => ToRefRow(rows[i]))
  }

  lemma RefRowsMembers(rows: seq<RefInput>)
    ensures forall x :: x in RefRows(rows) <==> exists i :: 0 <= i < |rows| && x == ToRefRow(rows[i])
  {
    var all := RefRows(rows);
    forall x | x in all ensures exists i :: 0 <= i < |rows| && x == ToRefRow(rows[i]) {
      var i :| 0 <= i < |all| && all[i] == x;
    }
  }

  // ---------------------------------------------------------------- _get_budget_value / _get_prior_value

  predicate HasEmployee(name: string, r: RefRow) {
    r.employee == name
  }

  /** `rows[rows['Sales_Employee_Cleaned'] == name]`. */
  function Matching(rows: seq<RefRow>, name: string): seq<RefRow> {
    Where(rows, (r: RefRow) => HasEmployee(name, r))
  }

  /** `_get_budget_value` and `_get_prior_value` as written: when the salesperson occurs, the value
      of the first of the matching rows, else 0. */
  function LookupValue(rows: seq<RefRow>, name: string): real {
    if exists i :: 0 <= i < |rows| && HasEmployee(name, rows[i]) then
      assert |Matching(rows, name)| > 0 by {
        var i :| 0 <= i < |rows| && HasEmployee(name, rows[i]);
        assert rows[i] in Matching(rows, name);
      }
      Matching(rows, name)[0].keur
    else 0.0
  }

  /** Row `i` is the first row for `name`. */
  predicate FirstFor(rows: seq<RefRow>, name: string, i: int) {
    0 <= i < |rows| && rows[i].employee == name && forall j :: 0 <= j < i ==> rows[j].employee != name
  }

  /** The value of the first row for `name`, 0 when there is none; later rows never add to it. */
  function FirstValue(rows: seq<RefRow>, name: string): (v: real)
    ensures (forall i :: 0 <= i < |rows| ==> rows[i].employee != name) ==> v == 0.0
    ensures forall i :: FirstFor(rows, name, i) ==> v == rows[i].keur
  {
    if |rows| == 0 then 0.0
    else if rows[0].employee == name then rows[0].keur
    else
      var v := FirstValue(rows[1..], name);
      assert forall i :: FirstFor(rows, name, i) ==> FirstFor(rows[1..], name, i - 1);
      v
  }

  /** The lookup as written is the first-match value. */
  lemma {:induction false} LookupIsFirst(rows: seq<RefRow>, name: string)
    ensures LookupValue(rows, name) == FirstValue(rows, name)
    decreases |rows|
  {
    if |rows| > 0 {
      if HasEmployee(name, rows[0]) {
        assert Matching(rows, name) == [rows[0]] + Matching(rows[1..], name);
      } else {
        assert Matching(rows, name) == Matching(rows[1..], name);
        LookupIsFirst(rows[1..], name);
        ShiftedOccurrence(rows, name);
      }
    }
  }

  lemma ShiftedOccurrence(rows: seq<RefRow>, name: string)
    requires |rows| > 0 && !HasEmployee(name, rows[0])
    ensures (exists i :: 0 <= i < |rows| && HasEmployee(name, rows[i])) ==
            (exists i :: 0 <= i < |rows[1..]| && HasEmployee(name, rows[1..][i]))
  {
    if exists i :: 0 <= i < |rows| && HasEmployee(name, rows[i]) {
      var i :| 0 <= i < |rows| && HasEmployee(name, rows[i]);
      assert rows[1..][i - 1] == rows[i];
    }
    if exists i :: 0 <= i < |rows[1..]| && HasEmployee(name, rows[1..][i]) {
      var i :| 0 <= i < |rows[1..]| && HasEmployee(name, rows[1..][i]);
      assert rows[i + 1] == rows[1..][i];
    }
  }

  /** Rows appended after a row for `name` do not change its value: values are taken, not summed. */
  lemma {:induction false} FirstValueAppend(rows: seq<RefRow>, more: seq<RefRow>, name: string)
    requires exists i :: 0 <= i < |rows| && rows[i].employee == name
    ensures FirstValue(rows + more, name) == FirstValue(rows, name)
    decreases |rows|
  {
    if rows[0].employee != name {
      assert (rows + more)[1..] == rows[1..] + more;
      var i :| 0 <= i < |rows| && rows[i].employee == name;
      assert rows[1..][i - 1] == rows[i];
      FirstValueAppend(rows[1..], more, name);
    }
  }

  /** Row `i` is the first row that passes `keep` and belongs to `name`. */
  predicate FirstKeptFor(rows: seq<RefRow>, keep: RefRow -> bool, name: string, i: int) {
    0 <= i < |rows| && keep(rows[i]) && rows[i].employee == name &&
    forall j :: 0 <= j < i ==> !(keep(rows[j]) && rows[j].employee == name)
  }

  /** A selection keeps order, so the first selected row for `name` is the first row of the whole
      sequence that is both selected and for `name`. */
  lemma {:induction false} FirstKeptValue(rows: seq<RefRow>, keep: RefRow -> bool, name: string, i: int)
    requires FirstKeptFor(rows, keep, name, i)
    ensures FirstValue(Where(rows, keep), name) == rows[i].keur
    decreases i
  {
    var sel := Where(rows, keep);
    var rest := Where(rows[1..], keep);
    if keep(rows[0]) {
      assert sel == [rows[0]] + rest;
    } else {
      assert sel == rest;
    }
    if i > 0 {
      assert FirstKeptFor(rows[1..], keep, name, i - 1) by {
        forall j | 0 <= j < i - 1 ensures !(keep(rows[1..][j]) && rows[1..][j].employee == name) {
          assert rows[1..][j] == rows[j + 1];
        }
      }
      FirstKeptValue(rows[1..], keep, name, i - 1);
      assert !(keep(rows[0]) && rows[0].employee == name);
      if keep(rows[0]) {
        assert sel[1..] == rest;
      }
    }
  }

  /** With no row both selected and for `name`, the selection's value is 0. */
  lemma {:induction false} NoneKeptValue(rows: seq<RefRow>, keep: RefRow -> bool, name: string)
    requires forall i :: 0 <= i < |rows| ==> !(keep(rows[i]) && rows[i].employee == name)
    ensures FirstValue(Where(rows, keep), name) == 0.0
  {
    var sel := Where(rows, keep);
    forall k | 0 <= k < |sel| ensures sel[k].employee != name {
      assert sel[k] in sel;
    }
  }

  /** Both readings of the first-match lookup over a selection. */
  lemma FirstValueOfSelection(rows: seq<RefRow>, keep: RefRow -> bool, name: string)
    ensures forall i :: FirstKeptFor(rows, keep, name, i) ==> FirstValue(Where(rows, keep), name) == rows[i].keur
    ensures (forall i :: 0 <= i < |rows| ==> !(keep(rows[i]) && rows[i].employee == name)) ==>
            FirstValue(Where(rows, keep), name) == 0.0
  {
    forall i | FirstKeptFor(rows, keep, name, i) ensures FirstValue(Where(rows, keep), name) == rows[i].keur {
      FirstKeptValue(rows, keep, name, i);
    }
    if forall i :: 0 <= i < |rows| ==> !(keep(rows[i]) && rows[i].employee == name) {
      NoneKeptValue(rows, keep, name);
    }
  }

  /** Row `i` of the budget file is the first row of the period for `name`. */
  predicate FirstBudgetFor(budget: seq<RefInput>, now: Utils.Now, name: string, i: int) {
    FirstKeptFor(RefRows(budget), BudgetPeriodOf(now), name, i)
  }

  /** A salesperson's budget is the 'Value_kEUR' of the first budget row of the period whose cleaned
      account is the salesperson, in file order, and 0 when there is none. */
  lemma BudgetValueIsFirst(budget: seq<RefInput>, now: Utils.Now, name: string)
    ensures forall i :: FirstBudgetFor(budget, now, name, i) ==> FirstValue(BudgetRows(budget, now), name) == budget[i].keur
    ensures (forall i :: 0 <= i < |budget| ==> !(InBudgetPeriod(now, ToRefRow(budget[i])) && CleanAccount(budget[i].account) == name)) ==>
            FirstValue(BudgetRows(budget, now), name) == 0.0
  {
    FirstValueOfSelection(RefRows(budget), BudgetPeriodOf(now), name);
  }

  /** The same for the prior value, over the rows of the month a year back. */
  lemma PriorValueIsFirst(prior: seq<RefInput>, now: Utils.Now, name: string)
    ensures forall i :: FirstKeptFor(RefRows(prior), PriorPeriodOf(now), name, i) ==> FirstValue(PriorRows(prior, now), name) == prior[i].keur
    ensures (forall i :: 0 <= i < |prior| ==> !(InPriorPeriod(now, ToRefRow(prior[i])) && CleanAccount(prior[i].account) == name)) ==>
            FirstValue(PriorRows(prior, now), name) == 0.0
  {
    FirstValueOfSelection(RefRows(prior), PriorPeriodOf(now), name);
  }

  // ---------------------------------------------------------------- regular sections

  predicate SoldBy(name: string, r: SalesRow) {
    r.employee == Some(name)
  }

  function SoldByOf(name: string): SalesRow -> bool {
    (r: SalesRow) => SoldBy(name, r)
  }

  function KEurOf(r: SalesRow): real {
    r.kEur
  }

  /** The summed kEUR of the sales rows whose cleaned salesperson is exactly `name`. */
  function ActualOf(p: Prepared, name: string): real {
    Sum(Where(p.sales, SoldByOf(name)), KEurOf)
  }

  /** The EUR cell of an AR row when `name` sold it (the converted column when present, else
      'Total Value (EUR)', NaN counting as 0), and 0 otherwise. */
  function RawSoldBy(hasConverted: bool, name: string): SalesInput -> real {
    (r: SalesInput) => if r.employee == Some(name) then Cell(if hasConverted then r.converted else r.totalValue) else 0.0
  }

  lemma {:induction false} SoldTotal(hasConverted: bool, ar: seq<SalesInput>, name: string)
    ensures Sum(Where(SalesRows(hasConverted, ar), SoldByOf(name)), KEurOf) * 1000.0 == Sum(ar, RawSoldBy(hasConverted, name))
    decreases |ar|
  {
    if |ar| > 0 {
      var s := SalesRows(hasConverted, ar);
      assert s[1..] == SalesRows(hasConverted, ar[1..]);
      SoldTotal(hasConverted, ar[1..], name);
      var head := if SoldByOf(name)(s[0]) then [s[0]] else [];
      assert Where(s, SoldByOf(name)) == head + Where(s[1..], SoldByOf(name));
      SumAppend(head, Where(s[1..], SoldByOf(name)), KEurOf);
      assert Sum(head, KEurOf) * 1000.0 == RawSoldBy(hasConverted, name)(ar[0]);
    }
  }

  /** A salesperson's actual, times 1000, is the sum of the EUR cells of every AR row they sold,
      each row counted as often as it occurs. */
  lemma PreparedActual(sales: SalesTable, budget: seq<RefInput>, prior: seq<RefInput>, now: Utils.Now, name: string)
    requires Prepare(sales, budget, prior, now).Some?
    ensures ActualOf(Prepare(sales, budget, prior, now).value, name) * 1000.0 ==
            Sum(Where(sales.rows, IsAr), RawSoldBy(sales.hasConverted, name))
  {
    SoldTotal(sales.hasConverted, Where(sales.rows, IsAr), name);
  }

  /** A salesperson's line: actuals, budget and prior value. */
  function ItemAmounts(p: Prepared, name: string): Amounts {
    Amounts(ActualOf(p, name), FirstValue(p.budget, name), FirstValue(p.prior, name))
  }

  /** What an item adds to its section: nothing for a falsy filter value. */
  function ItemShare(p: Prepared, item: Item): Amounts {
    if HasFilter(item) then ItemAmounts(p, item.filterValue.value) else Zero
  }

  /** The section sums after the items loop. */
  function ItemsTotal(p: Prepared, items: seq<Item>): Amounts
    decreases |items|
  {
    if |items| == 0 then Zero else ItemsTotal(p, items[..|items| - 1]).Plus(ItemShare(p, items[|items| - 1]))
  }

  /** An item's line: one for a truthy filter value, zero or not; none otherwise. */
  function ItemLine(p: Prepared, item: Item): seq<ReportRow> {
    if HasFilter(item) then [LineOf(p, item)] else []
  }

  /** The line of an item with a filter value: its caption and that salesperson's amounts. */
  function LineOf(p: Prepared, item: Item): ReportRow {
    ReportRow(item.caption, ItemAmounts(p, item.filterValue.GetOr("")), DataRow)
  }

  /** One line per item, in order. */
  function LinesOf(p: Prepared, items: seq<Item>): (rows: seq<ReportRow>)
    ensures |rows| == |items| && forall i :: 0 <= i < |items| ==> rows[i] == LineOf(p, items[i])
  {
    seq(|items|, i requires 0 <= i < |items| => LineOf(p, items[i]))
  }

  lemma LinesOfAppend(p: Prepared, a: seq<Item>, b: seq<Item>)
    ensures LinesOf(p, a + b) == LinesOf(p, a) + LinesOf(p, b)
  {
    assert forall i :: 0 <= i < |b| ==> (a + b)[|a| + i] == b[i];
  }

  /** The item lines are exactly the items with a truthy filter value, in declared order, each with
      its caption and its salesperson's actuals, budget and prior. */
  lemma {:induction false} ItemRowsPositional(p: Prepared, items: seq<Item>)
    ensures ItemRows(p, items) == LinesOf(p, Where(items, HasFilter))
    decreases |items|
  {
    if |items| > 0 {
      var prefix := items[..|items| - 1];
      var item := items[|items| - 1];
      ItemRowsPositional(p, prefix);
      assert items == prefix + [item];
      WhereAppend(prefix, [item], HasFilter);
      var last := Where([item], HasFilter);
      LinesOfAppend(p, Where(prefix, HasFilter), last);
      assert ItemRows(p, items) == ItemRows(p, prefix) + ItemLine(p, item);
      LastLine(p, item);
    }
  }

  lemma LastLine(p: Prepared, item: Item)
    ensures ItemLine(p, item) == LinesOf(p, Where([item], HasFilter))
  {
    assert [item][1..] == [];
  }

  /** The item lines in order. */
  function ItemRows(p: Prepared, items: seq<Item>): (rows: seq<ReportRow>)
    ensures forall i :: 0 <= i < |rows| ==> rows[i].kind == DataRow
    decreases |items|
  {
    if |items| == 0 then [] else ItemRows(p, items[..|items| - 1]) + ItemLine(p, items[|items| - 1])
  }

  predicate HasFilter(it: Item) {
    Truthy(it.filterValue)
  }

  /** The number of items with a truthy filter value. */
  function TruthyCount(items: seq<Item>): nat {
    |Where(items, HasFilter)|
  }

  lemma ItemLineSum(p: Prepared, item: Item)
    ensures RowsSum(ItemLine(p, item)) == ItemShare(p, item)
  {
    AmountsAlgebra(ItemShare(p, item), Zero, Zero);
    if HasFilter(item) {
      assert ItemLine(p, item)[1..] == [];
    }
  }

  /** The item lines add up to the section sums. */
  lemma {:induction false} ItemRowsAddUp(p: Prepared, items: seq<Item>)
    ensures RowsSum(ItemRows(p, items)) == ItemsTotal(p, items)
    decreases |items|
  {
    if |items| > 0 {
      var prefix := items[..|items| - 1];
      var item := items[|items| - 1];
      ItemRowsAddUp(p, prefix);
      RowsSumAppend(ItemRows(p, prefix), ItemLine(p, item));
      ItemLineSum(p, item);
    }
  }

  /** Every item with a truthy filter value gets a line, whatever its amounts. */
  lemma {:induction false} ItemRowsCount(p: Prepared, items: seq<Item>)
    ensures |ItemRows(p, items)| == TruthyCount(items)
    decreases |items|
  {
    if |items| > 0 {
      var prefix := items[..|items| - 1];
      var item := items[|items| - 1];
      ItemRowsCount(p, prefix);
      assert items == prefix + [item];
      WhereAppend(prefix, [item], HasFilter);
      LastCount(item);
      assert |ItemRows(p, items)| == |ItemRows(p, prefix)| + |ItemLine(p, item)|;
    }
  }

  lemma LastCount(item: Item)
    ensures |Where([item], HasFilter)| == if HasFilter(item) then 1 else 0
  {
    assert [item][1..] == [];
  }

  /** A regular section's sums: its items when it has 'items'; else, for a truthy 'sales_employee',
      that salesperson's actuals and budget with the prior forced to 0; else zeros. */
  function SectionAmounts(p: Prepared, sec: Section): (a: Amounts)
    ensures !sec.hasItems ==> a.prior == 0.0
  {
    if sec.hasItems then ItemsTotal(p, sec.items)
    else if Truthy(sec.salesEmployee) then
      var e := sec.salesEmployee.value;
      Amounts(ActualOf(p, e), FirstValue(p.budget, e), 0.0)
    else Zero
  }

  /** A regular section's data lines: its item lines, or one line titled with the section for a
      truthy 'sales_employee'. */
  function DataRows(p: Prepared, sec: Section): (rows: seq<ReportRow>)
    ensures forall i :: 0 <= i < |rows| ==> rows[i].kind == DataRow
  {
    if sec.hasItems then ItemRows(p, sec.items)
    else if Truthy(sec.salesEmployee) then [ReportRow(sec.title, SectionAmounts(p, sec), DataRow)]
    else []
  }

  /** A section with 'items' shows one line per item with a truthy filter value, in order; one
      without shows the 'sales_employee' line (prior 0) when that is truthy, and nothing else. */
  lemma DataRowsPositional(p: Prepared, sec: Section)
    ensures sec.hasItems ==> DataRows(p, sec) == LinesOf(p, Where(sec.items, HasFilter))
    ensures !sec.hasItems && Truthy(sec.salesEmployee) ==>
      var e := sec.salesEmployee.value;
      DataRows(p, sec) == [ReportRow(sec.title, Amounts(ActualOf(p, e), FirstValue(p.budget, e), 0.0), DataRow)]
    ensures !sec.hasItems && !Truthy(sec.salesEmployee) ==> DataRows(p, sec) == []
  {
    if sec.hasItems {
      ItemRowsPositional(p, sec.items);
    }
  }

  /** A section's data lines add up to the section's sums. */
  lemma DataRowsAddUp(p: Prepared, sec: Section)
    ensures RowsSum(DataRows(p, sec)) == SectionAmounts(p, sec)
  {
    if sec.hasItems {
      ItemRowsAddUp(p, sec.items);
    } else if Truthy(sec.salesEmployee) {
      RowsSumOne(ReportRow(sec.title, SectionAmounts(p, sec), DataRow));
    }
  }

  /** A regular section's lines: data lines, its total line when 'show_total' is set, a spacer. */
  function RegularRows(p: Prepared, sec: Section): (rows: seq<ReportRow>)
    ensures |rows| >= 1 && rows[|rows| - 1] == Spacer
    ensures sec.showTotal <==> |rows| >= 2 && rows[|rows| - 2].kind == SectionTotalRow
    ensures sec.showTotal ==> rows[|rows| - 2] == ReportRow(sec.title, SectionAmounts(p, sec), SectionTotalRow)
    ensures rows[..|rows| - (if sec.showTotal then 2 else 1)] == DataRows(p, sec)
  {
    var data := DataRows(p, sec);
    var total := if sec.showTotal then [ReportRow(sec.title, SectionAmounts(p, sec), SectionTotalRow)] else [];
    Layout(data, total);
    data + total + [Spacer]
  }

  // ---------------------------------------------------------------- the fold

  /** The fold's carried state: lines so far, `section_totals`, and the grand-total accumulator. */
  datatype State = State(rows: seq<ReportRow>, totals: Totals, grand: Amounts)

  const Initial: State := State([], [], Zero)

  function Step(p: Prepared, st: State, sec: Section): State {
    match KindOf(sec)
    case GrandTotal => st.(rows := st.rows + [ReportRow(sec.title, st.grand, GrandTotalRow)])
    case Unmapped => st
    case ComponentTotal =>
      var t := ComponentSum(st.totals, ComponentTitles(sec));
      st.(rows := st.rows + [ReportRow(sec.title, t, ComponentTotalRow)], grand := st.grand.Plus(t))
    case Regular =>
      st.(rows := st.rows + RegularRows(p, sec), totals := Put(st.totals, sec.title, SectionAmounts(p, sec)))
  }

  /** The fold over the sections, left to right. */
  function Run(p: Prepared, sections: seq<Section>): State
    decreases |sections|
  {
    if |sections| == 0 then Initial
    else Step(p, Run(p, sections[..|sections| - 1]), sections[|sections| - 1])
  }

  /** `calculate_report()`: the report's lines in order. */
  function CalculateReport(p: Prepared, sections: seq<Section>): seq<ReportRow> {
    Run(p, sections).rows
  }

  lemma RunSnoc(p: Prepared, prefix: seq<Section>, last: Section)
    ensures Run(p, prefix + [last]) == Step(p, Run(p, prefix), last)
  {
    var all := prefix + [last];
    assert all[..|all| - 1] == prefix && all[|all| - 1] == last;
  }

  // ---------------------------------------------------------------- properties of the fold

  /** The sums recorded for `title` by the last regular section carrying it, if any. */
  function LatestRegular(p: Prepared, sections: seq<Section>, title: string): Option<Amounts>
    decreases |sections|
  {
    if |sections| == 0 then None
    else
      var last := sections[|sections| - 1];
      if KindOf(last) == Regular && last.title == title then Some(SectionAmounts(p, last))
      else LatestRegular(p, sections[..|sections| - 1], title)
  }

  /** `section_totals` records exactly the regular sections, the later of two equal titles
      winning; component totals, grand totals and unmapped sections are never recorded. */
  lemma {:induction false} TotalsAreLatest(p: Prepared, sections: seq<Section>, title: string)
    ensures Get(Run(p, sections).totals, title) == LatestRegular(p, sections, title)
    decreases |sections|
  {
    if |sections| > 0 {
      var prefix := sections[..|sections| - 1];
      var last := sections[|sections| - 1];
      TotalsAreLatest(p, prefix, title);
      if KindOf(last) == Regular {
        PutGet(Run(p, prefix).totals, last.title, SectionAmounts(p, last), title);
      }
    }
  }

  /** Component totals summed from the configuration alone: the latest recorded sums of the
      listed titles, unknown titles adding nothing. */
  function RefComponentSum(p: Prepared, sections: seq<Section>, titles: seq<string>): Amounts {
    if |titles| == 0 then Zero
    else LatestRegular(p, sections, titles[0]).GetOr(Zero).Plus(RefComponentSum(p, sections, titles[1..]))
  }

  lemma {:induction false} ComponentSumIsRef(p: Prepared, sections: seq<Section>, titles: seq<string>)
    ensures ComponentSum(Run(p, sections).totals, titles) == RefComponentSum(p, sections, titles)
    decreases |titles|
  {
    if |titles| > 0 {
      TotalsAreLatest(p, sections, titles[0]);
      ComponentSumIsRef(p, sections, titles[1..]);
    }
  }

  /** What the grand total is meant to be: the component totals and nothing else. */
  function ComponentsTotal(p: Prepared, sections: seq<Section>): Amounts
    decreases |sections|
  {
    if |sections| == 0 then Zero
    else
      var prefix := sections[..|sections| - 1];
      var last := sections[|sections| - 1];
      ComponentsTotal(p, prefix).Plus(
        if KindOf(last) == ComponentTotal then RefComponentSum(p, prefix, ComponentTitles(last)) else Zero)
  }

  lemma ComponentsTotalSnoc(p: Prepared, prefix: seq<Section>, last: Section)
    ensures ComponentsTotal(p, prefix + [last]) == ComponentsTotal(p, prefix).Plus(
      if KindOf(last) == ComponentTotal then RefComponentSum(p, prefix, ComponentTitles(last)) else Zero)
  {
    var all := prefix + [last];
    assert all[..|all| - 1] == prefix && all[|all| - 1] == last;
  }

  lemma GrandStep(p: Prepared, prefix: seq<Section>, last: Section)
    requires Run(p, prefix).grand == ComponentsTotal(p, prefix)
    ensures Run(p, prefix + [last]).grand == ComponentsTotal(p, prefix + [last])
  {
    var st := Run(p, prefix);
    RunSnoc(p, prefix, last);
    ComponentsTotalSnoc(p, prefix, last);
    if KindOf(last) == ComponentTotal {
      ComponentSumIsRef(p, prefix, ComponentTitles(last));
      assert Step(p, st, last).grand == st.grand.Plus(ComponentSum(st.totals, ComponentTitles(last)));
    } else {
      AmountsAlgebra(st.grand, Zero, Zero);
      assert Step(p, st, last).grand == st.grand;
    }
  }

  /** The grand-total accumulator holds the component totals so far; regular sections are
      recorded but never added. */
  lemma {:induction false} GrandIsComponents(p: Prepared, sections: seq<Section>)
    ensures Run(p, sections).grand == ComponentsTotal(p, sections)
    decreases |sections|
  {
    if |sections| > 0 {
      var prefix := sections[..|sections| - 1];
      var last := sections[|sections| - 1];
      assert sections == prefix + [last];
      GrandIsComponents(p, prefix);
      GrandStep(p, prefix, last);
    }
  }

  /** The grand-total line shows the component totals so far and changes no total. */
  lemma GrandTotalLine(p: Prepared, sections: seq<Section>, sec: Section)
    requires KindOf(sec) == GrandTotal
    ensures Run(p, sections + [sec]) ==
      Run(p, sections).(rows := CalculateReport(p, sections) + [ReportRow(sec.title, ComponentsTotal(p, sections), GrandTotalRow)])
  {
    RunSnoc(p, sections, sec);
    GrandIsComponents(p, sections);
  }

  /** A component-total line shows the latest recorded sums of its titles (unknown titles adding
      nothing) and leaves `section_totals` alone. */
  lemma ComponentTotalLine(p: Prepared, sections: seq<Section>, sec: Section)
    requires KindOf(sec) == ComponentTotal
    ensures CalculateReport(p, sections + [sec]) ==
      CalculateReport(p, sections) + [ReportRow(sec.title, RefComponentSum(p, sections, ComponentTitles(sec)), ComponentTotalRow)]
    ensures Run(p, sections + [sec]).totals == Run(p, sections).totals
  {
    RunSnoc(p, sections, sec);
    ComponentSumIsRef(p, sections, ComponentTitles(sec));
  }

  predicate NotUnmapped(s: Section) {
    KindOf(s) != Unmapped
  }

  /** Unmapped sections contribute nothing: dropping them from the configuration leaves the
      report, the totals and the accumulator unchanged. */
  lemma {:induction false} UnmappedIgnored(p: Prepared, sections: seq<Section>)
    ensures Run(p, Where(sections, NotUnmapped)) == Run(p, sections)
    decreases |sections|
  {
    if |sections| > 0 {
      var prefix := sections[..|sections| - 1];
      var last := sections[|sections| - 1];
      assert sections == prefix + [last];
      WhereAppend(prefix, [last], NotUnmapped);
      UnmappedIgnored(p, prefix);
      var kept := Where(prefix, NotUnmapped);
      RunSnoc(p, prefix, last);
      if NotUnmapped(last) {
        assert Where([last], NotUnmapped) == [last];
        RunSnoc(p, kept, last);
      } else {
        assert Where([last], NotUnmapped) == [];
        assert kept + [] == kept;
      }
    }
  }
}

=== FILE: ingestion.dfy ===
/** QRY extract ingestion (src/qry_data_ingestion.py, `process_qry_files`): a folder of
    `QRY_<category>_<timeframe>_<region>.csv` files with one `entity=value` line per customer or
    employee becomes one table of sales records. The directory listing and the file contents are
    parameters. */
module QryIngestion {
  import opened Wrappers
  import opened Text
  import opened Numbers
  import EntityResolver
  import opened Seqs

  /** A directory entry: its name and its lines, or `None` when the file cannot be read. */
  datatype QryFile = QryFile(name: string, lines: Option<seq<string>>)

  /** What the file name says about every line of the file. */
  datatype FileMeta = FileMeta(category: string, timeframe: string, region: string)

  datatype QryLine = QryLine(entity: string, value: real)

  /** One output row; the constant columns ('Metric', 'Customer Code', 'Load_Timestamp') and the
      copy 'Total Open Value (EUR)' are not modelled. */
  datatype QryRecord = QryRecord(
    salesEmployee: Option<string>,  // 'Sales Employee Name'
    customer: Option<string>,       // 'Customer Name'
    totalValue: real,               // 'Total Value (EUR)'
    documentType: string,           // 'Document Type', the file's category
    companyEntity: string,          // 'Company Entity'
    currency: string,               // 'Currency'
    convertedValue: real)           // 'Value_in_EUR_converted'

  predicate IsQryFile(name: string) {
    Contains(name, "QRY") && EndsWith(name, ".csv")
  }

  /** A second file-name part that belongs to the category (`SO_OPEN`, `SO_TOTAL`). */
  predicate IsStatus(s: string) {
    s == "OPEN" || s == "TOTAL"
  }

  const Unknown: string := "unknown"

  // ---------------------------------------------------------------- file names

  /** The file name with both markers removed everywhere. */
  function Stem(name: string): (r: string)
    ensures |r| <= |name|
  {
    RemoveAll(RemoveAll(name, "QRY_"), ".csv")
  }

  /** A name carrying neither marker is its own stem. */
  lemma StemOfPlainName(name: string)
    requires !Contains(name, "QRY_") && !Contains(name, ".csv")
    ensures Stem(name) == name
  {
    RemoveAbsent(name, "QRY_");
    RemoveAbsent(name, ".csv");
  }

  /** A status part joins the category, the region is everything after the timeframe (possibly
      empty), and fewer than three parts leave all three fields unknown. */
  function MetaOfParts(parts: seq<string>): (m: FileMeta)
    requires forall i :: 0 <= i < |parts| ==> '_' !in parts[i]
    ensures |parts| < 3 ==> m == FileMeta(Unknown, Unknown, Unknown)
    ensures |parts| >= 3 ==> '_' !in m.timeframe
    ensures |parts| >= 3 ==> (m.category == parts[0] && !IsStatus(parts[1])) ||
                             (m.category == parts[0] + "_" + parts[1] && IsStatus(parts[1]))
    ensures |parts| >= 3 ==>
      Join(parts, "_") == m.category + "_" + m.timeframe + (if IsStatus(parts[1]) && |parts| == 3 then "" else "_" + m.region)
    ensures |parts| == 3 && IsStatus(parts[1]) ==> m.region == ""
  {
    if |parts| < 3 then FileMeta(Unknown, Unknown, Unknown)
    else
      assert parts[1..][1..] == parts[2..];
      assert Join(parts, "_") == parts[0] + "_" + parts[1] + "_" + Join(parts[2..], "_");
      if IsStatus(parts[1]) then
        assert |parts| > 3 ==> parts[2..][1..] == parts[3..];
        assert Join(parts[2..], "_") == parts[2] + (if |parts| > 3 then "_" + Join(parts[3..], "_") else "");
        FileMeta(parts[0] + "_" + parts[1], parts[2], if |parts| > 3 then Join(parts[3..], "_") else "")
      else FileMeta(parts[0], parts[1], Join(parts[2..], "_"))
  }

  /** `QRY_[category]_[timeframe]_[region].csv` read back into its three fields. */
  function ParseFileName(name: string): FileMeta {
    MetaOfParts(Split(Stem(name), '_'))
  }

  function NameParts(category: string, status: Option<string>, timeframe: string, regionParts: seq<string>): seq<string> {
    [category] + (if status.Some? then [status.value] else []) + [timeframe] + regionParts
  }

  /** The file name an extract with these parts is stored under. */
  function QryFileName(category: string, status: Option<string>, timeframe: string, regionParts: seq<string>): string {
    "QRY_" + Join(NameParts(category, status, timeframe, regionParts), "_") + ".csv"
  }

  predicate NamePart(p: string) {
    '_' !in p && '.' !in p
  }

  lemma {:induction false} JoinAvoids(parts: seq<string>, sep: string, c: char)
    requires c !in sep && forall i :: 0 <= i < |parts| ==> c !in parts[i]
    ensures c !in Join(parts, sep)
    decreases |parts|
  {
    if |parts| > 1 {
      JoinAvoids(parts[1..], sep, c);
    }
  }

  lemma {:induction false} RemoveTrailingCsv(x: string)
    requires '.' !in x
    ensures RemoveAll(x + ".csv", ".csv") == x
    decreases |x|
  {
    var s := x + ".csv";
    if |x| > 0 {
      assert s[0] == x[0] != '.';
      assert s[..4][0] == s[0];
      assert s[..4] != ".csv";
      assert s[1..] == x[1..] + ".csv";
      calc {
        RemoveAll(s, ".csv");
        [s[0]] + RemoveAll(s[1..], ".csv");
        { RemoveTrailingCsv(x[1..]); }
        [x[0]] + x[1..];
        x;
      }
    } else {
      assert s == ".csv";
      assert s[..4] == ".csv" && s[4..] == "";
    }
  }

  lemma StemOfName(stem: string)
    requires '.' !in stem && !Contains(stem + ".csv", "QRY_")
    ensures Stem("QRY_" + stem + ".csv") == stem
  {
    var name := "QRY_" + stem + ".csv";
    assert name == "QRY_" + (stem + ".csv");
    assert name[..4] == "QRY_" && name[4..] == stem + ".csv";
    RemoveAbsent(stem + ".csv", "QRY_");
    assert RemoveAll(name, "QRY_") == stem + ".csv";
    RemoveTrailingCsv(stem);
  }

  /** Parsing inverts naming: category, timeframe and region come back from the name, with an
      OPEN/TOTAL status folded into the category. */
  lemma FileNameRoundTrip(category: string, status: Option<string>, timeframe: string, regionParts: seq<string>)
    requires NamePart(category) && NamePart(timeframe)
    requires forall i :: 0 <= i < |regionParts| ==> NamePart(regionParts[i])
    requires status.Some? ==> IsStatus(status.value)
    requires status.None? ==> !IsStatus(timeframe) && |regionParts| >= 1
    requires !Contains(Join(NameParts(category, status, timeframe, regionParts), "_") + ".csv", "QRY_")
    ensures var m := ParseFileName(QryFileName(category, status, timeframe, regionParts));
      m.category == (if status.Some? then category + "_" + status.value else category) &&
      m.timeframe == timeframe && m.region == Join(regionParts, "_")
  {
    var parts := NameParts(category, status, timeframe, regionParts);
    NamePartsClean(category, status, timeframe, regionParts);
    ParseJoinedName(parts);
    MetaOfNameParts(category, status, timeframe, regionParts);
  }

  lemma ParseJoinedName(parts: seq<string>)
    requires |parts| >= 1 && forall i :: 0 <= i < |parts| ==> NamePart(parts[i])
    requires !Contains(Join(parts, "_") + ".csv", "QRY_")
    ensures (forall i :: 0 <= i < |parts| ==> '_' !in parts[i]) &&
            ParseFileName("QRY_" + Join(parts, "_") + ".csv") == MetaOfParts(parts)
  {
    PartsOfName(parts);
  }

  lemma NamePartsClean(category: string, status: Option<string>, timeframe: string, regionParts: seq<string>)
    requires NamePart(category) && NamePart(timeframe)
    requires forall i :: 0 <= i < |regionParts| ==> NamePart(regionParts[i])
    requires status.Some? ==> IsStatus(status.value)
    ensures var parts := NameParts(category, status, timeframe, regionParts);
      |parts| >= 2 && forall i :: 0 <= i < |parts| ==> NamePart(parts[i])
  {
    var head := [category] + (if status.Some? then [status.value] else []) + [timeframe];
    assert forall i :: 0 <= i < |head| ==> NamePart(head[i]);
    var parts := head + regionParts;
    assert parts == NameParts(category, status, timeframe, regionParts);
    forall i | 0 <= i < |parts|
      ensures NamePart(parts[i])
    {
      if i >= |head| {
        assert parts[i] == regionParts[i - |head|];
      }
    }
  }

  lemma PartsOfName(parts: seq<string>)
    requires |parts| >= 1 && forall i :: 0 <= i < |parts| ==> NamePart(parts[i])
    requires !Contains(Join(parts, "_") + ".csv", "QRY_")
    ensures Split(Stem("QRY_" + Join(parts, "_") + ".csv"), '_') == parts
  {
    StemOfJoin(parts);
    SplitJoinUnderscore(parts);
  }

  lemma StemOfJoin(parts: seq<string>)
    requires forall i :: 0 <= i < |parts| ==> NamePart(parts[i])
    requires !Contains(Join(parts, "_") + ".csv", "QRY_")
    ensures Stem("QRY_" + Join(parts, "_") + ".csv") == Join(parts, "_")
  {
    JoinAvoids(parts, "_", '.');
    StemOfName(Join(parts, "_"));
  }

  lemma SplitJoinUnderscore(parts: seq<string>)
    requires |parts| >= 1 && forall i :: 0 <= i < |parts| ==> NamePart(parts[i])
    ensures Split(Join(parts, "_"), '_') == parts
  {
    assert "_" == ['_'];
    SplitJoin(parts, '_');
  }

  lemma MetaOfNameParts(category: string, status: Option<string>, timeframe: string, regionParts: seq<string>)
    requires NamePart(category) && NamePart(timeframe)
    requires forall i :: 0 <= i < |regionParts| ==> NamePart(regionParts[i])
    requires status.Some? ==> IsStatus(status.value)
    requires status.None? ==> !IsStatus(timeframe) && |regionParts| >= 1
    ensures var parts := NameParts(category, status, timeframe, regionParts);
      (forall i :: 0 <= i < |parts| ==> '_' !in parts[i]) &&
      MetaOfParts(parts) ==
        FileMeta(if status.Some? then category + "_" + status.value else category, timeframe, Join(regionParts, "_"))
  {
    var parts := NameParts(category, status, timeframe, regionParts);
    if status.Some? {
      assert parts[3..] == regionParts;
    } else {
      assert parts[2..] == regionParts;
    }
  }

  // ---------------------------------------------------------------- lines

  predicate IsEquals(c: char) {
    c == '='
  }

  /** The value text of a line: ',' read as decimal point, then parsed as a float. */
  function ValueOf(text: string): Option<real> {
    ParseDecimal(ReplaceChar(text, ',', '.'))
  }

  /** The entity and value text of a line: surrounding whitespace and trailing '=' signs removed,
      then split at the last '='. Blank lines and lines without '=' have none. */
  function SplitLine(line: string): (r: Option<(string, string)>)
    ensures r.None? <==> '=' !in TrimRight(Strip(line), IsEquals)
    ensures r.Some? ==> '=' !in r.value.1
    ensures r.Some? ==> r.value.0 + "=" + r.value.1 == TrimRight(Strip(line), IsEquals)
  {
    var t := Strip(line);
    if t == "" then None
    else
      var u := TrimRight(t, IsEquals);
      if '=' !in u then None
      else
        var i := LastIndexOf(u, '=');
        AroundLast(u, '=');
        Some((u[..i], u[i + 1..]))
  }

  /** One line: its entity and its value, the value taking ',' as decimal point. Lines that do not
      split and values that do not parse yield nothing. */
  function ParseLine(line: string): (r: Option<QryLine>)
    ensures var u := TrimRight(Strip(line), IsEquals);
      r.None? <==> '=' !in u || ValueOf(u[LastIndexOf(u, '=') + 1..]).None?
    ensures r.Some? ==>
      exists text :: '=' !in text && ValueOf(text) == Some(r.value.value) && TrimRight(Strip(line), IsEquals) == r.value.entity + "=" + text
  {
    match SplitLine(line)
    case None => None
    case Some((entity, text)) =>
      match ValueOf(text)
      case Some(v) => Some(QryLine(entity, v))
      case None => None
  }

  lemma ParseLineOf(line: string, entity: string, text: string, v: real)
    requires SplitLine(line) == Some((entity, text)) && ValueOf(text).Some? && ValueOf(text).value == v
    ensures ParseLine(line).Some? && ParseLine(line).value.entity == entity && ParseLine(line).value.value == v
  {
  }

  lemma LastEquals(entity: string, text: string)
    requires '=' !in text
    ensures LastIndexOf(entity + "=" + text, '=') == |entity|
  {
    var s := entity + "=" + text;
    assert s[|entity|] == '=';
  }

  lemma NoTrailingEquals(s: string)
    requires |s| > 0 && s[|s| - 1] != '='
    ensures TrimRight(s, IsEquals) == s
  {
  }

  /** A line `entity=text` whose text has no '=' splits into that entity and text. */
  lemma LineSplits(entity: string, text: string)
    requires entity == "" || !IsSpace(entity[0])
    requires |text| > 0 && '=' !in text && !IsSpace(text[|text| - 1])
    ensures SplitLine(entity + "=" + text) == Some((entity, text))
  {
    var s := entity + "=" + text;
    assert s[0] == (if entity == "" then '=' else entity[0]);
    assert s[|s| - 1] == text[|text| - 1];
    TrimUnchanged(s, IsSpace);
    assert Strip(s) == s;
    NoTrailingEquals(s);
    assert '=' in s;
    LastEquals(entity, text);
    assert s[..|entity|] == entity && s[|entity| + 1..] == text;
  }

  lemma ValueOfNat(n: nat)
    ensures ValueOf(NatToString(n)) == Some(n as real)
  {
    var text := NatToString(n);
    assert ReplaceChar(text, ',', '.') == text;
    NatToStringParses(n);
  }

  lemma ValueOfDecimalComma(whole: nat, tenth: nat)
    requires tenth < 10
    ensures var r := ValueOf(NatToString(whole) + "," + [DigitChar(tenth)]);
      r.Some? && r.value == whole as real + tenth as real / 10.0
  {
    var w := NatToString(whole);
    var t := whole * 10 + tenth;
    assert t / 10 == whole && t % 10 == tenth;
    var u := TenthsText(t);
    assert ReplaceChar(w + "," + [DigitChar(tenth)], ',', '.') == u by {
      assert forall i :: 0 <= i < |w| ==> IsDigit(w[i]);
    }
    assert IsDigit(u[0]) by { assert u[0] == w[0]; }
    TenthsTextParses(t);
    UnsignedParses(u, t as real / 10.0);
  }

  /** Round trip for a whole-number value. */
  lemma LineRoundTrip(entity: string, n: nat)
    requires entity == "" || !IsSpace(entity[0])
    ensures ParseLine(entity + "=" + NatToString(n)) == Some(QryLine(entity, n as real))
  {
    var text := NatToString(n);
    assert text[|text| - 1] != '=' && text[|text| - 1] != ' ';
    LineSplits(entity, text);
    ValueOfNat(n);
    ParseLineOf(entity + "=" + text, entity, text, n as real);
  }

  lemma DecimalLineSplits(entity: string, whole: nat, tenth: nat)
    requires entity == "" || !IsSpace(entity[0])
    requires tenth < 10
    ensures var text := NatToString(whole) + "," + [DigitChar(tenth)];
      SplitLine(entity + "=" + text) == Some((entity, text))
  {
    var text := NatToString(whole) + "," + [DigitChar(tenth)];
    assert '=' !in NatToString(whole);
    assert text[|text| - 1] == DigitChar(tenth);
    LineSplits(entity, text);
  }

  /** Round trip for a value written with a decimal comma and one decimal. */
  lemma DecimalCommaRoundTrip(entity: string, whole: nat, tenth: nat)
    requires entity == "" || !IsSpace(entity[0])
    requires tenth < 10
    ensures var r := ParseLine(entity + "=" + (NatToString(whole) + "," + [DigitChar(tenth)]));
      r.Some? && r.value.entity == entity && r.value.value == whole as real + tenth as real / 10.0
  {
    var text := NatToString(whole) + "," + [DigitChar(tenth)];
    DecimalLineSplits(entity, whole, tenth);
    ValueOfDecimalComma(whole, tenth);
    assert SplitLine(entity + "=" + text) == Some((entity, text));
    assert ValueOf(text).Some?;
    assert ValueOf(text).value == whole as real + tenth as real / 10.0;
    ParseLineOf(entity + "=" + text, entity, text, whole as real + tenth as real / 10.0);
  }

  // ---------------------------------------------------------------- records

  /** The line names a sales employee exactly for the GmbH and CH files (compared case-blind). */
  predicate IsEmployeeRegion(region: string) {
    LowerStr(region) == "gmbh" || LowerStr(region) == "ch"
  }

  /** A customer name keeps only the text after its last '='. */
  function CleanCustomer(x: string): (r: string)
    ensures '=' !in r
    ensures |r| <= |x| && r == x[|x| - |r|..]
    ensures '=' in x ==> x[|x| - |r| - 1] == '='
    ensures '=' !in x ==> r == x
  {
    if x != "" && '=' in x then x[LastIndexOf(x, '=') + 1..] else x
  }

  /** The region's company entity: the mapped regions, and every other region as itself. */
  function EntityOf(region: string): (e: string)
    ensures region !in {"Gmbh", "GmbH", "CH"} ==> e == region
    ensures e == "GmbH" <==> region in {"Gmbh", "GmbH"}
    ensures e == "AG" <==> region in {"CH", "AG"}
  {
    if region == "Gmbh" || region == "GmbH" then "GmbH"
    else if region == "CH" then "AG"
    else region
  }

  const KnownCurrencies: set<string> := {"EUR", "CHF", "USD", "GBP"}

  /** The region's currency, EUR for a region outside the table. */
  function CurrencyOf(region: string): (c: string)
    ensures c in KnownCurrencies
    ensures c == "CHF" <==> region == "CH"
    ensures c == "USD" <==> region == "USA"
    ensures c == "GBP" <==> region == "UK"
    ensures c == "EUR" <==> region !in {"CH", "USA", "UK"}
  {
    if region == "CH" then "CHF"
    else if region == "USA" then "USD"
    else if region == "UK" then "GBP"
    else "EUR"
  }

  /** Conversion factor to EUR; 1 for a currency outside the table. */
  function FxRate(currency: string): (rate: real)
    ensures rate > 0.0
    ensures currency !in KnownCurrencies ==> rate == 1.0
    ensures currency == "EUR" ==> rate == 1.0
    ensures currency == "CHF" ==> rate == 1.08
    ensures currency == "USD" ==> rate == 0.96
    ensures currency == "GBP" ==> rate == 1.20
  {
    if currency == "CHF" then 1.08
    else if currency == "USD" then 0.96
    else if currency == "GBP" then 1.20
    else 1.0
  }

  /** Every record states a name of exactly one kind, in its currency, converted at its rate. */
  predicate WellFormed(r: QryRecord) {
    (r.salesEmployee.Some? <==> r.customer.None?) &&
    r.currency in KnownCurrencies &&
    r.convertedValue == ToEur(r.totalValue, r.currency)
  }

  /** `value * fx_rates.get(currency, 1)`. */
  function ToEur(value: real, currency: string): real {
    value * FxRate(currency)
  }

  function MakeRecord(meta: FileMeta, line: QryLine): (r: QryRecord)
    ensures WellFormed(r)
    ensures r.totalValue == line.value && r.documentType == meta.category
    ensures IsEmployeeRegion(meta.region) ==> r.salesEmployee == Some(line.entity)
    ensures !IsEmployeeRegion(meta.region) ==> r.customer == Some(CleanCustomer(line.entity))
    ensures r.companyEntity == EntityOf(meta.region) && r.currency == CurrencyOf(meta.region)
    ensures r.convertedValue == line.value * FxRate(CurrencyOf(meta.region))
  {
    var employee := IsEmployeeRegion(meta.region);
    var currency := CurrencyOf(meta.region);
    QryRecord(
      if employee then Some(line.entity) else None,
      if employee then None else Some(CleanCustomer(line.entity)),
      line.value, meta.category, EntityOf(meta.region), currency,
      ToEur(line.value, currency))
  }

  /** The records of one line: one when it parses, none otherwise. */
  function LineRecord(meta: FileMeta, line: string): (rs: seq<QryRecord>)
    ensures |rs| <= 1
    ensures forall r :: r in rs ==> WellFormed(r) && r.documentType == meta.category
  {
    RecordOf(meta, ParseLine(line))
  }

  function RecordOf(meta: FileMeta, p: Option<QryLine>): (rs: seq<QryRecord>)
    ensures |rs| <= 1
    ensures forall r :: r in rs ==> WellFormed(r) && r.documentType == meta.category
  {
    if p.Some? then [MakeRecord(meta, p.value)] else []
  }

  function LineRecordOf(meta: FileMeta): string -> seq<QryRecord> {
    line => LineRecord(meta, line)
  }

  /** The records of a file's lines, in line order. */
  function LineRecords(meta: FileMeta, lines: seq<string>): (rs: seq<QryRecord>)
    ensures |rs| <= |lines|
    ensures forall r :: r in rs ==> WellFormed(r) && r.documentType == meta.category
  {
    FlatMapAtMostOne(lines, LineRecordOf(meta));
    FlatMapMembers(lines, LineRecordOf(meta));
    FlatMap(lines, LineRecordOf(meta))
  }

  lemma LineRecordIs(meta: FileMeta, line: string)
    ensures ParseLine(line).Some? ==> LineRecordOf(meta)(line) == [MakeRecord(meta, ParseLine(line).value)]
    ensures ParseLine(line).None? ==> LineRecordOf(meta)(line) == []
  {
  }

  /** A run of lines gives the records of its parts, in order. */
  lemma LineRecordsAppend(meta: FileMeta, a: seq<string>, b: seq<string>)
    ensures LineRecords(meta, a + b) == LineRecords(meta, a) + LineRecords(meta, b)
  {
    FlatMapAppend(a, b, LineRecordOf(meta));
  }

  /** One line gives one record when it parses and none otherwise; with LineRecordsAppend this
      fixes the records of any run of lines: one per parseable line, in line order. */
  lemma LineRecordsOne(meta: FileMeta, line: string)
    ensures ParseLine(line).Some? ==> LineRecords(meta, [line]) == [MakeRecord(meta, ParseLine(line).value)]
    ensures ParseLine(line).None? ==> LineRecords(meta, [line]) == []
  {
    assert [line][1..] == [];
    assert LineRecords(meta, [line]) == LineRecord(meta, line) + FlatMap([], LineRecordOf(meta));
  }

  /** Every parseable line contributes its record and every record comes from a parseable line. */
  lemma LineRecordsMembers(meta: FileMeta, lines: seq<string>)
    ensures forall i :: 0 <= i < |lines| && ParseLine(lines[i]).Some? ==>
      MakeRecord(meta, ParseLine(lines[i]).value) in LineRecords(meta, lines)
    ensures forall r :: r in LineRecords(meta, lines) ==>
      exists i :: 0 <= i < |lines| && ParseLine(lines[i]).Some? && r == MakeRecord(meta, ParseLine(lines[i]).value)
  {
    EveryLineRecorded(meta, lines);
    EveryRecordFromLine(meta, lines);
  }

  lemma EveryLineRecorded(meta: FileMeta, lines: seq<string>)
    ensures forall i :: 0 <= i < |lines| && ParseLine(lines[i]).Some? ==>
      MakeRecord(meta, ParseLine(lines[i]).value) in LineRecords(meta, lines)
  {
    var f := LineRecordOf(meta);
    FlatMapMembers(lines, f);
    forall i | 0 <= i < |lines| && ParseLine(lines[i]).Some?
      ensures MakeRecord(meta, ParseLine(lines[i]).value) in LineRecords(meta, lines)
    {
      LineRecordIs(meta, lines[i]);
      assert MakeRecord(meta, ParseLine(lines[i]).value) in f(lines[i]);
    }
  }

  lemma EveryRecordFromLine(meta: FileMeta, lines: seq<string>)
    ensures forall r :: r in LineRecords(meta, lines) ==>
      exists i :: 0 <= i < |lines| && ParseLine(lines[i]).Some? && r == MakeRecord(meta, ParseLine(lines[i]).value)
  {
    forall r | r in LineRecords(meta, lines)
      ensures exists i :: 0 <= i < |lines| && ParseLine(lines[i]).Some? && r == MakeRecord(meta, ParseLine(lines[i]).value)
    {
      RecordFromLine(meta, lines, r);
    }
  }

  lemma RecordFromLine(meta: FileMeta, lines: seq<string>, r: QryRecord)
    requires r in LineRecords(meta, lines)
    ensures exists i :: 0 <= i < |lines| && ParseLine(lines[i]).Some? && r == MakeRecord(meta, ParseLine(lines[i]).value)
  {
    var i := FlatMapSource(lines, LineRecordOf(meta), r);
    LineRecordIs(meta, lines[i]);
    assert ParseLine(lines[i]).Some? && r == MakeRecord(meta, ParseLine(lines[i]).value);
  }

  /** One file's records; files that are not QRY extracts or cannot be read contribute none. */
  function FileRecords(f: QryFile): (rs: seq<QryRecord>)
    ensures forall r :: r in rs ==> WellFormed(r)
    ensures !IsQryFile(f.name) || f.lines.None? ==> rs == []
    ensures IsQryFile(f.name) && f.lines.Some? ==> rs == LineRecords(ParseFileName(f.name), f.lines.value)
  {
    if !IsQryFile(f.name) then []
    else match f.lines
      case None => []
      case Some(ls) => LineRecords(ParseFileName(f.name), ls)
  }

  /** The records of every file of the listing, file after file. */
  function AllRecords(files: seq<QryFile>): (rs: seq<QryRecord>)
    ensures forall r :: r in rs ==> WellFormed(r)
  {
    FlatMapMembers(files, FileRecords);
    FlatMap(files, FileRecords)
  }

  /** `process_qry_files(folder)`: `None` for a missing folder. */
  function ProcessQryFiles(listing: Option<seq<QryFile>>): (rs: seq<QryRecord>)
    ensures forall r :: r in rs ==> WellFormed(r)
    ensures listing.None? ==> rs == []
    ensures listing.Some? ==> rs == AllRecords(listing.value)
  {
    match listing
    case None => []
    case Some(files) => AllRecords(files)
  }

  /** Files are read independently: the table of a listing is the tables of its parts, in order. */
  lemma AllRecordsAppend(a: seq<QryFile>, b: seq<QryFile>)
    ensures AllRecords(a + b) == AllRecords(a) + AllRecords(b)
  {
    FlatMapAppend(a, b, FileRecords);
  }

  /** A listing of one file gives that file's records. */
  lemma AllRecordsOne(f: QryFile)
    ensures AllRecords([f]) == FileRecords(f)
  {
    assert [f][1..] == [];
    assert AllRecords([f]) == FileRecords(f) + FlatMap([], FileRecords);
  }

  /** The lines `entity=n` of a whole-number extract. */
  function ExtractLines(entities: seq<string>, values: seq<nat>): seq<string>
    requires |entities| == |values|
  {
    seq(|entities|, i requires 0 <= i < |entities| => entities[i] + "=" + NatToString(values[i]))
  }

  /** Writing an extract and ingesting it: a folder holding one QRY file of `entity=n` lines gives
      one record per line, in order, carrying the line's entity and value and the file name's
      category and region. */
  lemma {:induction false} IngestExtract(name: string, entities: seq<string>, values: seq<nat>)
    requires IsQryFile(name)
    requires |entities| == |values|
    requires forall i :: 0 <= i < |entities| ==> entities[i] == "" || !IsSpace(entities[i][0])
    ensures var rs := ProcessQryFiles(Some([QryFile(name, Some(ExtractLines(entities, values)))]));
      |rs| == |entities| &&
      forall i :: 0 <= i < |rs| ==> rs[i] == MakeRecord(ParseFileName(name), QryLine(entities[i], values[i] as real))
  {
    var f := QryFile(name, Some(ExtractLines(entities, values)));
    AllRecordsOne(f);
    ExtractRecords(ParseFileName(name), entities, values);
  }

  lemma {:induction false} ExtractRecords(meta: FileMeta, entities: seq<string>, values: seq<nat>)
    requires |entities| == |values|
    requires forall i :: 0 <= i < |entities| ==> entities[i] == "" || !IsSpace(entities[i][0])
    ensures var rs := LineRecords(meta, ExtractLines(entities, values));
      |rs| == |entities| && forall i :: 0 <= i < |rs| ==> rs[i] == MakeRecord(meta, QryLine(entities[i], values[i] as real))
    decreases |entities|
  {
    var lines := ExtractLines(entities, values);
    if |entities| > 0 {
      assert lines[1..] == ExtractLines(entities[1..], values[1..]);
      ExtractRecords(meta, entities[1..], values[1..]);
      ExtractLineRecord(meta, entities[0], values[0]);
      var rest := LineRecords(meta, lines[1..]);
      var head := MakeRecord(meta, QryLine(entities[0], values[0] as real));
      assert LineRecords(meta, lines) == LineRecordOf(meta)(lines[0]) + FlatMap(lines[1..], LineRecordOf(meta));
      assert LineRecords(meta, lines) == [head] + rest;
    } else {
      assert lines == [];
    }
  }

  lemma ExtractLineRecord(meta: FileMeta, entity: string, n: nat)
    requires entity == "" || !IsSpace(entity[0])
    ensures LineRecordOf(meta)(entity + "=" + NatToString(n)) == [MakeRecord(meta, QryLine(entity, n as real))]
  {
    LineRoundTrip(entity, n);
    LineRecordIs(meta, entity + "=" + NatToString(n));
  }

  // ---------------------------------------------------------------- hand-over to the resolver

  /** The record under the column names the resolver reads. */
  function ToSalesRecord(r: QryRecord): EntityResolver.SalesRecord {
    EntityResolver.SalesRecord(r.salesEmployee, r.customer, Some(r.companyEntity), Some(r.documentType), r.totalValue)
  }

  /** Regions whose lines reach the resolver with a null lookup name: the name goes in one column
      while the entity sends the resolver to the other. */
  predicate MisroutedRegion(region: string) {
    (IsEmployeeRegion(region) && region !in {"Gmbh", "GmbH", "CH"}) || region == "AG"
  }

  /** For the regions of the naming scheme the resolver looks a line up by the name it carries:
      employee files by employee, all others by customer; only misrouted regions are looked up by
      a null name. */
  lemma IngestedLookupName(meta: FileMeta, line: QryLine)
    ensures var s := ToSalesRecord(MakeRecord(meta, line));
      var name := if EntityResolver.UsesEmployeePath(s) then s.employeeName else s.customerName;
      (name.None? <==> MisroutedRegion(meta.region)) &&
      (meta.region in {"Gmbh", "GmbH", "CH"} ==> EntityResolver.UsesEmployeePath(s) && name == Some(line.entity))
  {
    var region := meta.region;
    if region in {"Gmbh", "GmbH", "CH"} {
      assert LowerStr(region) == "gmbh" || LowerStr(region) == "ch";
    }
    if region == "AG" {
      assert LowerStr(region) == "ag";
    }
    if region == "GmbH" {
      assert LowerStr(region) == "gmbh";
    }
  }
}

=== FILE: numbers.dfy ===
/** Decimal text of integers, parsing of decimal numbers, and Python's `round`. */
module Numbers {
  import opened Wrappers
  import opened Text

  predicate IsDigit(c: char) {
    '0' <= c <= '9'
  }

  predicate AllDigits(s: string) {
    forall i :: 0 <= i < |s| ==> IsDigit(s[i])
  }

  function DigitChar(d: nat): (c: char)
    requires d < 10
    ensures IsDigit(c) && DigitValue(c) == d
  {
    (48 + d) as char
  }

  function DigitValue(c: char): nat
    requires IsDigit(c)
  {
    c as int - 48
  }

  /** The number a string of digits denotes (most significant digit first). */
  function DigitsValue(s: string): nat
    requires AllDigits(s)
  {
    if |s| == 0 then 0 else DigitsValue(s[..|s| - 1]) * 10 + DigitValue(s[|s| - 1])
  }

  function Pow10(k: nat): (r: nat)
    ensures r >= 1
  {
    if k == 0 then 1 else 10 * Pow10(k - 1)
  }

  /** `str(n)` for a non-negative integer: shortest decimal text, no leading zero. */
  function NatToString(n: nat): (r: string)
    ensures |r| >= 1 && AllDigits(r)
    ensures |r| > 1 ==> r[0] != '0'
  {
    if n < 10 then [DigitChar(n)] else NatToString(n / 10) + [DigitChar(n % 10)]
  }

  /** `str(i)` for any integer. */
  function IntToString(i: int): (r: string)
    ensures |r| >= 1
    ensures i >= 0 <==> r[0] != '-'
  {
    if i < 0 then "-" + NatToString(-i) else NatToString(i)
  }

  /** Decimal text reads back as the number it was written from. */
  lemma {:induction false} NatToStringValue(n: nat)
    ensures DigitsValue(NatToString(n)) == n
  {
    if n >= 10 {
      var s := NatToString(n);
      assert s[..|s| - 1] == NatToString(n / 10);
      NatToStringValue(n / 10);
    }
  }

  /** Numbers below 10^k have at most k digits. */
  lemma {:induction false} NatToStringLength(n: nat, k: nat)
    requires n < Pow10(k) && k >= 1
    ensures |NatToString(n)| <= k
  {
    if n >= 10 {
      NatToStringLength(n / 10, k - 1);
    }
  }

  /** The value of an unsigned numeral `digits ['.' digits]` or `'.' digits`; no exponent. */
  function ParseUnsigned(t: string): Option<real> {
    if '.' in t then
      var i := IndexOf(t, '.');
      var whole := t[..i];
      var frac := t[i + 1..];
      if AllDigits(whole) && AllDigits(frac) && |whole| + |frac| > 0 then
        Some(PointValue(whole, frac))
      else None
    else if |t| > 0 && AllDigits(t) then Some(DigitsValue(t) as real)
    else None
  }

  /** The value of `whole.frac` for digit strings `whole` and `frac`. */
  function PointValue(whole: string, frac: string): real
    requires AllDigits(whole) && AllDigits(frac)
  {
    DigitsValue(whole) as real + DigitsValue(frac) as real / Pow10(|frac|) as real
  }

  /** Python `float(text)` restricted to plain decimal numerals: surrounding whitespace,
      an optional sign, digits with an optional fractional part. */
  function ParseDecimal(s: string): Option<real> {
    var t := Strip(s);
    if |t| > 0 && (t[0] == '-' || t[0] == '+') then
      match ParseUnsigned(t[1..])
      case Some(v) => Some(if t[0] == '-' then -v else v)
      case None => None
    else ParseUnsigned(t)
  }

  /** Text that begins with a digit or a sign and ends with a digit has no surrounding whitespace. */
  lemma StripNumeral(s: string)
    requires |s| > 0 && (IsDigit(s[0]) || s[0] == '-') && IsDigit(s[|s| - 1])
    ensures Strip(s) == s
  {
    TrimUnchanged(s, IsSpace);
  }

  /** The text of a natural number parses back to that number. */
  lemma NatToStringParses(n: nat)
    ensures ParseDecimal(NatToString(n)) == Some(n as real)
  {
    var s := NatToString(n);
    StripNumeral(s);
    assert '.' !in s by { assert forall i :: 0 <= i < |s| ==> IsDigit(s[i]); }
    NatToStringValue(n);
  }

  /** A non-empty string of digits parses as the number it denotes. */
  lemma DigitsParse(s: string)
    requires |s| > 0 && AllDigits(s)
    ensures ParseDecimal(s) == Some(DigitsValue(s) as real)
  {
    var v := DigitsValue(s) as real;
    assert ParseUnsigned(s) == Some(v) by {
      assert '.' !in s by { assert forall i :: 0 <= i < |s| ==> IsDigit(s[i]); }
    }
    UnsignedParses(s, v);
  }

  /** Text of a non-negative tenths count `t`, a whole part, a point and one decimal. */
  function TenthsText(t: nat): string {
    NatToString(t / 10) + "." + [DigitChar(t % 10)]
  }

  lemma TenthsTextParses(t: nat)
    ensures ParseUnsigned(TenthsText(t)) == Some(t as real / 10.0)
  {
    var whole := NatToString(t / 10);
    var frac := [DigitChar(t % 10)];
    NatToStringValue(t / 10);
    assert DigitsValue(frac) == t % 10 by {
      assert frac[..0] == [];
    }
    assert Pow10(|frac|) == 10;
    TenthsSplit(t);
    assert PointValue(whole, frac) == t as real / 10.0;
    PointParses(TenthsText(t), whole, frac);
  }

  /** Digits, a point and digits read as the whole part plus the fraction. */
  lemma PointParses(u: string, whole: string, frac: string)
    requires u == whole + "." + frac && AllDigits(whole) && AllDigits(frac) && |whole| + |frac| > 0
    ensures ParseUnsigned(u) == Some(PointValue(whole, frac))
  {
    assert '.' !in whole by { assert forall k :: 0 <= k < |whole| ==> IsDigit(whole[k]); }
    assert u[..|whole|] == whole;
    assert u[|whole|] == '.';
    assert IndexOf(u, '.') == |whole|;
    assert u[|whole| + 1..] == frac;
  }

  lemma TenthsSplit(t: nat)
    ensures (t / 10) as real + (t % 10) as real / 10.0 == t as real / 10.0
  {
  }

  /** A minus sign in front of an unsigned numeral negates its value. */
  lemma NegatedParses(s: string, u: string, v: real)
    requires s == "-" + u
    requires |u| > 0 && IsDigit(u[0]) && IsDigit(u[|u| - 1])
    requires ParseUnsigned(u) == Some(v)
    ensures ParseDecimal(s) == Some(-v)
  {
    StripNumeral(s);
    assert s[1..] == u;
  }

  /** An unsigned numeral without sign keeps its value. */
  lemma UnsignedParses(u: string, v: real)
    requires |u| > 0 && IsDigit(u[0]) && IsDigit(u[|u| - 1])
    requires ParseUnsigned(u) == Some(v)
    ensures ParseDecimal(u) == Some(v)
  {
    StripNumeral(u);
  }

  /** Python's `round(x)`: the nearest integer, ties to the even neighbour. */
  function RoundHalfEven(x: real): (r: int)
    ensures -1.0 / 2.0 <= r as real - x <= 1.0 / 2.0
    ensures (r as real - x == 1.0 / 2.0 || x - r as real == 1.0 / 2.0) ==> r % 2 == 0
  {
    var f := x.Floor;
    var frac := x - f as real;
    if frac < 1.0 / 2.0 then f
    else if frac > 1.0 / 2.0 then f + 1
    else if f % 2 == 0 then f
    else f + 1
  }

  /** The two properties of `RoundHalfEven` single out its result. */
  lemma RoundHalfEvenUnique(x: real, n: int)
    requires -1.0 / 2.0 <= n as real - x <= 1.0 / 2.0
    requires (n as real - x == 1.0 / 2.0 || x - n as real == 1.0 / 2.0) ==> n % 2 == 0
    ensures n == RoundHalfEven(x)
  {
    var r := RoundHalfEven(x);
    assert -1 <= n - r <= 1;
  }

  /** Rounding is symmetric about zero. */
  lemma RoundHalfEvenNegate(x: real)
    ensures RoundHalfEven(-x) == -RoundHalfEven(x)
  {
    var r := RoundHalfEven(x);
    RoundHalfEvenUnique(-x, -r);
  }
}

=== FILE: receivables.dfy ===
/** The receivables management report (src/receivables_report_generator.py): AR sales against
    budget and prior year per configured section, with a residual "fallback" line per section and a
    grand total from which the company-level sales sections are deducted. */
module Receivables {
  import opened Wrappers
  import opened Text
  import opened Seqs
  import opened ReportCommon
  import Display
  import Numbers
  import Utils

  /** The report year and its prior year are fixed in the code, not taken from the clock. */
  const CurrentYear: int := 2025
  const PriorYear: int := 2024

  // ---------------------------------------------------------------- inputs and _prepare_data

  /** A resolved sales row; `None` amounts are NaN cells. */
  datatype SalesInput = SalesInput(
    documentType: Option<string>,
    companyGroup: Option<string>,
    marketGroup: Option<string>,
    region: Option<string>,
    channelLevel: Option<string>,
    converted: Option<real>,   // 'Value_in_EUR_converted'
    totalValue: Option<real>)  // 'Total Value (EUR)'

  /** The sales table; `hasConverted` says whether the converted-value column exists. */
  datatype SalesTable = SalesTable(hasConverted: bool, rows: seq<SalesInput>)

  /** A budget or prior row. Prior rows keep their 'Date' cell as text ("nan" when empty); budget
      rows carry the parsed cell. `kusd` is `None` on rows of a table without 'Value_kUSD'. */
  datatype RefInput = RefInput(
    date: DateCell,
    dateText: string,
    companyGroup: Option<string>,
    marketGroup: Option<string>,
    region: Option<string>,
    channelLevel: Option<string>,
    keur: Option<real>,   // 'Value_kEUR'
    kusd: Option<real>)   // 'Value_kUSD'

  datatype SalesRow = SalesRow(companyGroup: Option<string>, marketGroup: Option<string>, region: Option<string>,
                               channelLevel: Option<string>, kEur: real)

  /** The period data the report is computed from. */
  datatype Prepared = Prepared(sales: seq<SalesRow>, budget: seq<RefInput>, hasKusd: bool, prior: seq<RefInput>)

  /** The row with its 'kEUR' column added; every classification column is carried over unchanged. */
  function ToSalesRow(hasConverted: bool, r: SalesInput): (s: SalesRow)
    ensures s.kEur * 1000.0 == Cell(if hasConverted then r.converted else r.totalValue)
    ensures s.companyGroup == r.companyGroup && s.marketGroup == r.marketGroup
    ensures s.region == r.region && s.channelLevel == r.channelLevel
  {
    SalesRow(r.companyGroup, r.marketGroup, r.region, r.channelLevel,
      Cell(if hasConverted then r.converted else r.totalValue) / 1000.0)
  }

  /** `f"{prior_year}-{month:02d}"`. */
  function PriorPrefix(month: Utils.Month): string {
    "2024-" + Utils.MonthDigits(month)
  }

  predicate InBudgetMonth(month: Utils.Month, r: RefInput) {
    r.date.DateOk? && r.date.date.month == month
  }

  predicate InPriorMonth(month: Utils.Month, r: RefInput) {
    StartsWith(r.dateText, PriorPrefix(month))
  }

  predicate IsAr(r: SalesInput) {
    r.documentType == Some("AR")
  }

  /** `_prepare_data` for the clock's month: AR sales in kEUR, budget rows of that month in any
      year, prior rows whose date text starts with the prior year and month. `None` when a budget
      date does not parse. */
  function Prepare(sales: SalesTable, budget: seq<RefInput>, budgetHasKusd: bool, prior: seq<RefInput>, month: Utils.Month): (p: Option<Prepared>)
    ensures p.None? <==> exists i :: 0 <= i < |budget| && budget[i].date.DateMalformed?
    ensures p.Some? ==> |p.value.sales| == |Where(sales.rows, IsAr)|
    ensures p.Some? ==> forall i :: 0 <= i < |p.value.sales| ==>
      p.value.sales[i] == ToSalesRow(sales.hasConverted, Where(sales.rows, IsAr)[i])
    ensures p.Some? ==> forall r :: r in p.value.budget <==> r in budget && r.date.DateOk? && r.date.date.month == month
    ensures p.Some? ==> forall r :: multiset(p.value.budget)[r] == if InBudgetMonth(month, r) then multiset(budget)[r] else 0
    ensures p.Some? ==> forall r :: r in p.value.prior <==> r in prior && StartsWith(r.dateText, PriorPrefix(month))
    ensures p.Some? ==> forall r :: multiset(p.value.prior)[r] == if InPriorMonth(month, r) then multiset(prior)[r] else 0
    ensures p.Some? ==> p.value.hasKusd == budgetHasKusd
  {
    if exists i :: 0 <= i < |budget| && budget[i].date.DateMalformed? then None
    else
      var ar := Where(sales.rows, IsAr);
      var inBudget := BudgetMonthOf(month);
      var inPrior := PriorMonthOf(month);
      WhereMultiset(budget, inBudget);
      WhereMultiset(prior, inPrior);
      Some(Prepared(SalesRows(sales.hasConverted, ar), Where(budget, inBudget), budgetHasKusd, Where(prior, inPrior)))
  }

  function BudgetMonthOf(month: Utils.Month): RefInput -> bool {
    (r: RefInput) => InBudgetMonth(month, r)
  }

  function PriorMonthOf(month: Utils.Month): RefInput -> bool {
    (r: RefInput) => InPriorMonth(month, r)
  }

  function SalesRows(hasConverted: bool, ar: seq<SalesInput>): (rows: seq<SalesRow>)
    ensures |rows| == |ar| && forall i :: 0 <= i < |ar| ==> rows[i] == ToSalesRow(hasConverted, ar[i])
  {
    seq(|ar|, i requires 0 <= i < |ar| => ToSalesRow(hasConverted, ar[i]))
  }

  function KEurOf(r: SalesRow): real {
    r.kEur
  }

  /** The cell an AR row's amount is read from, in EUR. */
  function RawValueOf(hasConverted: bool): SalesInput -> real {
    (r: SalesInput) => Cell(if hasConverted then r.converted else r.totalValue)
  }

  lemma {:induction false} SalesRowsTotal(hasConverted: bool, ar: seq<SalesInput>)
    ensures Sum(SalesRows(hasConverted, ar), KEurOf) * 1000.0 == Sum(ar, RawValueOf(hasConverted))
    decreases |ar|
  {
    if |ar| > 0 {
      SalesRowsTotal(hasConverted, ar[1..]);
      assert SalesRows(hasConverted, ar)[1..] == SalesRows(hasConverted, ar[1..]);
      assert KEurOf(SalesRows(hasConverted, ar)[0]) * 1000.0 == RawValueOf(hasConverted)(ar[0]);
    }
  }

  /** The prepared actuals in kEUR add up to the AR rows' EUR column sum divided by 1000 (the
      converted column when present, else 'Total Value (EUR)', NaN counting as 0). */
  lemma PreparedSalesTotal(sales: SalesTable, budget: seq<RefInput>, budgetHasKusd: bool, prior: seq<RefInput>, month: Utils.Month)
    requires Prepare(sales, budget, budgetHasKusd, prior, month).Some?
    ensures Sum(Prepare(sales, budget, budgetHasKusd, prior, month).value.sales, KEurOf) * 1000.0 ==
            Sum(Where(sales.rows, IsAr), RawValueOf(sales.hasConverted))
  {
    SalesRowsTotal(sales.hasConverted, Where(sales.rows, IsAr));
  }

  // ---------------------------------------------------------------- section and item amounts

  /** The section-wide filter: the company group, and the market group when it is set. */
  predicate InSection(sec: Section, companyGroup: Option<string>, marketGroup: Option<string>) {
    Matches(companyGroup, sec.companyGroup) && (Truthy(sec.marketGroup) ==> Matches(marketGroup, sec.marketGroup))
  }

  /** The budget is read in kUSD for the USA market group when the budget has that column. */
  predicate UseKusd(p: Prepared, sec: Section) {
    sec.marketGroup == Some("USA") && p.hasKusd
  }

  function BudgetValue(useKusd: bool, r: RefInput): real {
    Cell(if useKusd then r.kusd else r.keur)
  }

  /** The section's own total, from the section-wide filter rather than from its items. */
  function SectionTotal(p: Prepared, sec: Section): Amounts {
    var useKusd := UseKusd(p, sec);
    Amounts(
      Sum(Where(p.sales, (r: SalesRow) => InSection(sec, r.companyGroup, r.marketGroup)), (r: SalesRow) => r.kEur),
      Sum(Where(p.budget, (r: RefInput) => InSection(sec, r.companyGroup, r.marketGroup)), (r: RefInput) => BudgetValue(useKusd, r)),
      Sum(Where(p.prior, (r: RefInput) => InSection(sec, r.companyGroup, r.marketGroup)), (r: RefInput) => Cell(r.keur)))
  }

  /** Actuals of an item: the section filter plus Region for a 'region' section, Channel_Level for
      a 'channel' section, and nothing more for any other section type. */
  predicate ItemActual(sec: Section, item: Item, r: SalesRow) {
    InSection(sec, r.companyGroup, r.marketGroup) &&
    (sec.sectionType == Some("region") ==> Matches(r.region, item.filterValue)) &&
    (sec.sectionType == Some("channel") ==> Matches(r.channelLevel, item.filterValue))
  }

  /** The reference key: 'budget_region_map' when the item has one, else its filter value. */
  function RefKey(item: Item): Option<string> {
    if item.regionMap.Some? then item.regionMap.value else item.filterValue
  }

  /** The reference rows are matched on Region when the item maps to a region or the section is a
      'region' section, and on Channel_Level otherwise. */
  predicate RefByRegion(sec: Section, item: Item) {
    item.regionMap.Some? || sec.sectionType == Some("region")
  }

  predicate ItemRef(sec: Section, item: Item, r: RefInput) {
    InSection(sec, r.companyGroup, r.marketGroup) &&
    Matches(if RefByRegion(sec, item) then r.region else r.channelLevel, RefKey(item))
  }

  function ItemAmounts(p: Prepared, sec: Section, item: Item): Amounts {
    var useKusd := UseKusd(p, sec);
    Amounts(
      Sum(Where(p.sales, (r: SalesRow) => ItemActual(sec, item, r)), (r: SalesRow) => r.kEur),
      Sum(Where(p.budget, (r: RefInput) => ItemRef(sec, item, r)), (r: RefInput) => BudgetValue(useKusd, r)),
      Sum(Where(p.prior, (r: RefInput) => ItemRef(sec, item, r)), (r: RefInput) => Cell(r.keur)))
  }

  // ---------------------------------------------------------------- regular sections

  /** Each item with its own amounts (a fallback item's own amounts are never used). */
  function Entries(p: Prepared, sec: Section): (es: seq<(Item, Amounts)>)
    ensures |es| == |sec.items|
    ensures forall i :: 0 <= i < |es| ==> es[i] == (sec.items[i], ItemAmounts(p, sec, sec.items[i]))
  {
    seq(|sec.items|, i requires 0 <= i < |sec.items| => (sec.items[i], ItemAmounts(p, sec, sec.items[i])))
  }

  /** Sum of the explicit (non-fallback) items. */
  function Allocated(es: seq<(Item, Amounts)>): Amounts {
    if |es| == 0 then Zero
    else (if es[0].0.isFallback then Zero else es[0].1).Plus(Allocated(es[1..]))
  }

  /** A residual line is shown only if some measure is off by more than 0.1. */
  predicate FallbackShown(rem: Amounts) {
    Display.Abs(rem.actual) > 0.1 || Display.Abs(rem.budget) > 0.1 || Display.Abs(rem.prior) > 0.1
  }

  function Remainder(p: Prepared, sec: Section): Amounts {
    SectionTotal(p, sec).Minus(Allocated(Entries(p, sec)))
  }

  function FallbackCount(es: seq<(Item, Amounts)>): nat {
    if |es| == 0 then 0 else (if es[0].0.isFallback then 1 else 0) + FallbackCount(es[1..])
  }

  /** The item lines in declared order: every explicit item, and each fallback item as the
      remainder `rem` when that is shown. */
  function DataRows(es: seq<(Item, Amounts)>, rem: Amounts): (rows: seq<ReportRow>)
    ensures forall i :: 0 <= i < |rows| ==> rows[i].kind == DataRow
    ensures FallbackShown(rem) ==> |rows| == |es|
    ensures !FallbackShown(rem) ==> |rows| == |es| - FallbackCount(es)
  {
    if |es| == 0 then []
    else
      var head := if !es[0].0.isFallback then [ReportRow(es[0].0.caption, es[0].1, DataRow)]
                  else if FallbackShown(rem) then [ReportRow(es[0].0.caption, rem, DataRow)]
                  else [];
      head + DataRows(es[1..], rem)
  }

  /** Sections whose total line is always shown. */
  const ComponentTitlesShown: set<string> := {"Core Markets", "UK", "USA", "Export"}

  predicate ShowsTotal(sec: Section) {
    sec.showTotal || sec.title in ComponentTitlesShown
  }

  predicate IsExplicit(e: (Item, Amounts)) {
    !e.0.isFallback
  }

  /** One data line per entry, with the entry's caption and amounts. */
  function Lines(es: seq<(Item, Amounts)>): (rows: seq<ReportRow>)
    ensures |rows| == |es| && forall i :: 0 <= i < |es| ==> rows[i] == ReportRow(es[i].0.caption, es[i].1, DataRow)
  {
    seq(|es|, i requires 0 <= i < |es| => ReportRow(es[i].0.caption, es[i].1, DataRow))
  }

  /** With the residual shown, line `i` is item `i`: its own amounts, or the residual for a
      fallback item. */
  lemma {:induction false} DataRowsShown(es: seq<(Item, Amounts)>, rem: Amounts)
    requires FallbackShown(rem)
    ensures |DataRows(es, rem)| == |es|
    ensures forall i :: 0 <= i < |es| ==>
      DataRows(es, rem)[i] == ReportRow(es[i].0.caption, if es[i].0.isFallback then rem else es[i].1, DataRow)
    decreases |es|
  {
    if |es| > 0 {
      DataRowsShown(es[1..], rem);
      var rows := DataRows(es, rem);
      assert rows[1..] == DataRows(es[1..], rem);
      forall i | 1 <= i < |es|
        ensures rows[i] == ReportRow(es[i].0.caption, if es[i].0.isFallback then rem else es[i].1, DataRow)
      {
        assert rows[i] == rows[1..][i - 1] && es[i] == es[1..][i - 1];
      }
    }
  }

  lemma LinesAppend(a: seq<(Item, Amounts)>, b: seq<(Item, Amounts)>)
    ensures Lines(a + b) == Lines(a) + Lines(b)
  {
  }

  /** With the residual hidden, the lines are the explicit items alone, in order, with their own
      amounts. */
  lemma {:induction false} DataRowsHidden(es: seq<(Item, Amounts)>, rem: Amounts)
    requires !FallbackShown(rem)
    ensures DataRows(es, rem) == Lines(Where(es, IsExplicit))
    decreases |es|
  {
    if |es| > 0 {
      DataRowsHidden(es[1..], rem);
      var head := if IsExplicit(es[0]) then [es[0]] else [];
      var rest := Where(es[1..], IsExplicit);
      assert Where(es, IsExplicit) == head + rest;
      LinesAppend(head, rest);
      assert DataRows(es, rem) == Lines(head) + DataRows(es[1..], rem) by {
        HiddenHead(es[0], rem);
      }
    }
  }

  lemma HiddenHead(e: (Item, Amounts), rem: Amounts)
    requires !FallbackShown(rem)
    ensures DataRows([e], rem) == Lines(if IsExplicit(e) then [e] else [])
  {
    assert [e][1..] == [];
  }

  /** A regular section's lines: items, then its total line if shown, then a spacer. */
  function RegularRows(p: Prepared, sec: Section): (rows: seq<ReportRow>)
    ensures |rows| >= 1 && rows[|rows| - 1] == Spacer
    ensures ShowsTotal(sec) <==> |rows| >= 2 && rows[|rows| - 2].kind == SectionTotalRow
    ensures ShowsTotal(sec) ==> rows[|rows| - 2] == ReportRow(sec.title, SectionTotal(p, sec), SectionTotalRow)
    ensures rows[..|rows| - (if ShowsTotal(sec) then 2 else 1)] == DataRows(Entries(p, sec), Remainder(p, sec))
  {
    var data := DataRows(Entries(p, sec), Remainder(p, sec));
    var total := if ShowsTotal(sec) then [ReportRow(sec.title, SectionTotal(p, sec), SectionTotalRow)] else [];
    Layout(data, total);
    data + total + [Spacer]
  }

  // ---------------------------------------------------------------- the fold

  /** The fold's carried state: rows so far, `section_totals`, and the grand-total accumulator. */
  datatype State = State(rows: seq<ReportRow>, totals: Totals, grand: Amounts)

  const Initial: State := State([], [], Zero)

  /** Titles of the company-level sales sections, 'Company … Sales'. */
  predicate IsCompanySales(title: string) {
    StartsWith(title, "Company ") && EndsWith(title, " Sales")
  }

  function Step(p: Prepared, st: State, sec: Section): State {
    match KindOf(sec)
    case GrandTotal =>
      var deduction := SumWhereKey(st.totals, IsCompanySales);
      st.(rows := st.rows + [ReportRow(sec.title, st.grand.Minus(deduction), GrandTotalRow)])
    case Unmapped => st
    case ComponentTotal =>
      var t := ComponentSum(st.totals, ComponentTitles(sec));
      st.(rows := st.rows + [ReportRow(sec.title, t, ComponentTotalRow)], grand := st.grand.Plus(t))
    case Regular =>
      var total := SectionTotal(p, sec);
      State(st.rows + RegularRows(p, sec), Put(st.totals, sec.title, total),
        if Contains(sec.title, "Sales") then st.grand.Plus(total) else st.grand)
  }

  /** The fold over the sections, left to right. */
  function Run(p: Prepared, sections: seq<Section>): State
    decreases |sections|
  {
    if |sections| == 0 then Initial
    else Step(p, Run(p, sections[..|sections| - 1]), sections[|sections| - 1])
  }

  /** `calculate_report()`: the report's rows in order. */
  function CalculateReport(p: Prepared, sections: seq<Section>): seq<ReportRow> {
    Run(p, sections).rows
  }

  // ---------------------------------------------------------------- properties of the fold

  /** The amounts recorded for `title` by the last regular section carrying it, if any. */
  function LatestRegular(p: Prepared, sections: seq<Section>, title: string): Option<Amounts>
    decreases |sections|
  {
    if |sections| == 0 then None
    else
      var last := sections[|sections| - 1];
      if KindOf(last) == Regular && last.title == title then Some(SectionTotal(p, last))
      else LatestRegular(p, sections[..|sections| - 1], title)
  }

  /** `section_totals` records exactly the regular sections, the later of two equal titles winning;
      component totals, grand totals and unmapped sections are never recorded. */
  lemma {:induction false} TotalsAreLatest(p: Prepared, sections: seq<Section>, title: string)
    ensures Get(Run(p, sections).totals, title) == LatestRegular(p, sections, title)
    decreases |sections|
  {
    if |sections| > 0 {
      var prefix := sections[..|sections| - 1];
      var last := sections[|sections| - 1];
      TotalsAreLatest(p, prefix, title);
      if KindOf(last) == Regular {
        PutGet(Run(p, prefix).totals, last.title, SectionTotal(p, last), title);
      }
    }
  }

  predicate NotUnmapped(s: Section) {
    KindOf(s) != Unmapped
  }

  /** Unmapped sections contribute nothing: dropping them from the configuration leaves the
      report, the totals and the accumulator unchanged. */
  lemma {:induction false} UnmappedIgnored(p: Prepared, sections: seq<Section>)
    ensures Run(p, Where(sections, NotUnmapped)) == Run(p, sections)
    decreases |sections|
  {
    if |sections| > 0 {
      var prefix := sections[..|sections| - 1];
      var last := sections[|sections| - 1];
      assert sections == prefix + [last];
      WhereAppend(prefix, [last], NotUnmapped);
      UnmappedIgnored(p, prefix);
      var kept := Where(prefix, NotUnmapped);
      RunSnoc(p, prefix, last);
      if NotUnmapped(last) {
        assert Where([last], NotUnmapped) == [last];
        RunSnoc(p, kept, last);
      } else {
        assert Where([last], NotUnmapped) == [];
        assert kept + [] == kept;
      }
    }
  }

  /** Regular section titles are distinct (a repeated title would overwrite its recorded total). */
  predicate UniqueRegularTitles(sections: seq<Section>) {
    forall i, j :: 0 <= i < j < |sections| && KindOf(sections[i]) == Regular && KindOf(sections[j]) == Regular ==>
      sections[i].title != sections[j].title
  }

  /** Component totals summed from the configuration alone. */
  function RefComponentSum(p: Prepared, sections: seq<Section>, titles: seq<string>): Amounts {
    if |titles| == 0 then Zero
    else LatestRegular(p, sections, titles[0]).GetOr(Zero).Plus(RefComponentSum(p, sections, titles[1..]))
  }

  /** What the grand total is meant to be: every component total plus every regular sales section
      that is not a company-level 'Company … Sales' section. */
  function BaseGrand(p: Prepared, sections: seq<Section>): Amounts
    decreases |sections|
  {
    if |sections| == 0 then Zero
    else
      var prefix := sections[..|sections| - 1];
      var last := sections[|sections| - 1];
      match KindOf(last)
      case ComponentTotal => BaseGrand(p, prefix).Plus(RefComponentSum(p, prefix, ComponentTitles(last)))
      case Regular => BaseGrand(p, prefix).Plus(BaseShare(p, last))
      case _ => BaseGrand(p, prefix)
  }

  lemma {:induction false} ComponentSumIsRef(p: Prepared, sections: seq<Section>, titles: seq<string>)
    ensures ComponentSum(Run(p, sections).totals, titles) == RefComponentSum(p, sections, titles)
    decreases |titles|
  {
    if |titles| > 0 {
      TotalsAreLatest(p, sections, titles[0]);
      ComponentSumIsRef(p, sections, titles[1..]);
    }
  }

  lemma {:induction false} LatestAbsent(p: Prepared, sections: seq<Section>, title: string)
    requires forall i :: 0 <= i < |sections| && KindOf(sections[i]) == Regular ==> sections[i].title != title
    ensures LatestRegular(p, sections, title) == None
    decreases |sections|
  {
    if |sections| > 0 {
      LatestAbsent(p, sections[..|sections| - 1], title);
    }
  }

  lemma CompanySalesIsSales(title: string)
    requires IsCompanySales(title)
    ensures Contains(title, "Sales")
  {
    assert OccursAt(title, "Sales", |title| - 5);
  }

  /** The grand total is meant to add a regular section exactly when it is a sales section but
      not a company-level one. */
  function BaseShare(p: Prepared, sec: Section): Amounts {
    if Contains(sec.title, "Sales") && !IsCompanySales(sec.title) then SectionTotal(p, sec) else Zero
  }

  /** One step changes `section_totals` only for a regular section, and the accumulator only for a
      component total or a regular sales section. */
  lemma StepFields(p: Prepared, st: State, sec: Section)
    ensures var next := Step(p, st, sec);
      match KindOf(sec)
      case Regular =>
        && next.totals == Put(st.totals, sec.title, SectionTotal(p, sec))
        && next.grand == if Contains(sec.title, "Sales") then st.grand.Plus(SectionTotal(p, sec)) else st.grand
      case ComponentTotal =>
        next.totals == st.totals && next.grand == st.grand.Plus(ComponentSum(st.totals, ComponentTitles(sec)))
      case _ => next.totals == st.totals && next.grand == st.grand
  {
  }

  lemma RunSnoc(p: Prepared, prefix: seq<Section>, last: Section)
    ensures Run(p, prefix + [last]) == Step(p, Run(p, prefix), last)
  {
    var all := prefix + [last];
    assert all[..|all| - 1] == prefix && all[|all| - 1] == last;
  }

  lemma RegularStepGrand(p: Prepared, st: State, base: Amounts, sec: Section)
    requires KindOf(sec) == Regular && sec.title !in Keys(st.totals)
    requires st.grand == base.Plus(SumWhereKey(st.totals, IsCompanySales))
    ensures Step(p, st, sec).grand == base.Plus(BaseShare(p, sec)).Plus(SumWhereKey(Step(p, st, sec).totals, IsCompanySales))
  {
    var total := SectionTotal(p, sec);
    var d := SumWhereKey(st.totals, IsCompanySales);
    StepFields(p, st, sec);
    PutNew(st.totals, sec.title, total);
    SumWhereKeyAppend(st.totals, sec.title, total, IsCompanySales);
    AmountsAlgebra(base, d, total);
    AmountsAlgebra(d, Zero, Zero);
    if IsCompanySales(sec.title) {
      CompanySalesIsSales(sec.title);
    } else if Contains(sec.title, "Sales") {
      AmountsAlgebra(base, total, d);
      AmountsAlgebra(d, total, Zero);
    }
  }

  /** The accumulator holds the intended grand total plus the company-level sales sections it
      also added; the latter are exactly what the deduction removes. */
  lemma {:induction false} GrandInvariant(p: Prepared, sections: seq<Section>)
    requires UniqueRegularTitles(sections)
    ensures Run(p, sections).grand == BaseGrand(p, sections).Plus(SumWhereKey(Run(p, sections).totals, IsCompanySales))
    decreases |sections|
  {
    if |sections| > 0 {
      var prefix := sections[..|sections| - 1];
      var last := sections[|sections| - 1];
      assert sections == prefix + [last];
      assert UniqueRegularTitles(prefix);
      GrandInvariant(p, prefix);
      GrandStep(p, prefix, last);
    }
  }

  lemma BaseGrandSnoc(p: Prepared, prefix: seq<Section>, last: Section)
    ensures BaseGrand(p, prefix + [last]) == match KindOf(last)
      case ComponentTotal => BaseGrand(p, prefix).Plus(RefComponentSum(p, prefix, ComponentTitles(last)))
      case Regular => BaseGrand(p, prefix).Plus(BaseShare(p, last))
      case _ => BaseGrand(p, prefix)
  {
    var all := prefix + [last];
    assert all[..|all| - 1] == prefix && all[|all| - 1] == last;
  }

  /** One step of the fold keeps the accumulator invariant. */
  lemma GrandStep(p: Prepared, prefix: seq<Section>, last: Section)
    requires UniqueRegularTitles(prefix + [last])
    requires Run(p, prefix).grand == BaseGrand(p, prefix).Plus(SumWhereKey(Run(p, prefix).totals, IsCompanySales))
    ensures Run(p, prefix + [last]).grand
            == BaseGrand(p, prefix + [last]).Plus(SumWhereKey(Run(p, prefix + [last]).totals, IsCompanySales))
  {
    var st := Run(p, prefix);
    RunSnoc(p, prefix, last);
    BaseGrandSnoc(p, prefix, last);
    StepFields(p, st, last);
    var base := BaseGrand(p, prefix);
    var d := SumWhereKey(st.totals, IsCompanySales);
    match KindOf(last)
    case ComponentTotal =>
      var c := ComponentSum(st.totals, ComponentTitles(last));
      ComponentSumIsRef(p, prefix, ComponentTitles(last));
      AmountsAlgebra(base, d, c);
      AmountsAlgebra(base, c, d);
      AmountsAlgebra(d, c, Zero);
    case Regular =>
      var all := prefix + [last];
      forall i | 0 <= i < |prefix| && KindOf(prefix[i]) == Regular
        ensures prefix[i].title != last.title
      {
        assert all[i] == prefix[i] && all[|prefix|] == last;
      }
      LatestAbsent(p, prefix, last.title);
      TotalsAreLatest(p, prefix, last.title);
      RegularStepGrand(p, st, base, last);
    case _ =>
  }

  /** The grand-total line: with distinct regular titles it shows the component totals plus the
      non-company sales sections seen so far, and it changes no total. */
  lemma GrandTotalLine(p: Prepared, sections: seq<Section>, sec: Section)
    requires KindOf(sec) == GrandTotal && UniqueRegularTitles(sections)
    ensures Run(p, sections + [sec]) ==
      Run(p, sections).(rows := CalculateReport(p, sections) + [ReportRow(sec.title, BaseGrand(p, sections), GrandTotalRow)])
  {
    var st := Run(p, sections);
    RunSnoc(p, sections, sec);
    var deduction := SumWhereKey(st.totals, IsCompanySales);
    assert st.grand.Minus(deduction) == BaseGrand(p, sections) by {
      GrandInvariant(p, sections);
      AmountsAlgebra(BaseGrand(p, sections), deduction, Zero);
    }
    assert Step(p, st, sec) == st.(rows := st.rows + [ReportRow(sec.title, st.grand.Minus(deduction), GrandTotalRow)]);
  }

  lemma {:induction false} DataRowsSum(es: seq<(Item, Amounts)>, rem: Amounts)
    requires FallbackCount(es) <= 1 && FallbackShown(rem)
    ensures RowsSum(DataRows(es, rem)) == Allocated(es).Plus(if FallbackCount(es) == 1 then rem else Zero)
    decreases |es|
  {
    if |es| > 0 {
      DataRowsSum(es[1..], rem);
      var head := if !es[0].0.isFallback then [ReportRow(es[0].0.caption, es[0].1, DataRow)]
                  else [ReportRow(es[0].0.caption, rem, DataRow)];
      RowsSumAppend(head, DataRows(es[1..], rem));
    }
  }

  /** When a section's single fallback line is shown, its item lines add up to the section total. */
  lemma FallbackCompletesSection(p: Prepared, sec: Section)
    requires FallbackCount(Entries(p, sec)) == 1 && FallbackShown(Remainder(p, sec))
    ensures RowsSum(DataRows(Entries(p, sec), Remainder(p, sec))) == SectionTotal(p, sec)
  {
    DataRowsSum(Entries(p, sec), Remainder(p, sec));
  }
}

=== FILE: resolver.dfy ===
/** Entity resolution (src/qry_data_mapping.py, `apply_mappings`): each sales record gets its
    classification from the mapping table, by employee for the GmbH and AG entities and by
    customer for every other entity; then three row filters and one label rewrite apply. */
module EntityResolver {
  import opened Wrappers
  import opened Text
  import opened Seqs

  /** A unified sales record; only the columns the resolver reads are modelled. */
  datatype SalesRecord = SalesRecord(
    employeeName: Option<string>,   // 'Sales Employee Name'
    customerName: Option<string>,   // 'Customer Name'
    companyEntity: Option<string>,  // 'Company Entity'
    documentType: Option<string>,   // 'Document Type'
    value: real)

  /** The five classification fields a mapping row carries; `None` is a null cell. */
  datatype Classification = Classification(
    marketGroup: Option<string>,
    region: Option<string>,
    channelLevel: Option<string>,
    companyGroup: Option<string>,
    employeeCleaned: Option<string>)  // 'Sales_Employee_Cleaned'

  const Unclassified: Classification := Classification(None, None, None, None, None)

  /** A row of the mapping table: an employee key or a customer key, and the classification. */
  datatype MappingRow = MappingRow(salesEmployee: Option<string>, customerName: Option<string>, cls: Classification)

  /** The mapping table: which key columns exist, whether all five classification columns exist,
      and the rows in file order. */
  datatype MappingTable = MappingTable(
    hasEmployeeKey: bool,
    hasCustomerKey: bool,
    hasClassColumns: bool,
    rows: seq<MappingRow>)

  datatype ResolvedRecord = ResolvedRecord(record: SalesRecord, cls: Classification)

  /** Which lookup index a record is resolved against. */
  datatype Path = EmployeePath | CustomerPath

  type Index = map<string, Classification>

  // ---------------------------------------------------------------- cleaning and indices

  function StripCell(c: Option<string>): Option<string> {
    match c
    case Some(s) => Some(Strip(s))
    case None => None
  }

  /** The mapping table's string cells with surrounding whitespace removed. */
  function StripRow(row: MappingRow): MappingRow {
    MappingRow(StripCell(row.salesEmployee), StripCell(row.customerName),
      Classification(StripCell(row.cls.marketGroup), StripCell(row.cls.region),
        StripCell(row.cls.channelLevel), StripCell(row.cls.companyGroup),
        StripCell(row.cls.employeeCleaned)))
  }

  function KeyOf(path: Path, row: MappingRow): Option<string> {
    match path
    case EmployeePath => row.salesEmployee
    case CustomerPath => row.customerName
  }

  /** No row before `i` carries the key of row `i`. */
  predicate FirstWithKey(rows: seq<MappingRow>, path: Path, i: int)
    requires 0 <= i < |rows|
  {
    forall j :: 0 <= j < i ==> KeyOf(path, rows[j]) != KeyOf(path, rows[i])
  }

  /** The index's keys are exactly the non-null keys of the rows. */
  ghost predicate KeysExactly(rows: seq<MappingRow>, path: Path, idx: Index) {
    forall k :: k in idx <==> exists i :: 0 <= i < |rows| && KeyOf(path, rows[i]) == Some(k)
  }

  /** Every key maps to the classification of the first row carrying it. */
  ghost predicate FirstRowKept(rows: seq<MappingRow>, path: Path, idx: Index)
    requires forall k :: k in idx <== exists i :: 0 <= i < |rows| && KeyOf(path, rows[i]) == Some(k)
  {
    forall i :: 0 <= i < |rows| && KeyOf(path, rows[i]).Some? && FirstWithKey(rows, path, i) ==>
      idx[KeyOf(path, rows[i]).value] == rows[i].cls
  }

  /** The lookup index of one path: rows with a null key dropped, and for a repeated key only the
      first row kept (`dropna(...).drop_duplicates(...)`). */
  function BuildIndex(rows: seq<MappingRow>, path: Path): (idx: Index)
    ensures KeysExactly(rows, path, idx) && FirstRowKept(rows, path, idx)
  {
    if |rows| == 0 then map[]
    else
      var rest := BuildIndex(rows[1..], path);
      EnterFirst(rows, path, rest);
      Enter(path, rows[0], rest)
  }

  /** One row entered in front of the index of the rows after it: it wins for its key. */
  function Enter(path: Path, row: MappingRow, rest: Index): Index {
    match KeyOf(path, row)
    case Some(k) => rest[k := row.cls]
    case None => rest
  }

  lemma EnterFirst(rows: seq<MappingRow>, path: Path, rest: Index)
    requires |rows| > 0
    requires KeysExactly(rows[1..], path, rest) && FirstRowKept(rows[1..], path, rest)
    ensures KeysExactly(rows, path, Enter(path, rows[0], rest)) && FirstRowKept(rows, path, Enter(path, rows[0], rest))
  {
    assert forall i :: 1 <= i < |rows| ==> rows[1..][i - 1] == rows[i];
    EnterKeys(rows, path, rest);
    assert forall i :: 1 <= i < |rows| && KeyOf(path, rows[i]).Some? && FirstWithKey(rows, path, i) ==>
             FirstWithKey(rows[1..], path, i - 1);
  }

  lemma EnterKeys(rows: seq<MappingRow>, path: Path, rest: Index)
    requires |rows| > 0
    requires KeysExactly(rows[1..], path, rest)
    ensures KeysExactly(rows, path, Enter(path, rows[0], rest))
  {
    assert forall i :: 1 <= i < |rows| ==> rows[1..][i - 1] == rows[i];
  }

  // ---------------------------------------------------------------- the two merges

  predicate UsesEmployeePath(r: SalesRecord) {
    r.companyEntity == Some("GmbH") || r.companyEntity == Some("AG")
  }

  function Lookup(idx: Option<Index>, key: Option<string>): Classification {
    if idx.Some? && key.Some? && key.value in idx.value then idx.value[key.value] else Unclassified
  }

  /** The employee merge: the join key is the employee name on GmbH/AG rows and null elsewhere;
      `None` index when the table has no 'Sales_Employee' column and the pass is skipped. */
  function EmployeePass(r: SalesRecord, emp: Option<Index>): Classification {
    Lookup(emp, if UsesEmployeePath(r) then r.employeeName else None)
  }

  /** The customer merge: the join key is the customer name on every other row. */
  function CustomerPass(r: SalesRecord, cust: Option<Index>): Classification {
    Lookup(cust, if UsesEmployeePath(r) then None else r.customerName)
  }

  /** `col.fillna(col + '_cust')`. */
  function FillNa(a: Option<string>, b: Option<string>): Option<string> {
    if a.Some? then a else b
  }

  function Combine(a: Classification, b: Classification): Classification {
    Classification(FillNa(a.marketGroup, b.marketGroup), FillNa(a.region, b.region),
      FillNa(a.channelLevel, b.channelLevel), FillNa(a.companyGroup, b.companyGroup),
      FillNa(a.employeeCleaned, b.employeeCleaned))
  }

  /** The classification the record's own path selects: its employee name in the employee index
      on the GmbH/AG path, its customer name in the customer index otherwise; all null on a miss. */
  function PathLookup(r: SalesRecord, emp: Option<Index>, cust: Option<Index>): Classification {
    if UsesEmployeePath(r) then Lookup(emp, r.employeeName) else Lookup(cust, r.customerName)
  }

  /** The two merges and the fill-in of nulls amount to a lookup along the record's own path:
      the other index never contributes, so there is no retry on a miss. */
  lemma MergesArePathLookup(r: SalesRecord, emp: Option<Index>, cust: Option<Index>)
    ensures Combine(EmployeePass(r, emp), CustomerPass(r, cust)) == PathLookup(r, emp, cust)
  {
  }

  function Resolve(records: seq<SalesRecord>, emp: Option<Index>, cust: Option<Index>): (out: seq<ResolvedRecord>)
    ensures |out| == |records|
    ensures forall i :: 0 <= i < |records| ==>
      out[i].record == records[i] && out[i].cls == PathLookup(records[i], emp, cust)
  {
    seq(|records|, i requires 0 <= i < |records| =>
      MergesArePathLookup(records[i], emp, cust);
      ResolvedRecord(records[i], Combine(EmployeePass(records[i], emp), CustomerPass(records[i], cust))))
  }

  // ---------------------------------------------------------------- filters and relabelling

  /** Export rows are kept only for the AR document type. */
  predicate KeepExportAr(x: ResolvedRecord) {
    !(x.record.companyEntity == Some("Export") && x.record.documentType != Some("AR"))
  }

  /** Switzerland belongs to the AG entity only. */
  predicate KeepSwissAg(x: ResolvedRecord) {
    !(x.cls.region == Some("Switzerland") && x.record.companyEntity != Some("AG"))
  }

  /** One character of a case-insensitive match against a lower-case ASCII pattern character; as in
      Python's Unicode case-insensitive matching, 'i' also matches U+0130 and U+0131. */
  predicate CharMatchesIgnoreCase(c: char, p: char) {
    Lower(c) == p || (p == 'i' && (c as int == 0x130 || c as int == 0x131))
  }

  predicate StartsWithIgnoreCase(s: string, p: string) {
    |p| <= |s| && forall i :: 0 <= i < |p| ==> CharMatchesIgnoreCase(s[i], p[i])
  }

  /** `s.str.contains(p, case=False)` for a lower-case ASCII pattern. */
  function ContainsIgnoreCase(s: string, p: string): (r: bool)
    ensures r <==> exists i :: 0 <= i <= |s| - |p| && StartsWithIgnoreCase(s[i..], p)
    decreases |s|
  {
    if StartsWithIgnoreCase(s, p) then
      assert s[0..] == s;
      true
    else if |s| == 0 then false
    else
      var r := ContainsIgnoreCase(s[1..], p);
      assert forall i :: 0 <= i <= |s| - 1 - |p| ==> s[1..][i..] == s[i + 1..];
      assert forall i :: 1 <= i <= |s| - |p| ==> s[i..] == s[1..][i - 1..];
      assert s[0..] == s;
      r
  }

  /** Intercompany rows go; a null customer name is kept (`na=False`). */
  predicate KeepNonInterco(x: ResolvedRecord) {
    !(x.record.customerName.Some? && ContainsIgnoreCase(x.record.customerName.value, "interco"))
  }

  const LegacyLabel: string := "eCommerce (excl. USA)"
  const CurrentLabel: string := "eCommerce EU (incl. UK)"

  /** `Series.replace(old, new)`: a whole-value rewrite, not a substring one. */
  function RelabelValue(v: Option<string>): (r: Option<string>)
    ensures v != Some(LegacyLabel) ==> r == v
    ensures r != Some(LegacyLabel)
  {
    if v == Some(LegacyLabel) then Some(CurrentLabel) else v
  }

  /** The legacy channel label rewritten in Channel_Level, Sales_Employee_Cleaned and Region. */
  function Relabel(x: ResolvedRecord): ResolvedRecord {
    x.(cls := x.cls.(channelLevel := RelabelValue(x.cls.channelLevel),
                     employeeCleaned := RelabelValue(x.cls.employeeCleaned),
                     region := RelabelValue(x.cls.region)))
  }

  /** Rewriting twice is rewriting once, and the market and company groups are never touched. */
  lemma RelabelIdempotent(x: ResolvedRecord)
    ensures Relabel(Relabel(x)) == Relabel(x)
    ensures Relabel(x).record == x.record
    ensures Relabel(x).cls.marketGroup == x.cls.marketGroup
    ensures Relabel(x).cls.companyGroup == x.cls.companyGroup
  {
  }

  /** No relabelled field holds the legacy label. */
  predicate NoLegacy(x: ResolvedRecord) {
    x.cls.channelLevel != Some(LegacyLabel) && x.cls.employeeCleaned != Some(LegacyLabel) &&
    x.cls.region != Some(LegacyLabel)
  }

  /** The relabelling of every row: same length and order, the records and the market and company
      groups untouched, no legacy label left, and rows without it unchanged. */
  function RelabelAll(s: seq<ResolvedRecord>): (r: seq<ResolvedRecord>)
    ensures |r| == |s| && forall i :: 0 <= i < |s| ==> r[i] == Relabel(s[i])
    ensures forall i :: 0 <= i < |s| ==>
      && r[i].record == s[i].record
      && r[i].cls.marketGroup == s[i].cls.marketGroup && r[i].cls.companyGroup == s[i].cls.companyGroup
      && NoLegacy(r[i])
      && (NoLegacy(s[i]) ==> r[i] == s[i])
  {
    seq(|s|, i requires 0 <= i < |s| => Relabel(s[i]))
  }

  /** Relabelling the relabelled rows changes nothing. */
  lemma RelabelAllIdempotent(s: seq<ResolvedRecord>)
    ensures RelabelAll(RelabelAll(s)) == RelabelAll(s)
  {
    var r := RelabelAll(s);
    assert forall i :: 0 <= i < |r| ==> NoLegacy(r[i]);
  }

  /** A row survives `apply_mappings` iff it passes every filter; the Switzerland rule applies only
      when the merges produced a Region column. */
  predicate Keep(hasRegion: bool, x: ResolvedRecord) {
    KeepExportAr(x) && (hasRegion ==> KeepSwissAg(x)) && KeepNonInterco(x)
  }

  // ---------------------------------------------------------------- apply_mappings

  /** `apply_mappings(sales_df, mapping_df)`. `None` stands for the KeyError raised when a key column
      is present but one of the five classification columns is not. */
  function ApplyMappings(records: seq<SalesRecord>, table: MappingTable): (out: Option<seq<ResolvedRecord>>)
    ensures out.None? <==> (table.hasEmployeeKey || table.hasCustomerKey) && !table.hasClassColumns
    ensures out.Some? ==> |out.value| <= |records|
    ensures out.Some? ==> forall y :: y in out.value ==> y.record in records
  {
    if (table.hasEmployeeKey || table.hasCustomerKey) && !table.hasClassColumns then None
    else
      var resolved := Resolve(records, EmployeeIndex(table), CustomerIndex(table));
      var hasRegion := table.hasEmployeeKey || table.hasCustomerKey;
      var afterExport := Where(resolved, KeepExportAr);
      var afterSwiss := if hasRegion then Where(afterExport, KeepSwissAg) else afterExport;
      var afterInterco := Where(afterSwiss, KeepNonInterco);
      assert forall y :: y in afterInterco ==> y in resolved;
      RelabelledFrom(records, resolved, afterInterco);
      Some(RelabelAll(afterInterco))
  }

  /** Relabelling rows drawn from the resolved records yields rows of the input records. */
  lemma RelabelledFrom(records: seq<SalesRecord>, resolved: seq<ResolvedRecord>, kept: seq<ResolvedRecord>)
    requires |resolved| == |records| && forall j :: 0 <= j < |records| ==> resolved[j].record == records[j]
    requires forall y :: y in kept ==> y in resolved
    ensures forall y :: y in RelabelAll(kept) ==> y.record in records
  {
    var out := RelabelAll(kept);
    forall y | y in out
      ensures y.record in records
    {
      var j :| 0 <= j < |out| && out[j] == y;
      assert kept[j] in resolved;
      var k :| 0 <= k < |resolved| && resolved[k] == kept[j];
      assert y.record == records[k];
    }
  }

  /** A cell with no whitespace at either end. */
  predicate CellStripped(c: Option<string>) {
    c.Some? && |c.value| > 0 ==> !IsSpace(c.value[0]) && !IsSpace(c.value[|c.value| - 1])
  }

  predicate RowStripped(row: MappingRow) {
    CellStripped(row.salesEmployee) && CellStripped(row.customerName) &&
    CellStripped(row.cls.marketGroup) && CellStripped(row.cls.region) && CellStripped(row.cls.channelLevel) &&
    CellStripped(row.cls.companyGroup) && CellStripped(row.cls.employeeCleaned)
  }

  /** A stripped cell keeps its nullness, has no surrounding whitespace, is a piece of the original,
      survives a second strip, and equals the original when that had none. */
  lemma StripCellFacts(c: Option<string>)
    ensures StripCell(c).None? <==> c.None?
    ensures CellStripped(StripCell(c)) && StripCell(StripCell(c)) == StripCell(c)
    ensures c.Some? ==> exists i :: OccursAt(c.value, StripCell(c).value, i)
    ensures CellStripped(c) ==> StripCell(c) == c
  {
    if c.Some? {
      var t := Strip(c.value);
      StripFacts(c.value);
      assert StripCell(c) == Some(t);
      assert StripCell(StripCell(c)) == Some(Strip(t));
    }
  }

  lemma StripRowFacts(row: MappingRow)
    ensures RowStripped(StripRow(row)) && StripRow(StripRow(row)) == StripRow(row)
    ensures RowStripped(row) ==> StripRow(row) == row
    ensures StripRow(row).salesEmployee.None? <==> row.salesEmployee.None?
    ensures StripRow(row).customerName.None? <==> row.customerName.None?
  {
    StripCellFacts(row.salesEmployee);
    StripCellFacts(row.customerName);
    StripCellFacts(row.cls.marketGroup);
    StripCellFacts(row.cls.region);
    StripCellFacts(row.cls.channelLevel);
    StripCellFacts(row.cls.companyGroup);
    StripCellFacts(row.cls.employeeCleaned);
  }

  /** The mapping table after `str.strip()` on its string cells: one row per row, in order, every
      cell free of surrounding whitespace and null exactly where it was; rows that were already
      clean are unchanged, and stripping again changes nothing. */
  function StrippedRows(table: MappingTable): (rows: seq<MappingRow>)
    ensures |rows| == |table.rows|
    ensures forall i :: 0 <= i < |rows| ==> rows[i] == StripRow(table.rows[i])
    ensures forall i :: 0 <= i < |rows| ==> RowStripped(rows[i]) && StripRow(rows[i]) == rows[i]
    ensures forall i :: 0 <= i < |rows| ==> RowStripped(table.rows[i]) ==> rows[i] == table.rows[i]
    ensures forall i :: 0 <= i < |rows| ==>
      (rows[i].salesEmployee.None? <==> table.rows[i].salesEmployee.None?) &&
      (rows[i].customerName.None? <==> table.rows[i].customerName.None?)
  {
    var rows := seq(|table.rows|, i requires 0 <= i < |table.rows| => StripRow(table.rows[i]));
    StripRowsFacts(table.rows, rows);
    rows
  }

  lemma StripRowsFacts(src: seq<MappingRow>, rows: seq<MappingRow>)
    requires |rows| == |src| && forall i :: 0 <= i < |rows| ==> rows[i] == StripRow(src[i])
    ensures forall i :: 0 <= i < |rows| ==> RowStripped(rows[i]) && StripRow(rows[i]) == rows[i]
    ensures forall i :: 0 <= i < |rows| ==> RowStripped(src[i]) ==> rows[i] == src[i]
    ensures forall i :: 0 <= i < |rows| ==>
      (rows[i].salesEmployee.None? <==> src[i].salesEmployee.None?) &&
      (rows[i].customerName.None? <==> src[i].customerName.None?)
  {
    forall i | 0 <= i < |rows| {
      StripRowFacts(src[i]);
    }
  }

  /** The employee index, or `None` when the table has no 'Sales_Employee' column. */
  function EmployeeIndex(table: MappingTable): Option<Index> {
    if table.hasEmployeeKey then Some(BuildIndex(StrippedRows(table), EmployeePath)) else None
  }

  /** The customer index, or `None` when the table has no 'Customer_Name' column. */
  function CustomerIndex(table: MappingTable): Option<Index> {
    if table.hasCustomerKey then Some(BuildIndex(StrippedRows(table), CustomerPath)) else None
  }

  /** The successive filters of `apply_mappings` select exactly the resolved rows that pass every
      filter, in input order, then relabel them. */
  lemma ApplyMappingsIsOneFilter(records: seq<SalesRecord>, table: MappingTable)
    requires !((table.hasEmployeeKey || table.hasCustomerKey) && !table.hasClassColumns)
    ensures ApplyMappings(records, table) == Some(RelabelAll(Where(
              Resolve(records, EmployeeIndex(table), CustomerIndex(table)),
              x => Keep(table.hasEmployeeKey || table.hasCustomerKey, x))))
  {
    var resolved := Resolve(records, EmployeeIndex(table), CustomerIndex(table));
    var hasRegion := table.hasEmployeeKey || table.hasCustomerKey;
    var keep := x => Keep(hasRegion, x);
    if hasRegion {
      var first := x => KeepExportAr(x) && KeepSwissAg(x);
      WhereConj(resolved, KeepExportAr, KeepSwissAg, first);
      WhereConj(resolved, first, KeepNonInterco, keep);
    } else {
      WhereConj(resolved, KeepExportAr, KeepNonInterco, keep);
    }
  }

  /** An employee missing from the index, or a pass skipped for want of its key column, leaves all
      five classification fields null; the customer index is not consulted instead. */
  lemma MissLeavesUnclassified(records: seq<SalesRecord>, table: MappingTable, i: int)
    requires 0 <= i < |records| && UsesEmployeePath(records[i])
    requires !table.hasEmployeeKey || records[i].employeeName.None? ||
             records[i].employeeName.value !in BuildIndex(StrippedRows(table), EmployeePath)
    ensures Resolve(records, EmployeeIndex(table), CustomerIndex(table))[i].cls == Unclassified
  {
  }
}

=== FILE: seqs.dfy ===
/** Sequence operations shared by the table-shaped code: boolean-mask selection and column sums. */
module Seqs {

  /** The elements of `s` satisfying `p`, in order (a boolean-mask selection). */
  function Where<T>(s: seq<T>, p: T -> bool): (r: seq<T>)
    ensures |r| <= |s|
    ensures forall x :: x in r ==> x in s && p(x)
    ensures forall x :: x in s && p(x) ==> x in r
  {
    if |s| == 0 then [] else (if p(s[0]) then [s[0]] else []) + Where(s[1..], p)
  }

  lemma {:induction false} WhereAppend<T>(a: seq<T>, b: seq<T>, p: T -> bool)
    ensures Where(a + b, p) == Where(a, p) + Where(b, p)
    decreases |a|
  {
    if |a| == 0 {
      assert a + b == b;
    } else {
      assert (a + b)[1..] == a[1..] + b;
      WhereAppend(a[1..], b, p);
    }
  }

  /** A selection keeps every selected element as often as it occurs and drops the others. */
  lemma {:induction false} WhereMultiset<T>(s: seq<T>, p: T -> bool)
    ensures forall x :: multiset(Where(s, p))[x] == if p(x) then multiset(s)[x] else 0
    decreases |s|
  {
    if |s| > 0 {
      WhereMultiset(s[1..], p);
      assert s == [s[0]] + s[1..];
      var head := if p(s[0]) then [s[0]] else [];
      assert Where(s, p) == head + Where(s[1..], p);
    }
  }

  /** Two selections in a row are one selection by the conjunction. */
  lemma {:induction false} WhereConj<T>(s: seq<T>, p: T -> bool, q: T -> bool, both: T -> bool)
    requires forall x :: both(x) == (p(x) && q(x))
    ensures Where(Where(s, p), q) == Where(s, both)
    decreases |s|
  {
    if |s| > 0 {
      WhereConj(s[1..], p, q, both);
      var head := if p(s[0]) then [s[0]] else [];
      WhereAppend(head, Where(s[1..], p), q);
    }
  }

  /** Selections by per-element predicates commute. */
  lemma {:induction false} FiltersCommute<T>(s: seq<T>, p: T -> bool, q: T -> bool)
    ensures Where(Where(s, p), q) == Where(Where(s, q), p)
    decreases |s|
  {
    if |s| > 0 {
      FiltersCommute(s[1..], p, q);
      var hp := if p(s[0]) then [s[0]] else [];
      var hq := if q(s[0]) then [s[0]] else [];
      WhereAppend(hp, Where(s[1..], p), q);
      WhereAppend(hq, Where(s[1..], q), p);
    }
  }

  /** The sum of `f` over `s` (a column sum; exact, so summation order does not matter). */
  function Sum<T>(s: seq<T>, f: T -> real): real {
    if |s| == 0 then 0.0 else f(s[0]) + Sum(s[1..], f)
  }

  lemma {:induction false} SumAppend<T>(a: seq<T>, b: seq<T>, f: T -> real)
    ensures Sum(a + b, f) == Sum(a, f) + Sum(b, f)
    decreases |a|
  {
    if |a| == 0 {
      assert a + b == b;
    } else {
      assert (a + b)[0] == a[0] && (a + b)[1..] == a[1..] + b;
      SumAppend(a[1..], b, f);
    }
  }

  /** Summing a selection is summing the masked column. */
  lemma {:induction false} SumWhere<T>(s: seq<T>, p: T -> bool, f: T -> real, masked: T -> real)
    requires forall x :: masked(x) == (if p(x) then f(x) else 0.0)
    ensures Sum(Where(s, p), f) == Sum(s, masked)
    decreases |s|
  {
    if |s| > 0 {
      SumWhere(s[1..], p, f, masked);
      var head := if p(s[0]) then [s[0]] else [];
      SumAppend(head, Where(s[1..], p), f);
    }
  }

  /** `f` applied to every element, the results concatenated in order. */
  function FlatMap<A, B>(s: seq<A>, f: A -> seq<B>): seq<B> {
    if |s| == 0 then [] else f(s[0]) + FlatMap(s[1..], f)
  }

  lemma {:induction false} FlatMapAppend<A, B>(a: seq<A>, b: seq<A>, f: A -> seq<B>)
    ensures FlatMap(a + b, f) == FlatMap(a, f) + FlatMap(b, f)
    decreases |a|
  {
    if |a| == 0 {
      assert a + b == b;
    } else {
      assert (a + b)[0] == a[0] && (a + b)[1..] == a[1..] + b;
      FlatMapAppend(a[1..], b, f);
    }
  }

  /** The element of `s` a member of the flattened sequence comes from. */
  lemma FlatMapSource<A, B>(s: seq<A>, f: A -> seq<B>, y: B) returns (i: nat)
    requires y in FlatMap(s, f)
    ensures i < |s| && y in f(s[i])
  {
    FlatMapMembers(s, f);
    i :| 0 <= i < |s| && y in f(s[i]);
  }

  /** Every output element comes from some input element, and every input element's outputs appear. */
  lemma {:induction false} FlatMapMembers<A, B>(s: seq<A>, f: A -> seq<B>)
    ensures forall i, y :: 0 <= i < |s| && y in f(s[i]) ==> y in FlatMap(s, f)
    ensures forall y :: y in FlatMap(s, f) ==> exists i :: 0 <= i < |s| && y in f(s[i])
    decreases |s|
  {
    if |s| > 0 {
      FlatMapMembers(s[1..], f);
      forall i, y | 0 <= i < |s| && y in f(s[i])
        ensures y in FlatMap(s, f)
      {
        if i > 0 {
          assert s[1..][i - 1] == s[i];
        }
      }
      forall y | y in FlatMap(s, f)
        ensures exists i :: 0 <= i < |s| && y in f(s[i])
      {
        if y !in f(s[0]) {
          assert y in FlatMap(s[1..], f);
          var j :| 0 <= j < |s[1..]| && y in f(s[1..][j]);
          assert s[1..][j] == s[j + 1];
        }
      }
    }
  }

  /** When each element yields at most one output, there are at most as many outputs as inputs. */
  lemma {:induction false} FlatMapAtMostOne<A, B>(s: seq<A>, f: A -> seq<B>)
    requires forall i :: 0 <= i < |s| ==> |f(s[i])| <= 1
    ensures |FlatMap(s, f)| <= |s|
    decreases |s|
  {
    if |s| > 0 {
      assert forall i :: 0 <= i < |s[1..]| ==> s[1..][i] == s[i + 1];
      FlatMapAtMostOne(s[1..], f);
    }
  }
}

=== FILE: sharepoint.dfy ===
/** Path logic of the document-library client (src/sharepoint_client.py): which drive item a
    server-relative path names, and which files the download and upload helpers move.
    URL quoting (`urllib.parse.quote`) is opaque and passed in as a function. */
module SharePoint {
  import opened Text

  const GraphRoot: string := "https://graph.microsoft.com/v1.0"
  const DefaultLibrary: string := "Shared Documents/"

  predicate IsSlash(c: char) {
    c == '/'
  }

  /** The path relative to the site: the site path removed when the remote path starts with it
      (a plain string prefix), then every leading and trailing '/' stripped. Only slashes go:
      the remote path is the prefix (when it matched), some slashes, the result, some slashes. */
  function RelativePath(remotePath: string, sitePrefix: string): (r: string)
    ensures |r| > 0 ==> r[0] != '/' && r[|r| - 1] != '/'
    ensures exists i :: OccursAt(remotePath, r, i)
                        && (StartsWith(remotePath, sitePrefix) ==> i >= |sitePrefix|)
    ensures StartsWith(remotePath, sitePrefix) ==>
      exists a: nat, b: nat :: remotePath == sitePrefix + Repeat('/', a) + r + Repeat('/', b)
    ensures !StartsWith(remotePath, sitePrefix) ==>
      exists a: nat, b: nat :: remotePath == Repeat('/', a) + r + Repeat('/', b)
  {
    if StartsWith(remotePath, sitePrefix) then
      PrefixedBranch(remotePath, sitePrefix);
      Trim(remotePath[|sitePrefix|..], IsSlash)
    else
      PlainBranch(remotePath);
      Trim(remotePath, IsSlash)
  }

  lemma PrefixedBranch(remotePath: string, sitePrefix: string)
    requires StartsWith(remotePath, sitePrefix)
    ensures var r := Trim(remotePath[|sitePrefix|..], IsSlash);
      && (|r| > 0 ==> r[0] != '/' && r[|r| - 1] != '/')
      && (exists i :: OccursAt(remotePath, r, i) && i >= |sitePrefix|)
      && exists a: nat, b: nat :: remotePath == sitePrefix + Repeat('/', a) + r + Repeat('/', b)
  {
    TrimmedSuffix(remotePath, |sitePrefix|);
    PrefixedFrame(remotePath, sitePrefix);
  }

  lemma PlainBranch(remotePath: string)
    ensures var r := Trim(remotePath, IsSlash);
      && (|r| > 0 ==> r[0] != '/' && r[|r| - 1] != '/')
      && (exists i :: OccursAt(remotePath, r, i))
      && exists a: nat, b: nat :: remotePath == Repeat('/', a) + r + Repeat('/', b)
  {
    TrimmedSuffix(remotePath, 0);
    assert remotePath[0..] == remotePath;
    PlainFrame(remotePath);
  }

  lemma PrefixedFrame(remotePath: string, sitePrefix: string)
    requires StartsWith(remotePath, sitePrefix)
    ensures var r := Trim(remotePath[|sitePrefix|..], IsSlash);
      exists a: nat, b: nat :: remotePath == sitePrefix + Repeat('/', a) + r + Repeat('/', b)
  {
    var rest := remotePath[|sitePrefix|..];
    var a, r, b := Repeat('/', Lead(rest)), Trim(rest, IsSlash), Repeat('/', Trail(rest));
    SlashFrame(rest);
    assert remotePath == sitePrefix + rest;
    Regroup4(remotePath, sitePrefix, rest, a, r, b);
    assert remotePath == sitePrefix + Repeat('/', Lead(rest)) + r + Repeat('/', Trail(rest));
  }

  lemma PlainFrame(remotePath: string)
    ensures var r := Trim(remotePath, IsSlash);
      exists a: nat, b: nat :: remotePath == Repeat('/', a) + r + Repeat('/', b)
  {
    SlashFrame(remotePath);
  }

  lemma Regroup4(s: string, p: string, rest: string, a: string, t: string, b: string)
    requires s == p + rest && rest == a + t + b
    ensures s == p + a + t + b
  {
  }

  /** The number of slashes stripped from the front and from the back of `s`. */
  function Lead(s: string): nat {
    |s| - |TrimLeft(s, IsSlash)|
  }

  function Trail(s: string): nat {
    |TrimLeft(s, IsSlash)| - |Trim(s, IsSlash)|
  }

  /** Stripping slashes removes a run of slashes at each end and nothing else. */
  lemma SlashFrame(s: string)
    ensures s == Repeat('/', Lead(s)) + Trim(s, IsSlash) + Repeat('/', Trail(s))
  {
    var l := TrimLeft(s, IsSlash);
    LeftRun(s);
    RightRun(l);
    Regroup(s, Repeat('/', Lead(s)), l, Trim(s, IsSlash), Repeat('/', Trail(s)));
  }

  lemma Regroup(s: string, a: string, l: string, t: string, b: string)
    requires s == a + l && l == t + b
    ensures s == a + t + b
  {
  }

  lemma LeftRun(s: string)
    ensures s == Repeat('/', Lead(s)) + TrimLeft(s, IsSlash)
  {
    var l := TrimLeft(s, IsSlash);
    var a := |s| - |l|;
    assert forall i :: 0 <= i < a ==> s[..a][i] == s[i];
    SlashRun(s[..a]);
    assert s == s[..a] + s[a..];
  }

  lemma RightRun(l: string)
    ensures var t := TrimRight(l, IsSlash);
      l == t + Repeat('/', |l| - |t|)
  {
    var t := TrimRight(l, IsSlash);
    assert forall i :: 0 <= i < |l| - |t| ==> l[|t|..][i] == l[|t| + i];
    SlashRun(l[|t|..]);
    assert l == l[..|t|] + l[|t|..];
  }

  lemma SlashRun(s: string)
    requires forall i :: 0 <= i < |s| ==> IsSlash(s[i])
    ensures s == Repeat('/', |s|)
  {
  }

  /** Trimming the slashes off a suffix leaves a piece of the whole text beyond the offset,
      with no slash at either end. */
  lemma TrimmedSuffix(s: string, offset: nat)
    requires offset <= |s|
    ensures var t := Trim(s[offset..], IsSlash);
      && (|t| > 0 ==> t[0] != '/' && t[|t| - 1] != '/')
      && exists i :: OccursAt(s, t, i) && i >= offset
  {
    TrimEnds(s[offset..], IsSlash);
    TrimIsSlice(s[offset..], IsSlash);
    OccursInSuffix(s, offset, Trim(s[offset..], IsSlash));
  }

  lemma OccursInSuffix(s: string, offset: nat, t: string)
    requires offset <= |s| && exists i :: OccursAt(s[offset..], t, i)
    ensures exists i :: OccursAt(s, t, i) && i >= offset
  {
    var i :| OccursAt(s[offset..], t, i);
    assert s[offset + i..offset + i + |t|] == s[offset..][i..i + |t|];
    assert OccursAt(s, t, offset + i);
  }

  /** The item path inside the default drive: the library folder "Shared Documents/" dropped when
      present, the whole relative path otherwise. */
  function DriveItemPath(relative: string): (r: string)
    ensures StartsWith(relative, DefaultLibrary) ==> relative == DefaultLibrary + r
    ensures !StartsWith(relative, DefaultLibrary) ==> r == relative
  {
    if StartsWith(relative, DefaultLibrary) then relative[|DefaultLibrary|..] else relative
  }

  /** The Graph endpoint for an item of the site's default drive (both branches of the code
      build the same template). */
  function DefaultDriveEndpoint(siteId: string, encodedPath: string): string {
    GraphRoot + "/sites/" + siteId + "/drive/root:/" + encodedPath + ":/content"
  }

  /** `download_file`: the endpoint of the first request. */
  function DownloadEndpoint(siteId: string, sitePrefix: string, remotePath: string,
                            quote: string -> string): string {
    DefaultDriveEndpoint(siteId, quote(DriveItemPath(RelativePath(remotePath, sitePrefix))))
  }

  /** `upload_file`: the endpoint of the PUT, derived by a second copy of the same path logic. */
  function UploadEndpoint(siteId: string, sitePrefix: string, remotePath: string,
                          quote: string -> string): string {
    var relative := RelativePath(remotePath, sitePrefix);
    var item := if StartsWith(relative, DefaultLibrary) then relative[|DefaultLibrary|..] else relative;
    GraphRoot + "/sites/" + siteId + "/drive/root:/" + quote(item) + ":/content"
  }

  /** Upload and download address the same drive item for the same inputs. */
  lemma UploadMatchesDownload(siteId: string, sitePrefix: string, remotePath: string,
                              quote: string -> string)
    ensures UploadEndpoint(siteId, sitePrefix, remotePath, quote)
            == DownloadEndpoint(siteId, sitePrefix, remotePath, quote)
  {
  }

  /** The retry after a 404: the first '/'-segment of the relative path is taken as a drive name
      and the remaining segments, rejoined with '/', as the path inside that drive. */
  function DriveRetry(relative: string): (r: (string, string))
    ensures '/' !in r.0
    ensures relative == r.0 + "/" + r.1 || (relative == r.0 && r.1 == "")
  {
    var parts := Split(relative, '/');
    var rest := Join(parts[1..], "/");
    assert |parts| == 1 ==> relative == parts[0];
    assert |parts| > 1 ==> relative == parts[0] + "/" + rest;
    (parts[0], rest)
  }

  /** The endpoint of the retry; the segments are not quoted. */
  function DriveRetryEndpoint(driveId: string, relative: string): string {
    GraphRoot + "/drives/" + driveId + "/root:/" + DriveRetry(relative).1 + ":/content"
  }

  /** `os.path.basename` on a '/'-separated path: the text after the last '/'. */
  function Basename(path: string): (r: string)
    ensures '/' !in r
    ensures EndsWith(path, r)
    ensures '/' !in path ==> r == path
    ensures '/' in path ==> EndsWith(path, "/" + r)
  {
    if '/' in path then
      var i := LastIndexOf(path, '/');
      assert path[|path| - |path[i..]|..] == path[i..];
      assert path[i..] == "/" + path[i + 1..];
      path[i + 1..]
    else path
  }

  /** `os.path.join(a, b)` for two components. */
  function PathJoin(a: string, b: string): string {
    if StartsWith(b, "/") then b
    else if a == "" || EndsWith(a, "/") then a + b
    else a + "/" + b
  }

  /** `local` is the file directly inside `dir` named by the last segment of `remote`: the text
      after its last '/', or all of it when it has none. */
  predicate LocalCopyOf(local: string, dir: string, remote: string) {
    var name := Basename(remote);
    local == dir + "/" + name || (local == dir + name && (dir == "" || EndsWith(dir, "/")))
  }

  lemma JoinBasename(dir: string, remote: string)
    ensures LocalCopyOf(PathJoin(dir, Basename(remote)), dir, remote)
  {
    var name := Basename(remote);
    assert !StartsWith(name, "/") by { if |name| > 0 { assert name[0] != '/'; } }
  }

  /** `download_inputs`: each key is mapped, in order, to the file of the same base name
      directly inside the temporary directory. */
  function LocalInputPaths(remotePaths: seq<(string, string)>, tempDir: string): (r: seq<(string, string)>)
    ensures |r| == |remotePaths|
    ensures forall i :: 0 <= i < |r| ==>
      r[i].0 == remotePaths[i].0 && LocalCopyOf(r[i].1, tempDir, remotePaths[i].1)
  {
    assert forall i :: 0 <= i < |remotePaths| ==>
      LocalCopyOf(PathJoin(tempDir, Basename(remotePaths[i].1)), tempDir, remotePaths[i].1) by {
      forall i | 0 <= i < |remotePaths| {
        JoinBasename(tempDir, remotePaths[i].1);
      }
    }
    seq(|remotePaths|, i requires 0 <= i < |remotePaths| =>
      (remotePaths[i].0, PathJoin(tempDir, Basename(remotePaths[i].1))))
  }

  /** The base name of the joined path is the name joined on. */
  lemma BasenameOfJoin(dir: string, name: string)
    requires '/' !in name
    ensures Basename(PathJoin(dir, name)) == name
  {
    assert !StartsWith(name, "/") by { if |name| > 0 { assert name[0] != '/'; } }
    if dir == "" {
      assert PathJoin(dir, name) == name;
    } else if EndsWith(dir, "/") {
      assert dir[|dir| - 1] == '/';
      AfterLastSlash(dir, name);
    } else {
      assert (dir + "/")[|dir|] == '/';
      assert PathJoin(dir, name) == (dir + "/") + name;
      AfterLastSlash(dir + "/", name);
    }
  }

  /** A name without '/' after a text ending in '/' is the base name of the whole. */
  lemma AfterLastSlash(head: string, name: string)
    requires |head| > 0 && head[|head| - 1] == '/' && '/' !in name
    ensures Basename(head + name) == name
  {
    var s := head + name;
    var j := |head| - 1;
    assert s[j] == '/';
    var r := LastIndexOf(s, '/');
    assert s[j + 1..] == name;
  }

  /** Each local copy keeps the base name of its remote file, so remote files with different base
      names never share a local path. */
  lemma LocalNamesKept(remotePaths: seq<(string, string)>, tempDir: string)
    ensures var r := LocalInputPaths(remotePaths, tempDir);
      forall i :: 0 <= i < |r| ==> Basename(r[i].1) == Basename(remotePaths[i].1)
  {
    forall i | 0 <= i < |remotePaths| {
      BasenameOfJoin(tempDir, Basename(remotePaths[i].1));
    }
  }

  const OutputExtensions: seq<string> := [".csv", ".txt", ".html"]

  /** `upload_outputs`: the (local file, remote path) pairs uploaded, in order. */
  function OutputUploads(localBase: string, outputFolder: string, baseName: string): (r: seq<(string, string)>)
    ensures |r| == 3
    ensures forall i :: 0 <= i < 3 ==>
      && r[i].0 == localBase + OutputExtensions[i]
      && r[i].1 == outputFolder + baseName + OutputExtensions[i]
  {
    seq(3, i requires 0 <= i < 3 => (localBase + OutputExtensions[i], outputFolder + baseName + OutputExtensions[i]))
  }

  /** The three uploads go to three different remote files, and each local file keeps the
      extension of its remote target. */
  lemma OutputUploadsDistinct(localBase: string, outputFolder: string, baseName: string)
    ensures var r := OutputUploads(localBase, outputFolder, baseName);
            forall i, j :: 0 <= i < j < 3 ==> r[i].1 != r[j].1 && r[i].0 != r[j].0
  {
    var r := OutputUploads(localBase, outputFolder, baseName);
    var p := outputFolder + baseName;
    assert r[0].1 == p + ".csv" && r[1].1 == p + ".txt" && r[2].1 == p + ".html";
    assert (p + ".csv")[|p| + 1] == 'c' && (p + ".txt")[|p| + 1] == 't' && (p + ".html")[|p| + 1] == 'h';
    assert (localBase + ".csv")[|localBase| + 1] == 'c' && (localBase + ".txt")[|localBase| + 1] == 't';
    assert (localBase + ".html")[|localBase| + 1] == 'h';
  }
}

=== FILE: suggestions.dfy ===
/** The diagnostic name normaliser and the ordering of mapping suggestions
    (scripts/find_mapping_suggestions.py). Similarity scores are inputs. */
module Suggestions {
  import opened Wrappers
  import opened Text

  predicate IsAlnum(c: char) {
    'a' <= c <= 'z' || '0' <= c <= '9'
  }

  /** The characters a normalised name is made of. */
  predicate NormalChar(c: char) {
    IsAlnum(c) || c == ' '
  }

  /** Only letters, digits and whitespace. */
  predicate Blanked(u: string) {
    forall i :: 0 <= i < |u| ==> IsAlnum(u[i]) || IsSpace(u[i])
  }

  /** Letters and digits are not whitespace; among normal characters only ' ' is. */
  lemma CharClasses(c: char)
    ensures IsAlnum(c) ==> !IsSpace(c)
    ensures NormalChar(c) ==> (IsSpace(c) <==> c == ' ')
  {
  }

  predicate NoDoubleSpace(s: string) {
    forall i :: 0 <= i < |s| - 1 ==> !(s[i] == ' ' && s[i + 1] == ' ')
  }

  /** The lower-case ASCII letters and digits of `s`, in order. */
  function Alnums(s: string): string {
    if |s| == 0 then "" else (if IsAlnum(s[0]) then [s[0]] else "") + Alnums(s[1..])
  }

  lemma {:induction false} AlnumsAppend(a: string, b: string)
    ensures Alnums(a + b) == Alnums(a) + Alnums(b)
    decreases |a|
  {
    if |a| == 0 {
      assert a + b == b;
    } else {
      var ab := a + b;
      assert ab[0] == a[0];
      assert ab[1..] == a[1..] + b;
      AlnumsAppend(a[1..], b);
      var h := if IsAlnum(a[0]) then [a[0]] else "";
      assert Alnums(ab) == h + Alnums(a[1..] + b);
      assert Alnums(a) == h + Alnums(a[1..]);
    }
  }

  lemma {:induction false} AlnumsOfSpaces(s: string)
    requires forall i :: 0 <= i < |s| ==> IsSpace(s[i])
    ensures Alnums(s) == ""
    decreases |s|
  {
    if |s| > 0 {
      AlnumsOfSpaces(s[1..]);
    }
  }

  /** `re.sub(r"[^a-z0-9\s]", " ", s)`: every character that is neither a lower-case ASCII letter,
      a digit nor whitespace becomes a space. */
  function Blank(s: string): (r: string)
    ensures |r| == |s|
    ensures forall i :: 0 <= i < |s| ==> r[i] == (if IsAlnum(s[i]) || IsSpace(s[i]) then s[i] else ' ')
    ensures Blanked(r)
  {
    seq(|s|, i requires 0 <= i < |s| => if IsAlnum(s[i]) || IsSpace(s[i]) then s[i] else ' ')
  }

  lemma {:induction false} BlankKeepsAlnums(s: string)
    ensures Alnums(Blank(s)) == Alnums(s)
    decreases |s|
  {
    if |s| > 0 {
      assert Blank(s)[1..] == Blank(s[1..]);
      BlankKeepsAlnums(s[1..]);
    }
  }

  /** `re.sub(r"\s+", " ", u)`: every maximal run of whitespace becomes one space. Read left to
      right, a whitespace character followed by more whitespace is dropped, and the last one of a
      run is written as ' '. */
  function Collapse(u: string): (r: string)
    requires Blanked(u)
    ensures forall i :: 0 <= i < |r| ==> NormalChar(r[i])
    ensures NoDoubleSpace(r)
    ensures |r| > 0 <==> |u| > 0
    ensures |r| > 0 ==> (r[0] == ' ' <==> IsSpace(u[0]))
    ensures Alnums(r) == Alnums(u)
    decreases |u|
  {
    if |u| == 0 then ""
    else
      assert Blanked(u[1..]) by { BlankedSuffix(u, 1); }
      var tail := Collapse(u[1..]);
      CharClasses(u[0]);
      ConsAlnums(u[0], u[1..]);
      assert u == [u[0]] + u[1..];
      if IsSpace(u[0]) && |u| > 1 && IsSpace(u[1]) then
        tail
      else if IsSpace(u[0]) then
        ConsNormal(' ', tail);
        " " + tail
      else
        ConsNormal(u[0], tail);
        [u[0]] + tail
  }

  lemma ConsAlnums(c: char, t: string)
    ensures Alnums([c] + t) == (if IsAlnum(c) then [c] else "") + Alnums(t)
  {
    assert ([c] + t)[1..] == t;
  }

  /** A normal character in front of a collapsed text keeps it collapsed, unless two spaces meet. */
  lemma ConsNormal(c: char, t: string)
    requires NormalChar(c) && NoDoubleSpace(t) && forall i :: 0 <= i < |t| ==> NormalChar(t[i])
    requires c == ' ' && |t| > 0 ==> t[0] != ' '
    ensures NoDoubleSpace([c] + t) && forall i :: 0 <= i < |t| + 1 ==> NormalChar(([c] + t)[i])
    ensures Alnums([c] + t) == (if IsAlnum(c) then [c] else "") + Alnums(t)
  {
    ConsAlnums(c, t);
    var r := [c] + t;
    forall i | 0 <= i < |r|
      ensures NormalChar(r[i])
    {
      if i > 0 { assert r[i] == t[i - 1]; }
    }
    forall i | 0 <= i < |r| - 1
      ensures !(r[i] == ' ' && r[i + 1] == ' ')
    {
      if i > 0 { assert r[i] == t[i - 1] && r[i + 1] == t[i]; }
    }
  }

  /** A non-empty run of whitespace collapses to one space. */
  lemma {:induction false} CollapseSpaces(u: string)
    requires |u| > 0 && forall i :: 0 <= i < |u| ==> IsSpace(u[i])
    ensures Blanked(u) && Collapse(u) == " "
    decreases |u|
  {
    if |u| > 1 {
      assert u[1..][0] == u[1];
      CollapseSpaces(u[1..]);
    }
  }

  /** A letter or digit is kept as it is. */
  lemma CollapseAlnum(c: char)
    requires IsAlnum(c)
    ensures Blanked([c]) && Collapse([c]) == [c]
  {
    CharClasses(c);
    assert [c][1..] == [];
  }

  /** Collapsing works piece by piece as long as no whitespace run is cut in two: together with
      `CollapseSpaces` and `CollapseAlnum` this fixes the result for every text, one run at a time. */
  lemma {:induction false} CollapseAppend(a: string, b: string)
    requires Blanked(a) && Blanked(b)
    requires |a| > 0 && |b| > 0 ==> !(IsSpace(a[|a| - 1]) && IsSpace(b[0]))
    ensures Blanked(a + b) && Collapse(a + b) == Collapse(a) + Collapse(b)
    decreases |a|
  {
    BlankedAppend(a, b);
    if |a| == 0 {
      assert a + b == b;
    } else {
      var ab := a + b;
      assert ab[0] == a[0];
      assert ab[1..] == a[1..] + b;
      BlankedSuffix(a, 1);
      if |a| == 1 {
        assert a == [a[0]];
        CollapseAppendOne(a[0], b);
      } else {
        assert ab[1] == a[1];
        CollapseAppend(a[1..], b);
        CollapseHead(a);
        CollapseHead(ab);
      }
    }
  }

  /** What the first of two or more characters contributes. */
  function HeadOut(c: char, d: char): string {
    if IsSpace(c) && IsSpace(d) then "" else [if IsSpace(c) then ' ' else c]
  }

  lemma CollapseHead(u: string)
    requires Blanked(u) && |u| >= 2
    ensures Blanked(u[1..]) && Collapse(u) == HeadOut(u[0], u[1]) + Collapse(u[1..])
  {
    BlankedSuffix(u, 1);
  }

  lemma CollapseAppendOne(c: char, b: string)
    requires Blanked([c]) && Blanked(b)
    requires |b| > 0 ==> !(IsSpace(c) && IsSpace(b[0]))
    ensures Blanked([c] + b) && Collapse([c] + b) == Collapse([c]) + Collapse(b)
  {
    BlankedAppend([c], b);
    CollapseOne(c);
    if |b| > 0 {
      var u := [c] + b;
      assert u[0] == c && u[1] == b[0] && u[1..] == b;
      CollapseHead(u);
    } else {
      assert [c] + b == [c];
    }
  }

  lemma CollapseOne(c: char)
    requires Blanked([c])
    ensures Collapse([c]) == [if IsSpace(c) then ' ' else c]
  {
    assert [c][1..] == [];
  }

  lemma BlankedAppend(a: string, b: string)
    requires Blanked(a) && Blanked(b)
    ensures Blanked(a + b)
  {
    forall i | 0 <= i < |a + b| ensures IsAlnum((a + b)[i]) || IsSpace((a + b)[i]) {
      if i < |a| { assert (a + b)[i] == a[i]; } else { assert (a + b)[i] == b[i - |a|]; }
    }
  }

  lemma BlankedSuffix(a: string, k: nat)
    requires Blanked(a) && k <= |a|
    ensures Blanked(a[k..])
  {
    forall i | 0 <= i < |a| - k ensures IsAlnum(a[k..][i]) || IsSpace(a[k..][i]) {
      assert a[k..][i] == a[k + i];
    }
  }

  /** A text already made of normal characters without two adjacent spaces is left as it is. */
  lemma {:induction false} CollapseFixed(u: string)
    requires forall i :: 0 <= i < |u| ==> NormalChar(u[i])
    requires NoDoubleSpace(u)
    ensures Blanked(u) && Collapse(u) == u
    decreases |u|
  {
    forall i | 0 <= i < |u| ensures IsAlnum(u[i]) || IsSpace(u[i]) {
      CharClasses(u[i]);
    }
    if |u| > 0 {
      CharClasses(u[0]);
      if |u| > 1 {
        CharClasses(u[1]);
        assert u[1..][0] == u[1];
      }
      CollapseFixed(u[1..]);
      assert u == [u[0]] + u[1..];
    }
  }

  /** `normalize`: a missing value gives ""; otherwise the stripped, lower-cased text with every
      other character turned into a separator and separators collapsed to single spaces. */
  function Normalize(s: Option<string>): (r: string)
    ensures forall i :: 0 <= i < |r| ==> NormalChar(r[i])
    ensures NoDoubleSpace(r)
    ensures s.None? ==> r == ""
    ensures s.Some? ==> r == Collapse(Blank(LowerStr(Strip(s.value))))
    ensures s.Some? ==> Alnums(r) == Alnums(LowerStr(Strip(s.value)))
    ensures s.Some? ==> (|r| == 0 <==> |Strip(s.value)| == 0)
  {
    match s
    case None => ""
    case Some(text) =>
      var lowered := LowerStr(Strip(text));
      var blanked := Blank(lowered);
      BlankKeepsAlnums(lowered);
      Collapse(blanked)
  }

  /** A scored candidate: the similarity score and the mapping name. */
  type Scored = (real, string)

  predicate SortedByScore(s: seq<Scored>) {
    forall i, j :: 0 <= i < j < |s| ==> s[i].0 >= s[j].0
  }

  /** Inserts `x` before the first element whose score does not exceed its own. */
  function Insert(x: Scored, s: seq<Scored>): (r: seq<Scored>)
    requires SortedByScore(s)
    ensures SortedByScore(r)
    ensures multiset(r) == multiset(s) + multiset{x}
  {
    if |s| == 0 || s[0].0 <= x.0 then
      SortedCons(x, s);
      [x] + s
    else
      var tail := Insert(x, s[1..]);
      assert s == [s[0]] + s[1..];
      HeadBound(s[0], x, s[1..], tail);
      SortedCons(s[0], tail);
      [s[0]] + tail
  }

  lemma SortedCons(h: Scored, t: seq<Scored>)
    requires SortedByScore(t) && (|t| > 0 ==> t[0].0 <= h.0)
    ensures SortedByScore([h] + t)
  {
    var r := [h] + t;
    forall i, j | 0 <= i < j < |r|
      ensures r[i].0 >= r[j].0
    {
      if i == 0 { assert r[j] == t[j - 1]; } else { assert r[i] == t[i - 1] && r[j] == t[j - 1]; }
    }
  }

  /** A head that scores above `x` and at least as high as all of `rest` is not beaten by the
      first element of any permutation of `rest` with `x` added. */
  lemma HeadBound(h: Scored, x: Scored, rest: seq<Scored>, tail: seq<Scored>)
    requires SortedByScore([h] + rest) && x.0 < h.0
    requires multiset(tail) == multiset(rest) + multiset{x}
    ensures |tail| > 0 && tail[0].0 <= h.0
  {
    assert x in multiset(tail);
    assert |tail| > 0;
    assert tail[0] in multiset(tail);
    if tail[0] != x {
      assert tail[0] in multiset(rest);
      var j :| 0 <= j < |rest| && rest[j] == tail[0];
      var hr := [h] + rest;
      assert hr[0] == h && hr[j + 1] == rest[j];
      assert hr[0].0 >= hr[j + 1].0;
    }
  }

  /** `scored.sort(reverse=True, key=score)`: a stable sort by non-increasing score. */
  function SortByScore(s: seq<Scored>): (r: seq<Scored>)
    ensures SortedByScore(r)
    ensures multiset(r) == multiset(s)
  {
    if |s| == 0 then []
    else
      assert s == [s[0]] + s[1..];
      Insert(s[0], SortByScore(s[1..]))
  }

  const MaxSuggestions: nat := 8

  /** In a sorted sequence nothing after position `n` scores above anything before it. */
  lemma SortedSplit(sorted: seq<Scored>, n: nat)
    requires SortedByScore(sorted) && n <= |sorted|
    ensures forall x :: x in multiset(sorted[n..]) ==>
              forall k :: 0 <= k < n ==> x.0 <= sorted[k].0
  {
    forall x | x in multiset(sorted[n..])
      ensures forall k :: 0 <= k < n ==> x.0 <= sorted[k].0
    {
      assert x in sorted[n..];
      var j :| 0 <= j < |sorted[n..]| && sorted[n..][j] == x;
      assert sorted[n + j] == x;
    }
  }

  lemma PrefixOfSorted(sorted: seq<Scored>, n: nat)
    requires SortedByScore(sorted) && n <= |sorted|
    ensures SortedByScore(sorted[..n])
    ensures multiset(sorted) - multiset(sorted[..n]) == multiset(sorted[n..])
    ensures multiset(sorted[..n]) <= multiset(sorted)
  {
    assert sorted == sorted[..n] + sorted[n..];
    assert multiset(sorted) == multiset(sorted[..n]) + multiset(sorted[n..]);
  }

  /** `scored[:8]` after the sort: at most eight suggestions, best first, drawn from the
      candidates, none of those left out scoring above one that is shown. */
  function TopSuggestions(scored: seq<Scored>): (r: seq<Scored>)
    ensures |r| == if |scored| < MaxSuggestions then |scored| else MaxSuggestions
    ensures SortedByScore(r)
    ensures multiset(r) <= multiset(scored)
    ensures forall x :: x in multiset(scored) - multiset(r) ==>
              forall k :: 0 <= k < |r| ==> x.0 <= r[k].0
  {
    var sorted := SortByScore(scored);
    var n := if |sorted| < MaxSuggestions then |sorted| else MaxSuggestions;
    PrefixOfSorted(sorted, n);
    SortedSplit(sorted, n);
    sorted[..n]
  }

  /** Normalising a normalised name only strips it: the result can keep one space at either end
      (from a stripped-off punctuation mark), which the second pass removes. */
  lemma NormalizeTwice(s: string)
    ensures Normalize(Some(Normalize(Some(s)))) == Strip(Normalize(Some(s)))
  {
    var r := Normalize(Some(s));
    StripKeepsNormal(r);
    StripIdempotent(r);
    NormalizeNormal(Strip(r));
  }

  /** Stripping a normal text leaves a normal text. */
  lemma StripKeepsNormal(r: string)
    requires forall i :: 0 <= i < |r| ==> NormalChar(r[i])
    requires NoDoubleSpace(r)
    ensures var t := Strip(r);
      (forall i :: 0 <= i < |t| ==> NormalChar(t[i])) && NoDoubleSpace(t)
  {
    var t := Strip(r);
    TrimIsSlice(r, IsSpace);
    var k :| OccursAt(r, t, k);
    SliceKeepsNormal(r, k, k + |t|);
  }

  lemma SliceKeepsNormal(r: string, lo: nat, hi: nat)
    requires lo <= hi <= |r|
    requires forall i :: 0 <= i < |r| ==> NormalChar(r[i])
    requires NoDoubleSpace(r)
    ensures var t := r[lo..hi];
      (forall i :: 0 <= i < |t| ==> NormalChar(t[i])) && NoDoubleSpace(t)
  {
    var t := r[lo..hi];
    assert forall i :: 0 <= i < |t| ==> t[i] == r[lo + i];
  }

  /** A stripped normal text normalises to itself. */
  lemma NormalizeNormal(t: string)
    requires forall i :: 0 <= i < |t| ==> NormalChar(t[i])
    requires NoDoubleSpace(t) && Strip(t) == t
    ensures Normalize(Some(t)) == t
  {
    assert LowerStr(t) == t;
    assert Blank(t) == t;
    CollapseFixed(t);
  }

  /** Worked case: "a-" normalises to "a " (the dash becomes a trailing space). */
  lemma NormalizeTrailingSeparator()
    ensures Normalize(Some("a-")) == "a "
  {
    var dash := "a-";
    assert Strip(dash) == dash by {
      CharClasses('a');
      assert !IsSpace('-');
      TrimUnchanged(dash, IsSpace);
    }
    assert Blank(LowerStr(dash)) == "a " by {
      assert LowerStr(dash) == dash;
    }
    CollapseLetterSpace();
  }

  lemma CollapseLetterSpace()
    ensures Blanked("a ") && Collapse("a ") == "a "
  {
    CharClasses('a');
    assert "a " == ['a'] + " ";
    CollapseAppendOne('a', " ");
    CollapseOne('a');
    CollapseOne(' ');
  }

  /** ... and normalising "a " again gives "a". */
  lemma NormalizeStripsSeparator()
    ensures Normalize(Some("a ")) == "a"
  {
    var sp := "a ";
    CharClasses('a');
    assert TrimLeft(sp, IsSpace) == sp;
    assert TrimRight(sp, IsSpace) == "a" by { assert sp[..1] == "a"; }
    assert LowerStr("a") == "a" && Blank("a") == "a";
    CollapseAlnum('a');
  }
}

=== FILE: text.dfy ===
/** String helpers with the semantics of the Python `str` methods the reporting code uses. */
module Text {

  /** `s.startswith(p)`. */
  predicate StartsWith(s: string, p: string) {
    |p| <= |s| && s[..|p|] == p
  }

  /** `s.endswith(p)`. */
  predicate EndsWith(s: string, p: string) {
    |p| <= |s| && s[|s| - |p|..] == p
  }

  /** `t` occurs in `s` starting at index `i`. */
  predicate OccursAt(s: string, t: string, i: int) {
    0 <= i && i + |t| <= |s| && s[i..i + |t|] == t
  }

  /** `t in s` for two strings. */
  function Contains(s: string, t: string): (r: bool)
    ensures r <==> exists i :: OccursAt(s, t, i)
    decreases |s|
  {
    if StartsWith(s, t) then
      assert OccursAt(s, t, 0);
      true
    else if |s| == 0 then
      false
    else
      var r := Contains(s[1..], t);
      assert forall i :: OccursAt(s[1..], t, i) <==> OccursAt(s, t, i + 1) by {
        forall i ensures OccursAt(s[1..], t, i) <==> OccursAt(s, t, i + 1) {
          if 0 <= i && i + |t| <= |s| - 1 {
            assert s[1..][i..i + |t|] == s[i + 1..i + 1 + |t|];
          }
        }
      }
      assert !OccursAt(s, t, 0);
      assert forall i :: OccursAt(s, t, i) ==> OccursAt(s[1..], t, i - 1);
      r
  }

  /** Whitespace as Python's `str.isspace` and `\s` in a `str` regular expression see it. */
  predicate IsSpace(c: char) {
    var n := c as int;
    (9 <= n <= 13) || (28 <= n <= 32) || n == 0x85 || n == 0xA0 || n == 0x1680
    || (0x2000 <= n <= 0x200A) || n == 0x2028 || n == 0x2029 || n == 0x202F || n == 0x205F || n == 0x3000
  }

  /** Drops the leading characters satisfying `drop` (`s.lstrip(chars)`). */
  function TrimLeft(s: string, drop: char -> bool): (r: string)
    ensures |r| <= |s| && r == s[|s| - |r|..]
    ensures forall i :: 0 <= i < |s| - |r| ==> drop(s[i])
    ensures |r| > 0 ==> !drop(r[0])
    decreases |s|
  {
    if |s| > 0 && drop(s[0]) then TrimLeft(s[1..], drop) else s
  }

  /** Drops the trailing characters satisfying `drop` (`s.rstrip(chars)`). */
  function TrimRight(s: string, drop: char -> bool): (r: string)
    ensures |r| <= |s| && r == s[..|r|]
    ensures forall i :: |r| <= i < |s| ==> drop(s[i])
    ensures |r| > 0 ==> !drop(r[|r| - 1])
    decreases |s|
  {
    if |s| > 0 && drop(s[|s| - 1]) then TrimRight(s[..|s| - 1], drop) else s
  }

  /** Drops both ends (`s.strip(chars)`). */
  function Trim(s: string, drop: char -> bool): string {
    TrimRight(TrimLeft(s, drop), drop)
  }

  /** `s.strip()`: surrounding whitespace removed. */
  function Strip(s: string): string {
    Trim(s, IsSpace)
  }

  /** The trimmed text is a contiguous piece of the original. */
  lemma TrimIsSlice(s: string, drop: char -> bool)
    ensures exists i :: OccursAt(s, Trim(s, drop), i)
  {
    var t := Trim(s, drop);
    var l := TrimLeft(s, drop);
    assert t == TrimRight(l, drop);
    var i := |s| - |l|;
    assert l == s[i..] && t == l[..|t|];
    assert s[i..i + |t|] == t;
    assert OccursAt(s, t, i);
  }

  /** Neither end of a trimmed text is a character the trim drops. */
  lemma TrimEnds(s: string, drop: char -> bool)
    ensures var r := Trim(s, drop);
            |r| > 0 ==> !drop(r[0]) && !drop(r[|r| - 1])
  {
    var l := TrimLeft(s, drop);
    var r := TrimRight(l, drop);
    assert Trim(s, drop) == r;
    if |r| > 0 {
      assert r == l[..|r|];
      assert r[0] == l[0];
    }
  }

  /** A string whose ends do not satisfy `drop` is its own trim. */
  lemma TrimUnchanged(s: string, drop: char -> bool)
    requires |s| > 0 ==> !drop(s[0]) && !drop(s[|s| - 1])
    ensures Trim(s, drop) == s
  {
    var l := TrimLeft(s, drop);
    assert l == s;
  }

  /** Stripping a stripped text changes nothing. */
  lemma StripIdempotent(s: string)
    ensures Strip(Strip(s)) == Strip(s)
  {
    TrimEnds(s, IsSpace);
    TrimUnchanged(Strip(s), IsSpace);
  }

  /** Everything `s.strip()` promises at once: no whitespace at either end, a second strip
      changes nothing, the result is a piece of the original, and a text without surrounding
      whitespace is its own strip. */
  lemma StripFacts(s: string)
    ensures var t := Strip(s);
      && (|t| > 0 ==> !IsSpace(t[0]) && !IsSpace(t[|t| - 1]))
      && Strip(t) == t
      && (exists i :: OccursAt(s, t, i))
      && ((|s| > 0 ==> !IsSpace(s[0]) && !IsSpace(s[|s| - 1])) ==> t == s)
  {
    TrimEnds(s, IsSpace);
    StripIdempotent(s);
    TrimIsSlice(s, IsSpace);
    if |s| > 0 ==> !IsSpace(s[0]) && !IsSpace(s[|s| - 1]) {
      TrimUnchanged(s, IsSpace);
    }
  }

  /** ASCII lower-casing of one character. */
  function Lower(c: char): char {
    if 'A' <= c <= 'Z' then (c as int + 32) as char else c
  }

  /** ASCII lower-casing of a string, character by character. */
  function LowerStr(s: string): (r: string)
    ensures |r| == |s|
    ensures forall i :: 0 <= i < |s| ==> r[i] == Lower(s[i])
  {
    seq(|s|, i requires 0 <= i < |s| => Lower(s[i]))
  }

  /** Index of the first `c` in `s`. */
  function IndexOf(s: string, c: char): (r: nat)
    requires c in s
    ensures r < |s| && s[r] == c && c !in s[..r]
  {
    if s[0] == c then 0 else 1 + IndexOf(s[1..], c)
  }

  /** Index of the last `c` in `s`. */
  function LastIndexOf(s: string, c: char): (r: nat)
    requires c in s
    ensures r < |s| && s[r] == c && c !in s[r + 1..]
  {
    if s[|s| - 1] == c then |s| - 1 else LastIndexOf(s[..|s| - 1], c)
  }

  /** The text is its part before the last `c`, that `c`, and its part after. */
  lemma AroundLast(s: string, c: char)
    requires c in s
    ensures var i := LastIndexOf(s, c); s == s[..i] + [c] + s[i + 1..]
  {
    var i := LastIndexOf(s, c);
    assert s[..i] + [c] + s[i + 1..] == s[..i] + s[i..];
  }

  /** `sep.join(parts)`. */
  function Join(parts: seq<string>, sep: string): string {
    if |parts| == 0 then ""
    else if |parts| == 1 then parts[0]
    else parts[0] + sep + Join(parts[1..], sep)
  }

  /** `s.split(sep)` for a one-character separator: the pieces between separators, empty pieces kept. */
  function Split(s: string, sep: char): (r: seq<string>)
    ensures |r| >= 1
    ensures forall i :: 0 <= i < |r| ==> sep !in r[i]
    ensures Join(r, [sep]) == s
    decreases |s|
  {
    if sep !in s then [s]
    else
      var i := IndexOf(s, sep);
      var rest := Split(s[i + 1..], sep);
      assert s == s[..i] + [sep] + s[i + 1..];
      [s[..i]] + rest
  }

  /** Splitting a join of separator-free pieces gives the pieces back. */
  lemma {:induction false} SplitJoin(parts: seq<string>, sep: char)
    requires |parts| >= 1
    requires forall i :: 0 <= i < |parts| ==> sep !in parts[i]
    ensures Split(Join(parts, [sep]), sep) == parts
    decreases |parts|
  {
    if |parts| == 1 {
    } else {
      var s := Join(parts, [sep]);
      var tail := Join(parts[1..], [sep]);
      assert s == parts[0] + [sep] + tail;
      assert sep in s by { assert s[|parts[0]|] == sep; }
      var i := IndexOf(s, sep);
      assert forall k :: 0 <= k < |parts[0]| ==> s[k] == parts[0][k];
      assert s[..i] == parts[0];
      assert s[..i] == parts[0];
      assert s[i + 1..] == tail;
      SplitJoin(parts[1..], sep);
    }
  }

  /** `s.replace(pat, '')`: every non-overlapping occurrence of `pat`, scanning left to right, removed. */
  function RemoveAll(s: string, pat: string): (r: string)
    requires |pat| > 0
    ensures |r| <= |s|
    decreases |s|
  {
    if |s| < |pat| then s
    else if s[..|pat|] == pat then RemoveAll(s[|pat|..], pat)
    else [s[0]] + RemoveAll(s[1..], pat)
  }

  /** Removing a pattern that does not occur changes nothing. */
  lemma {:induction false} RemoveAbsent(s: string, pat: string)
    requires |pat| > 0 && !Contains(s, pat)
    ensures RemoveAll(s, pat) == s
    decreases |s|
  {
    if |s| >= |pat| {
      assert !OccursAt(s, pat, 0);
      assert !StartsWith(s, pat);
      RemoveAbsent(s[1..], pat);
    }
  }

  /** A character that does not occur is not a substring. */
  lemma AbsentChar(s: string, c: char)
    requires c !in s
    ensures !Contains(s, [c])
  {
    forall i ensures !OccursAt(s, [c], i) {
      if 0 <= i < |s| {
        assert s[i..i + 1][0] == s[i];
      }
    }
  }

  /** Removing a one-character separator that occurs exactly once joins the two sides. */
  lemma {:induction false} RemoveSeparator(a: string, c: char, b: string)
    requires c !in a && c !in b
    ensures RemoveAll(a + [c] + b, [c]) == a + b
    decreases |a|
  {
    var s := a + [c] + b;
    if |a| == 0 {
      assert s == [c] + b && s[..1] == [c] && s[1..] == b;
      AbsentChar(b, c);
      RemoveAbsent(b, [c]);
    } else {
      assert s[..1] == [a[0]] && s[0] == a[0];
      assert s[1..] == a[1..] + [c] + b;
      RemoveSeparator(a[1..], c, b);
      assert a == [a[0]] + a[1..];
    }
  }

  /** `s.replace(a, b)` for single characters. */
  function ReplaceChar(s: string, a: char, b: char): (r: string)
    ensures |r| == |s|
    ensures forall i :: 0 <= i < |s| ==> r[i] == (if s[i] == a then b else s[i])
  {
    seq(|s|, i requires 0 <= i < |s| => if s[i] == a then b else s[i])
  }

  /** `c * n` with Python's convention that a non-positive count gives the empty string. */
  function Repeat(c: char, n: int): (r: string)
    ensures |r| == if n > 0 then n else 0
    ensures forall i :: 0 <= i < |r| ==> r[i] == c
  {
    if n <= 0 then "" else seq(n, _ => c)
  }
}

=== FILE: usa_spa.dfy ===
/** The USA Spa report (src/usa_spa_report.py): AR sales of the USA spa channel per region against
    budget and prior year, in kUSD or kEUR, with the differences and percentage deviations on every
    line and a grand total that adds up the base sections. */
module UsaSpa {
  import opened Wrappers
  import opened Text
  import opened Seqs
  import opened ReportCommon
  import Display
  import Numbers
  import Utils

  // ---------------------------------------------------------------- actuals

  datatype Unit = KUsd | KEur

  /** A resolved sales row; a `None` amount is NaN or text `pd.to_numeric` cannot read. */
  datatype SalesInput = SalesInput(
    documentType: Option<string>,
    marketGroup: Option<string>,
    channelLevel: Option<string>,
    region: Option<string>,
    kusd: Option<real>,           // 'Value_kUSD'
    usdConverted: Option<real>,   // 'Value_in_USD_converted'
    eurConverted: Option<real>,   // 'Value_in_EUR_converted'
    totalValue: Option<real>)     // 'Total Value (EUR)'

  /** Which of the optional value columns the sales table has. */
  datatype SalesColumns = SalesColumns(hasKusd: bool, hasUsdConverted: bool, hasEurConverted: bool)

  datatype SalesTable = SalesTable(columns: SalesColumns, rows: seq<SalesInput>)

  predicate IsUsaSpa(r: SalesInput) {
    r.documentType == Some("AR") && r.marketGroup == Some("USA") && r.channelLevel == Some("Spa")
  }

  /** The unit the actuals arrive in: kUSD when the table has a USD value column. */
  function ActualsUnit(c: SalesColumns): Unit {
    if c.hasKusd || c.hasUsdConverted then KUsd else KEur
  }

  /** 'kVAL': Value_kUSD as it is, else the converted USD value in thousands, else the EUR value
      in thousands (the converted one when that column exists). */
  function KVal(c: SalesColumns, r: SalesInput): real {
    if c.hasKusd then Cell(r.kusd)
    else if c.hasUsdConverted then Cell(r.usdConverted) / 1000.0
    else Cell(if c.hasEurConverted then r.eurConverted else r.totalValue) / 1000.0
  }

  // ---------------------------------------------------------------- reference data

  /** A budget or prior row. `kusd` and `keur` are the value cells as `str()` renders them ("nan"
      for an empty cell); `dateText` is the 'Date' cell as text. */
  datatype RefRow = RefRow(date: DateCell, dateText: string, region: Option<string>, kusd: string, keur: string)

  /** A budget or prior table and which of the two value columns it has. */
  datatype RefTable = RefTable(hasKusd: bool, hasKeur: bool, rows: seq<RefRow>)

  /** The cleaning `sum_numeric` applies before parsing: no-break spaces, spaces and commas go. */
  function CleanNumeric(text: string): string {
    RemoveAll(RemoveAll(RemoveAll(text, "\U{00A0}"), " "), ",")
  }

  /** A reference cell's value; a cell that does not read as a number counts as 0. */
  function NumericValue(text: string): real {
    Numbers.ParseDecimal(CleanNumeric(text)).GetOr(0.0)
  }

  /** Digits with a thousands separator read as the digits without it. */
  lemma ThousandsSeparated(a: string, b: string)
    requires |a| > 0 && Numbers.AllDigits(a) && |b| > 0 && Numbers.AllDigits(b)
    ensures NumericValue(a + "," + b) == Numbers.DigitsValue(a + b) as real
  {
    var s := a + "," + b;
    assert forall i :: 0 <= i < |s| ==> Numbers.IsDigit(s[i]) || s[i] == ',';
    assert '\U{00A0}' !in s && ' ' !in s;
    CleanKeeps(s);
    assert ',' !in a && ',' !in b;
    RemoveSeparator(a, ',', b);
    Numbers.DigitsParse(a + b);
  }

  /** Text without no-break spaces and spaces passes the first two cleaning steps unchanged. */
  lemma CleanKeeps(s: string)
    requires '\U{00A0}' !in s && ' ' !in s
    ensures CleanNumeric(s) == RemoveAll(s, ",")
  {
    AbsentChar(s, '\U{00A0}');
    RemoveAbsent(s, "\U{00A0}");
    AbsentChar(s, ' ');
    RemoveAbsent(s, " ");
  }

  /** An empty cell ("nan") counts as 0. */
  lemma EmptyCellIsZero()
    ensures NumericValue("nan") == 0.0
  {
    NanClean();
    NanUnparsable();
  }

  lemma NanClean()
    ensures CleanNumeric("nan") == "nan"
  {
    var s := "nan";
    CleanKeeps(s);
    AbsentChar(s, ',');
    RemoveAbsent(s, ",");
  }

  lemma NanUnparsable()
    ensures Numbers.ParseDecimal("nan") == None
  {
    NanStrip();
    NanNotNumeral();
  }

  lemma NanStrip()
    ensures Strip("nan") == "nan"
  {
    var s := "nan";
    assert !IsSpace(s[0]) && !IsSpace(s[|s| - 1]);
    TrimUnchanged(s, IsSpace);
  }

  lemma NanNotNumeral()
    ensures Numbers.ParseUnsigned("nan") == None
  {
    var s := "nan";
    assert '.' !in s;
    assert !Numbers.IsDigit(s[0]);
  }

  function RefValue(usd: bool, r: RefRow): real {
    NumericValue(if usd then r.kusd else r.keur)
  }

  predicate HasColumn(t: RefTable, usd: bool) {
    if usd then t.hasKusd else t.hasKeur
  }

  predicate InRegion(region: string, r: RefRow) {
    r.region == Some(region)
  }

  /** `sum_numeric(table, col).get(region)`: the cleaned values of that region's rows summed;
      `None` when the column is missing or no row has that region. */
  function RegionSum(t: RefTable, usd: bool, region: string): Option<real> {
    if HasColumn(t, usd) && exists i :: 0 <= i < |t.rows| && InRegion(region, t.rows[i]) then
      Some(Sum(Where(t.rows, (r: RefRow) => InRegion(region, r)), (r: RefRow) => RefValue(usd, r)))
    else None
  }

  /** The sum of a table's USD column over the rows that have a region (grouping drops the
      others); 0 when the column is missing. */
  function UsdTotal(t: RefTable): real {
    if t.hasKusd then Sum(Where(t.rows, (r: RefRow) => r.region.Some?), (r: RefRow) => RefValue(true, r)) else 0.0
  }

  // ---------------------------------------------------------------- _prepare_data

  predicate InBudgetPeriod(now: Utils.Now, r: RefRow) {
    r.date.DateOk? && r.date.date.month == now.month
  }

  predicate InPriorPeriod(now: Utils.Now, r: RefRow) {
    r.date.DateOk? && r.date.date.year == now.year - 1 && r.date.date.month == now.month
  }

  /** `f"{prior_year}-{month:02d}"`. */
  function PriorPrefix(now: Utils.Now): string {
    Numbers.IntToString(now.year - 1) + "-" + Utils.MonthDigits(now.month)
  }

  predicate InPriorText(now: Utils.Now, r: RefRow) {
    StartsWith(r.dateText, PriorPrefix(now))
  }

  /** Some 'Date' cell is not a DD/MM/YYYY date, so parsing the column raises. */
  predicate Unparsable(t: RefTable) {
    exists i :: 0 <= i < |t.rows| && t.rows[i].date.DateMalformed?
  }

  /** Budget rows of the clock's month, in any year. */
  function BudgetMonth(budget: RefTable, now: Utils.Now): (t: RefTable)
    ensures t.hasKusd == budget.hasKusd && t.hasKeur == budget.hasKeur
    ensures forall r :: r in t.rows <==> r in budget.rows && InBudgetPeriod(now, r)
    ensures forall r :: multiset(t.rows)[r] == if InBudgetPeriod(now, r) then multiset(budget.rows)[r] else 0
  {
    WhereMultiset(budget.rows, BudgetPeriodOf(now));
    budget.(rows := Where(budget.rows, BudgetPeriodOf(now)))
  }

  function BudgetPeriodOf(now: Utils.Now): RefRow -> bool {
    (r: RefRow) => InBudgetPeriod(now, r)
  }

  /** The prior-period test in force: on the parsed date, or on the date text when the column does
      not parse. */
  function PriorTestOf(prior: RefTable, now: Utils.Now): RefRow -> bool {
    if Unparsable(prior) then (r: RefRow) => InPriorText(now, r) else (r: RefRow) => InPriorPeriod(now, r)
  }

  /** Prior rows of the clock's month in the year before; when the dates do not parse, the rows
      whose date text starts with that year and month. */
  function PriorMonth(prior: RefTable, now: Utils.Now): (t: RefTable)
    ensures t.hasKusd == prior.hasKusd && t.hasKeur == prior.hasKeur
    ensures forall r :: r in t.rows <==>
      r in prior.rows && (if Unparsable(prior) then InPriorText(now, r) else InPriorPeriod(now, r))
    ensures forall r ::
      multiset(t.rows)[r] == if (if Unparsable(prior) then InPriorText(now, r) else InPriorPeriod(now, r)) then multiset(prior.rows)[r] else 0
  {
    WhereMultiset(prior.rows, PriorTestOf(prior, now));
    prior.(rows := Where(prior.rows, PriorTestOf(prior, now)))
  }

  const DefaultEurToUsd: real := 1.07

  /** `float(os.getenv('EUR_TO_USD', '1.07'))`, falling back to 1.07 on text that is not a number. */
  function EurToUsd(env: Option<string>): real {
    match env
    case None => DefaultEurToUsd
    case Some(text) => Numbers.ParseDecimal(text).GetOr(DefaultEurToUsd)
  }

  /** USD reference values in the period switch the report to kUSD. */
  predicate ForcesUsd(budget: RefTable, prior: RefTable) {
    UsdTotal(budget) != 0.0 || UsdTotal(prior) != 0.0
  }

  /** A sales row as the report reads it: its region and its 'kVAL'. */
  datatype Actual = Actual(region: Option<string>, kval: real)

  /** The period data the report is computed from, and the unit it is labelled with. */
  datatype Prepared = Prepared(sales: seq<Actual>, unit: Unit, budget: RefTable, prior: RefTable)

  /** `_prepare_data` for the clock reading `now` and the `EUR_TO_USD` variable `rateEnv`. `None`
      when a budget date does not parse. */
  function Prepare(sales: SalesTable, budget: RefTable, prior: RefTable, now: Utils.Now, rateEnv: Option<string>): (p: Option<Prepared>)
    ensures p.None? <==> Unparsable(budget)
    ensures p.Some? ==> p.value.budget == BudgetMonth(budget, now) && p.value.prior == PriorMonth(prior, now)
  {
    if Unparsable(budget) then None
    else Some(Assemble(sales, BudgetMonth(budget, now), PriorMonth(prior, now), EurToUsd(rateEnv)))
  }

  /** The prepared data from the sales table, the period's reference tables and the exchange rate:
      the USA spa AR rows' 'kVAL', converted to dollars when the reference values force kUSD on
      actuals that arrived in kEUR. */
  function Assemble(sales: SalesTable, budget: RefTable, prior: RefTable, rate: real): Prepared {
    var spa := Where(sales.rows, IsUsaSpa);
    var convert := ForcesUsd(budget, prior) && ActualsUnit(sales.columns) == KEur;
    Prepared(Converted(sales.columns, spa, if convert then Some(rate) else None),
      if ForcesUsd(budget, prior) then KUsd else ActualsUnit(sales.columns),
      budget, prior)
  }

  /** `x * rate` when a rate applies, `x` otherwise. */
  function Rescale(x: real, rate: Option<real>): real {
    if rate.Some? then x * rate.value else x
  }

  /** The sales rows with their 'kVAL', multiplied by `rate` when one is given. */
  function Converted(c: SalesColumns, rows: seq<SalesInput>, rate: Option<real>): (r: seq<Actual>)
    ensures |r| == |rows|
    ensures forall i :: 0 <= i < |rows| ==> r[i] == Actual(rows[i].region, Rescale(KVal(c, rows[i]), rate))
  {
    seq(|rows|, i requires 0 <= i < |rows| => Actual(rows[i].region, Rescale(KVal(c, rows[i]), rate)))
  }

  /** The report is in kEUR only when neither the sales nor the period's USD reference values are
      in dollars, and the report's unit differs from the unit the actuals arrived in exactly when
      kEUR actuals meet USD reference values. */
  lemma UnitSelection(sales: SalesTable, budget: RefTable, prior: RefTable, rate: real)
    ensures var p := Assemble(sales, budget, prior, rate);
      && (p.unit == KEur <==>
           !sales.columns.hasKusd && !sales.columns.hasUsdConverted && UsdTotal(budget) == 0.0 && UsdTotal(prior) == 0.0)
      && (p.unit != ActualsUnit(sales.columns) <==> ActualsUnit(sales.columns) == KEur && ForcesUsd(budget, prior))
  {
  }

  /** The actuals are the USA spa AR rows in order, rescaled by the exchange rate exactly when the
      report's unit differs from the unit they arrived in. */
  lemma ActualsRescaled(sales: SalesTable, budget: RefTable, prior: RefTable, rate: real)
    ensures var p := Assemble(sales, budget, prior, rate);
      var spa := Where(sales.rows, IsUsaSpa);
      && |p.sales| == |spa|
      && forall i :: 0 <= i < |spa| ==>
           && p.sales[i].region == spa[i].region
           && p.sales[i].kval == Rescale(KVal(sales.columns, spa[i]), if p.unit != ActualsUnit(sales.columns) then Some(rate) else None)
  {
    var spa := Where(sales.rows, IsUsaSpa);
    var convert := ForcesUsd(budget, prior) && ActualsUnit(sales.columns) == KEur;
    var p := Assemble(sales, budget, prior, rate);
    assert convert <==> p.unit != ActualsUnit(sales.columns);
    if convert {
      assert p.sales == Converted(sales.columns, spa, Some(rate));
    } else {
      assert p.sales == Converted(sales.columns, spa, None);
    }
  }

  // ---------------------------------------------------------------- figures of a line

  /** A report line's seven figures: the amounts, and against budget and prior the difference and
      the percentage deviation. */
  datatype Figures = Figures(amounts: Amounts, diffBudget: real, pctBudget: real, diffPrior: real, pctPrior: real)

  /** The figures of a line with the given amounts. */
  function FiguresOf(a: Amounts): Figures {
    Figures(a, a.actual - a.budget, Display.DeltaPercent(a.actual, a.budget),
               a.actual - a.prior, Display.DeltaPercent(a.actual, a.prior))
  }

  /** The line invariant: each difference is actual minus the reference, each percentage is the
      deviation of actual from the reference (0 for a zero reference). */
  predicate Consistent(f: Figures) {
    f == FiguresOf(f.amounts)
  }

  /** The all-zero figures of a fresh accumulator and of a spacer line. */
  const NoFigures: Figures := FiguresOf(Zero)

  /** `acc[x] += f[x]` for the amounts and the differences, with both percentages recomputed from
      the running sums. */
  function Accumulate(acc: Figures, f: Figures): Figures {
    var a := acc.amounts.Plus(f.amounts);
    Figures(a, acc.diffBudget + f.diffBudget, Display.DeltaPercent(a.actual, a.budget),
               acc.diffPrior + f.diffPrior, Display.DeltaPercent(a.actual, a.prior))
  }

  /** Accumulating consistent lines gives the consistent figures of the summed amounts. */
  lemma AccumulateConsistent(acc: Figures, f: Figures)
    requires Consistent(acc) && Consistent(f)
    ensures Accumulate(acc, f) == FiguresOf(acc.amounts.Plus(f.amounts))
  {
  }

  datatype SpaRow = SpaRow(caption: string, figures: Figures, kind: RowKind)

  const SpaSpacer: SpaRow := SpaRow("", NoFigures, SpacerRow)

  // ---------------------------------------------------------------- regions and items

  /** An item's reference value: the kUSD sum if present and non-zero, else the kEUR sum if present
      and non-zero, else 0. */
  function ItemLookup(usd: Option<real>, eur: Option<real>): (r: real)
    ensures usd.Some? && usd.value != 0.0 ==> r == usd.value
    ensures r == 0.0 || (usd.Some? && r == usd.value) || (eur.Some? && r == eur.value)
  {
    if usd.Some? && usd.value != 0.0 then usd.value
    else if eur.Some? && eur.value != 0.0 then eur.value
    else 0.0
  }

  /** A section's reference value by its 'region': the kUSD sum if present and non-zero, else the
      kEUR sum if present, else 0. Unlike the item lookup it does not test the kEUR sum for zero,
      which makes no difference to the value. */
  function SectionLookup(usd: Option<real>, eur: Option<real>): (r: real)
    ensures r == ItemLookup(usd, eur)
  {
    if usd.Some? && usd.value != 0.0 then usd.value
    else if eur.Some? then eur.value
    else 0.0
  }

  predicate SalesInRegion(region: string, a: Actual) {
    a.region == Some(region)
  }

  /** The summed 'kVAL' of a region. */
  function ActualOf(p: Prepared, region: string): real {
    Sum(Where(p.sales, (a: Actual) => SalesInRegion(region, a)), (a: Actual) => a.kval)
  }

  /** A region's amounts as an item reads them. */
  function ItemAmounts(p: Prepared, region: string): Amounts {
    Amounts(ActualOf(p, region),
      ItemLookup(RegionSum(p.budget, true, region), RegionSum(p.budget, false, region)),
      ItemLookup(RegionSum(p.prior, true, region), RegionSum(p.prior, false, region)))
  }

  /** A region's amounts as a section without items reads them; they agree with an item's. */
  function RegionAmounts(p: Prepared, region: string): (a: Amounts)
    ensures a == ItemAmounts(p, region)
  {
    Amounts(ActualOf(p, region),
      SectionLookup(RegionSum(p.budget, true, region), RegionSum(p.budget, false, region)),
      SectionLookup(RegionSum(p.prior, true, region), RegionSum(p.prior, false, region)))
  }

  /** A line is shown unless actual, budget and prior are all 0. */
  predicate Shown(a: Amounts) {
    !(a.actual == 0.0 && a.budget == 0.0 && a.prior == 0.0)
  }

  /** What an item adds to its section: its region's amounts, nothing for a falsy filter value. */
  function ItemShare(p: Prepared, item: Item): Amounts {
    if Truthy(item.filterValue) then ItemAmounts(p, item.filterValue.value) else Zero
  }

  /** The amounts of the items with a truthy filter value, summed. */
  function ItemsTotal(p: Prepared, items: seq<Item>): Amounts
    decreases |items|
  {
    if |items| == 0 then Zero else ItemsTotal(p, items[..|items| - 1]).Plus(ItemShare(p, items[|items| - 1]))
  }

  /** The section accumulator after the items loop: every item with a truthy filter value is
      added, shown or not. */
  function ItemsFigures(p: Prepared, items: seq<Item>): (f: Figures)
    ensures f == FiguresOf(ItemsTotal(p, items))
    decreases |items|
  {
    if |items| == 0 then NoFigures
    else
      var acc := ItemsFigures(p, items[..|items| - 1]);
      var item := items[|items| - 1];
      if Truthy(item.filterValue) then
        var f := FiguresOf(ItemAmounts(p, item.filterValue.value));
        AccumulateConsistent(acc, f);
        Accumulate(acc, f)
      else
        AmountsAlgebra(acc.amounts, Zero, Zero);
        acc
  }

  /** The item lines: one per item with a truthy filter value whose amounts are shown. */
  function ItemRows(p: Prepared, items: seq<Item>): (rows: seq<SpaRow>)
    ensures forall i :: 0 <= i < |rows| ==> rows[i].kind == DataRow && Consistent(rows[i].figures)
    decreases |items|
  {
    if |items| == 0 then []
    else
      var item := items[|items| - 1];
      ItemRows(p, items[..|items| - 1]) +
        if Truthy(item.filterValue) && Shown(ItemAmounts(p, item.filterValue.value)) then
          [SpaRow(item.caption, FiguresOf(ItemAmounts(p, item.filterValue.value)), DataRow)]
        else []
  }

  /** A regular section's figures: the items loop when it has 'items', else the figures of its
      'region' when that is truthy, else zeros. */
  function SectionFigures(p: Prepared, sec: Section): (f: Figures)
    ensures Consistent(f)
  {
    if sec.hasItems then ItemsFigures(p, sec.items)
    else if Truthy(sec.region) then FiguresOf(RegionAmounts(p, sec.region.value))
    else NoFigures
  }

  /** A regular section's data lines: its item lines, or one line titled with the section for its
      region when that is shown. */
  function DataRows(p: Prepared, sec: Section): (rows: seq<SpaRow>)
    ensures forall i :: 0 <= i < |rows| ==> rows[i].kind == DataRow && Consistent(rows[i].figures)
  {
    if sec.hasItems then ItemRows(p, sec.items)
    else if Truthy(sec.region) && Shown(SectionFigures(p, sec).amounts) then
      [SpaRow(sec.title, SectionFigures(p, sec), DataRow)]
    else []
  }

  /** The amounts of a run of lines added up, left to right. */
  function RowsAmounts(rows: seq<SpaRow>): Amounts
    decreases |rows|
  {
    if |rows| == 0 then Zero else RowsAmounts(rows[..|rows| - 1]).Plus(rows[|rows| - 1].figures.amounts)
  }

  lemma RowsAmountsSnoc(rows: seq<SpaRow>, extra: seq<SpaRow>)
    requires |extra| <= 1
    ensures RowsAmounts(rows + extra) == RowsAmounts(rows).Plus(if |extra| == 1 then extra[0].figures.amounts else Zero)
  {
    var all := rows + extra;
    if |extra| == 1 {
      assert all[..|all| - 1] == rows;
    } else {
      assert all == rows;
      AmountsAlgebra(RowsAmounts(rows), Zero, Zero);
    }
  }

  /** Lines left out because all their amounts are 0 still count in the section, which does not
      change it: the shown item lines add up to the items' total. */
  lemma {:induction false} ItemRowsAddUp(p: Prepared, items: seq<Item>)
    ensures RowsAmounts(ItemRows(p, items)) == ItemsTotal(p, items)
    decreases |items|
  {
    if |items| > 0 {
      var prefix := items[..|items| - 1];
      var item := items[|items| - 1];
      ItemRowsAddUp(p, prefix);
      var extra := if Truthy(item.filterValue) && Shown(ItemAmounts(p, item.filterValue.value)) then
          [SpaRow(item.caption, FiguresOf(ItemAmounts(p, item.filterValue.value)), DataRow)]
        else [];
      assert ItemRows(p, items) == ItemRows(p, prefix) + extra;
      RowsAmountsSnoc(ItemRows(p, prefix), extra);
      if |extra| == 0 {
        assert ItemShare(p, item) == Zero;
      }
    }
  }

  /** A section's data lines add up to the section's figures. */
  lemma DataRowsAddUp(p: Prepared, sec: Section)
    ensures RowsAmounts(DataRows(p, sec)) == SectionFigures(p, sec).amounts
  {
    if sec.hasItems {
      ItemRowsAddUp(p, sec.items);
    } else {
      var f := SectionFigures(p, sec);
      var rows := DataRows(p, sec);
      if Truthy(sec.region) && Shown(f.amounts) {
        assert rows == [SpaRow(sec.title, f, DataRow)];
        assert rows[..0] == [];
        AmountsAlgebra(f.amounts, Zero, Zero);
      } else {
        assert rows == [];
        if Truthy(sec.region) {
          assert f.amounts == Zero;
        } else {
          assert f == NoFigures;
        }
      }
    }
  }

  /** A regular section's lines: data lines, its total line when 'show_total' is set, a spacer. */
  function RegularRows(p: Prepared, sec: Section): (rows: seq<SpaRow>)
    ensures |rows| >= 1 && rows[|rows| - 1] == SpaSpacer
    ensures sec.showTotal <==> |rows| >= 2 && rows[|rows| - 2].kind == SectionTotalRow
    ensures sec.showTotal ==> rows[|rows| - 2] == SpaRow(sec.title, SectionFigures(p, sec), SectionTotalRow)
    ensures rows[..|rows| - (if sec.showTotal then 2 else 1)] == DataRows(p, sec)
    ensures forall i :: 0 <= i < |rows| ==> Consistent(rows[i].figures)
  {
    var data := DataRows(p, sec);
    var total := if sec.showTotal then [SpaRow(sec.title, SectionFigures(p, sec), SectionTotalRow)] else [];
    SpaLayout(data, total);
    data + total + [SpaSpacer]
  }

  /** Data lines, an optional total line and a spacer, in this order. */
  lemma SpaLayout(data: seq<SpaRow>, total: seq<SpaRow>)
    requires forall i :: 0 <= i < |data| ==> data[i].kind == DataRow && Consistent(data[i].figures)
    requires |total| <= 1 && forall i :: 0 <= i < |total| ==> total[i].kind == SectionTotalRow && Consistent(total[i].figures)
    ensures var rows := data + total + [SpaSpacer];
      && rows[|rows| - 1] == SpaSpacer
      && (|total| == 1 <==> |rows| >= 2 && rows[|rows| - 2].kind == SectionTotalRow)
      && (|total| == 1 ==> rows[|rows| - 2] == total[0])
      && rows[..|rows| - 1 - |total|] == data
      && forall i :: 0 <= i < |rows| ==> Consistent(rows[i].figures)
  {
    var rows := data + total + [SpaSpacer];
    if |total| == 0 && |data| > 0 {
      assert rows[|rows| - 2] == data[|data| - 1];
    }
    assert rows[..|rows| - 1 - |total|] == data;
    forall i | 0 <= i < |rows|
      ensures Consistent(rows[i].figures)
    {
      if i < |data| {
        assert rows[i] == data[i];
      } else if i < |data| + |total| {
        assert rows[i] == total[i - |data|];
      }
    }
  }

  // ---------------------------------------------------------------- the fold

  /** The fold's carried state: lines so far, `section_totals`, and the grand-total accumulator. */
  datatype State = State(rows: seq<SpaRow>, totals: Dict<Figures>, grand: Figures)

  const Initial: State := State([], [], NoFigures)

  /** A component total: the recorded figures of the listed titles accumulated in order; titles
      not recorded are skipped. */
  function ComponentFigures(totals: Dict<Figures>, titles: seq<string>): Figures
    decreases |titles|
  {
    if |titles| == 0 then NoFigures
    else
      var acc := ComponentFigures(totals, titles[..|titles| - 1]);
      match Get(totals, titles[|titles| - 1])
      case Some(f) => Accumulate(acc, f)
      case None => acc
  }

  function Step(p: Prepared, st: State, sec: Section): State {
    match KindOf(sec)
    case GrandTotal => st.(rows := st.rows + [SpaRow(sec.title, st.grand, GrandTotalRow)])
    case Unmapped => st
    case ComponentTotal =>
      st.(rows := st.rows + [SpaRow(sec.title, ComponentFigures(st.totals, ComponentTitles(sec)), ComponentTotalRow)])
    case Regular =>
      var f := SectionFigures(p, sec);
      State(st.rows + RegularRows(p, sec), Put(st.totals, sec.title, f), Accumulate(st.grand, f))
  }

  /** The fold over the sections, left to right. */
  function Run(p: Prepared, sections: seq<Section>): State
    decreases |sections|
  {
    if |sections| == 0 then Initial
    else Step(p, Run(p, sections[..|sections| - 1]), sections[|sections| - 1])
  }

  /** `calculate_report()`: the report's lines in order. */
  function CalculateReport(p: Prepared, sections: seq<Section>): seq<SpaRow> {
    Run(p, sections).rows
  }

  lemma RunSnoc(p: Prepared, prefix: seq<Section>, last: Section)
    ensures Run(p, prefix + [last]) == Step(p, Run(p, prefix), last)
  {
    var all := prefix + [last];
    assert all[..|all| - 1] == prefix && all[|all| - 1] == last;
  }

  // ---------------------------------------------------------------- every line is consistent

  predicate RecordedConsistent(t: Dict<Figures>) {
    forall e :: e in t ==> Consistent(e.1)
  }

  predicate RowsConsistent(rows: seq<SpaRow>) {
    forall i :: 0 <= i < |rows| ==> Consistent(rows[i].figures)
  }

  predicate Good(st: State) {
    RowsConsistent(st.rows) && RecordedConsistent(st.totals) && Consistent(st.grand)
  }

  /** The amounts of the recorded totals of the listed titles; titles not recorded add nothing. */
  function RecordedSum(totals: Dict<Figures>, titles: seq<string>): Amounts
    decreases |titles|
  {
    if |titles| == 0 then Zero
    else
      RecordedSum(totals, titles[..|titles| - 1]).Plus(
        match Get(totals, titles[|titles| - 1]) case Some(f) => f.amounts case None => Zero)
  }

  /** A component total shows the figures of the summed recorded amounts. */
  lemma {:induction false} ComponentFiguresSum(totals: Dict<Figures>, titles: seq<string>)
    requires RecordedConsistent(totals)
    ensures ComponentFigures(totals, titles) == FiguresOf(RecordedSum(totals, titles))
    decreases |titles|
  {
    if |titles| > 0 {
      var prefix := titles[..|titles| - 1];
      ComponentFiguresSum(totals, prefix);
      var acc := ComponentFigures(totals, prefix);
      match Get(totals, titles[|titles| - 1])
      case Some(f) =>
        var i :| 0 <= i < |totals| && totals[i] == (titles[|titles| - 1], f);
        assert totals[i] in totals;
        AccumulateConsistent(acc, f);
      case None =>
        AmountsAlgebra(acc.amounts, Zero, Zero);
    }
  }

  lemma AppendConsistent(a: seq<SpaRow>, b: seq<SpaRow>)
    requires RowsConsistent(a) && RowsConsistent(b)
    ensures RowsConsistent(a + b)
  {
    forall i | 0 <= i < |a + b|
      ensures Consistent((a + b)[i].figures)
    {
      if i < |a| {
        assert (a + b)[i] == a[i];
      } else {
        assert (a + b)[i] == b[i - |a|];
      }
    }
  }

  lemma StepGood(p: Prepared, st: State, sec: Section)
    requires Good(st)
    ensures Good(Step(p, st, sec))
  {
    match KindOf(sec)
    case GrandTotal =>
      AppendConsistent(st.rows, [SpaRow(sec.title, st.grand, GrandTotalRow)]);
    case Unmapped =>
    case ComponentTotal =>
      ComponentFiguresSum(st.totals, ComponentTitles(sec));
      var f := ComponentFigures(st.totals, ComponentTitles(sec));
      AppendConsistent(st.rows, [SpaRow(sec.title, f, ComponentTotalRow)]);
    case Regular =>
      var f := SectionFigures(p, sec);
      AppendConsistent(st.rows, RegularRows(p, sec));
      PutEntries(st.totals, sec.title, f);
      AccumulateConsistent(st.grand, f);
  }

  lemma {:induction false} RunGood(p: Prepared, sections: seq<Section>)
    ensures Good(Run(p, sections))
    decreases |sections|
  {
    if |sections| > 0 {
      RunGood(p, sections[..|sections| - 1]);
      StepGood(p, Run(p, sections[..|sections| - 1]), sections[|sections| - 1]);
    }
  }

  /** Every line of the report, whether item, section, component total, grand total or spacer,
      has each difference equal to actual minus the reference and each percentage equal to the
      deviation of actual from the reference, 0 when the reference is 0. */
  lemma LinesConsistent(p: Prepared, sections: seq<Section>)
    ensures forall i :: 0 <= i < |CalculateReport(p, sections)| ==>
      var f := CalculateReport(p, sections)[i].figures;
      && f.diffBudget == f.amounts.actual - f.amounts.budget
      && f.diffPrior == f.amounts.actual - f.amounts.prior
      && f.pctBudget == Display.DeltaPercent(f.amounts.actual, f.amounts.budget)
      && f.pctPrior == Display.DeltaPercent(f.amounts.actual, f.amounts.prior)
  {
    RunGood(p, sections);
  }

  // ---------------------------------------------------------------- totals and grand total

  /** The figures recorded for `title` by the last regular section carrying it, if any. */
  function LatestRegular(p: Prepared, sections: seq<Section>, title: string): Option<Figures>
    decreases |sections|
  {
    if |sections| == 0 then None
    else
      var last := sections[|sections| - 1];
      if KindOf(last) == Regular && last.title == title then Some(SectionFigures(p, last))
      else LatestRegular(p, sections[..|sections| - 1], title)
  }

  /** `section_totals` records exactly the regular sections, the later of two equal titles
      winning; component totals, grand totals and unmapped sections are never recorded. */
  lemma {:induction false} TotalsAreLatest(p: Prepared, sections: seq<Section>, title: string)
    ensures Get(Run(p, sections).totals, title) == LatestRegular(p, sections, title)
    decreases |sections|
  {
    if |sections| > 0 {
      var prefix := sections[..|sections| - 1];
      var last := sections[|sections| - 1];
      TotalsAreLatest(p, prefix, title);
      if KindOf(last) == Regular {
        PutGet(Run(p, prefix).totals, last.title, SectionFigures(p, last), title);
      }
    }
  }

  /** What the grand total is meant to be: the amounts of every regular section, and nothing from
      component totals. */
  function BaseTotal(p: Prepared, sections: seq<Section>): Amounts
    decreases |sections|
  {
    if |sections| == 0 then Zero
    else
      var last := sections[|sections| - 1];
      BaseTotal(p, sections[..|sections| - 1]).Plus(if KindOf(last) == Regular then SectionFigures(p, last).amounts else Zero)
  }

  lemma BaseTotalSnoc(p: Prepared, prefix: seq<Section>, last: Section)
    ensures BaseTotal(p, prefix + [last]) ==
      BaseTotal(p, prefix).Plus(if KindOf(last) == Regular then SectionFigures(p, last).amounts else Zero)
  {
    var all := prefix + [last];
    assert all[..|all| - 1] == prefix && all[|all| - 1] == last;
  }

  lemma GrandStep(p: Prepared, prefix: seq<Section>, last: Section)
    requires Consistent(Run(p, prefix).grand)
    requires Run(p, prefix).grand.amounts == BaseTotal(p, prefix)
    ensures Run(p, prefix + [last]).grand == FiguresOf(BaseTotal(p, prefix + [last]))
  {
    var st := Run(p, prefix);
    RunSnoc(p, prefix, last);
    BaseTotalSnoc(p, prefix, last);
    if KindOf(last) == Regular {
      AccumulateConsistent(st.grand, SectionFigures(p, last));
      assert Step(p, st, last).grand == Accumulate(st.grand, SectionFigures(p, last));
    } else {
      AmountsAlgebra(BaseTotal(p, prefix), Zero, Zero);
      assert Step(p, st, last).grand == st.grand;
    }
  }

  /** The grand-total accumulator carries the figures of the regular sections' amounts summed:
      additive over the base sections, with component totals never added. */
  lemma {:induction false} GrandIsBaseTotal(p: Prepared, sections: seq<Section>)
    ensures Run(p, sections).grand == FiguresOf(BaseTotal(p, sections))
    decreases |sections|
  {
    if |sections| > 0 {
      var prefix := sections[..|sections| - 1];
      var last := sections[|sections| - 1];
      assert sections == prefix + [last];
      GrandIsBaseTotal(p, prefix);
      GrandStep(p, prefix, last);
    }
  }

  /** The grand-total line shows the figures of all regular sections so far and changes no total. */
  lemma GrandTotalLine(p: Prepared, sections: seq<Section>, sec: Section)
    requires KindOf(sec) == GrandTotal
    ensures Run(p, sections + [sec]) ==
      Run(p, sections).(rows := CalculateReport(p, sections) + [SpaRow(sec.title, FiguresOf(BaseTotal(p, sections)), GrandTotalRow)])
  {
    RunSnoc(p, sections, sec);
    GrandIsBaseTotal(p, sections);
  }

  /** Component totals summed from the configuration alone. */
  function RefComponentSum(p: Prepared, sections: seq<Section>, titles: seq<string>): Amounts
    decreases |titles|
  {
    if |titles| == 0 then Zero
    else
      RefComponentSum(p, sections, titles[..|titles| - 1]).Plus(
        match LatestRegular(p, sections, titles[|titles| - 1]) case Some(f) => f.amounts case None => Zero)
  }

  lemma {:induction false} RecordedSumIsRef(p: Prepared, sections: seq<Section>, titles: seq<string>)
    ensures RecordedSum(Run(p, sections).totals, titles) == RefComponentSum(p, sections, titles)
    decreases |titles|
  {
    if |titles| > 0 {
      TotalsAreLatest(p, sections, titles[|titles| - 1]);
      RecordedSumIsRef(p, sections, titles[..|titles| - 1]);
    }
  }

  /** A component-total line shows the figures of the latest recorded totals of its titles summed
      (unknown titles adding nothing), and leaves `section_totals` and the grand total alone. */
  lemma ComponentTotalLine(p: Prepared, sections: seq<Section>, sec: Section)
    requires KindOf(sec) == ComponentTotal
    ensures Run(p, sections + [sec]) == Run(p, sections).(rows := CalculateReport(p, sections) +
      [SpaRow(sec.title, FiguresOf(RefComponentSum(p, sections, ComponentTitles(sec))), ComponentTotalRow)])
  {
    RunSnoc(p, sections, sec);
    RunGood(p, sections);
    ComponentFiguresSum(Run(p, sections).totals, ComponentTitles(sec));
    RecordedSumIsRef(p, sections, ComponentTitles(sec));
  }

  predicate NotUnmapped(s: Section) {
    KindOf(s) != Unmapped
  }

  /** Unmapped sections contribute nothing: dropping them from the configuration leaves the
      report, the totals and the accumulator unchanged. */
  lemma {:induction false} UnmappedIgnored(p: Prepared, sections: seq<Section>)
    ensures Run(p, Where(sections, NotUnmapped)) == Run(p, sections)
    decreases |sections|
  {
    if |sections| > 0 {
      var prefix := sections[..|sections| - 1];
      var last := sections[|sections| - 1];
      assert sections == prefix + [last];
      WhereAppend(prefix, [last], NotUnmapped);
      UnmappedIgnored(p, prefix);
      var kept := Where(prefix, NotUnmapped);
      RunSnoc(p, prefix, last);
      if NotUnmapped(last) {
        assert Where([last], NotUnmapped) == [last];
        RunSnoc(p, kept, last);
      } else {
        assert Where([last], NotUnmapped) == [];
        assert kept + [] == kept;
      }
    }
  }
}

=== FILE: utils.dfy ===
/** Progress-bar arithmetic and report column headers (src/utils.py). The clock is a parameter. */
module Utils {
  import opened Wrappers
  import opened Text
  import opened Numbers

  /** Python `a // b`: division rounding toward negative infinity. */
  function FloorDiv(a: int, b: int): (q: int)
    requires b != 0
    ensures b > 0 ==> q * b <= a < (q + 1) * b
    ensures b < 0 ==> (q + 1) * b < a <= q * b
  {
    if b > 0 then a / b else (-a) / (-b)
  }

  /** Python `int(x)` on a float: truncation toward zero. */
  function Truncate(x: real): (n: int)
    ensures x >= 0.0 ==> n as real <= x < n as real + 1.0
    ensures x < 0.0 ==> n as real - 1.0 < x <= n as real
  {
    if x >= 0.0 then x.Floor else -((-x).Floor)
  }

  const BarLength: int := 30

  /** One redraw of the progress bar: the percentage, the bar itself, the text written,
      and whether a line break follows. */
  datatype Progress = Progress(percentage: int, bar: string, text: string, newline: bool)

  /** `print_progress(current, total, message)`; `None` stands for the ZeroDivisionError
      raised when `total` is 0. */
  function PrintProgress(current: int, total: int, message: string): (r: Option<Progress>)
    ensures r.None? <==> total == 0
    ensures r.Some? ==> (r.value.newline <==> current == total)
    ensures r.Some? && 0 <= current <= total ==>
      && |r.value.bar| == BarLength
      && 0 <= r.value.percentage <= 100
      && exists filled :: 0 <= filled <= BarLength
           && filled * total <= BarLength * current < (filled + 1) * total
           && r.value.bar == Repeat('#', filled) + Repeat('-', BarLength - filled)
  {
    if total == 0 then None
    else
      var percentage := Truncate(current as real / total as real * 100.0);
      var filled := FloorDiv(BarLength * current, total);
      var bar := Repeat('#', filled) + Repeat('-', BarLength - filled);
      var text := "\r[" + bar + "] " + IntToString(percentage) + "% " + message;
      FilledInRange(current, total);
      Some(Progress(percentage, bar, text, current == total))
  }

  /** With 0 <= current <= total the filled part fits the bar and the percentage lies in 0..100. */
  lemma FilledInRange(current: int, total: int)
    requires total != 0
    ensures 0 <= current <= total ==>
      && 0 <= FloorDiv(BarLength * current, total) <= BarLength
      && 0 <= Truncate(current as real / total as real * 100.0) <= 100
  {
    if 0 <= current <= total {
      FilledBounds(current, total, FloorDiv(BarLength * current, total));
      FractionBounds(current, total);
    }
  }

  lemma FilledBounds(current: int, total: int, f: int)
    requires 0 <= current <= total && total > 0
    requires f * total <= BarLength * current < (f + 1) * total
    ensures 0 <= f <= BarLength
  {
    assert (f - BarLength) * total <= 0;
    assert (f + 1) * total > 0;
  }

  lemma FractionBounds(current: int, total: int)
    requires 0 <= current <= total && total > 0
    ensures 0.0 <= current as real / total as real <= 1.0
  {
  }

  /** A month number as `datetime` keeps it. */
  type Month = m: int | 1 <= m <= 12 witness 1

  /** The reading of the clock the headers are built from. */
  datatype Now = Now(year: int, month: Month)

  /** `strftime('%b')` in the C locale. */
  function MonthAbbrev(m: Month): (r: string)
    ensures |r| == 3
  {
    ["Jan", "Feb", "Mar", "Apr", "May", "Jun", "Jul", "Aug", "Sep", "Oct", "Nov", "Dec"][m - 1]
  }

  /** `f"{month:02d}"`: the month number in two digits. */
  function MonthDigits(m: Month): (r: string)
    ensures |r| == 2 && AllDigits(r) && DigitsValue(r) == m
  {
    var r := if m < 10 then [DigitChar(0), DigitChar(m)] else [DigitChar(1), DigitChar(m - 10)];
    assert r[..1] == [r[0]] && [r[0]][..0] == [];
    assert DigitsValue(r[..1]) == DigitValue(r[0]);
    assert DigitsValue(r) == DigitValue(r[0]) * 10 + DigitValue(r[1]);
    r
  }

  /** `str(year)[2:]`: the year's text without its first two characters. */
  function YearShort(year: int): string {
    var s := IntToString(year);
    s[if |s| < 2 then |s| else 2..]
  }

  /** For four-digit years the short year is the last two digits, zero-padded. */
  lemma YearShortFourDigits(year: int)
    requires 1000 <= year <= 9999
    ensures YearShort(year) == [DigitChar((year / 10) % 10), DigitChar(year % 10)]
  {
    var q1 := year / 10;
    var q2 := q1 / 10;
    var q3 := q2 / 10;
    assert 100 <= q1 <= 999 && 10 <= q2 <= 99 && 1 <= q3 <= 9;
    var s := NatToString(year);
    assert s == NatToString(q1) + [DigitChar(year % 10)];
    assert NatToString(q1) == NatToString(q2) + [DigitChar(q1 % 10)];
    assert NatToString(q2) == [DigitChar(q3)] + [DigitChar(q2 % 10)];
    assert s == [DigitChar(q3), DigitChar(q2 % 10), DigitChar(q1 % 10), DigitChar(year % 10)];
    assert YearShort(year) == s[2..];
  }

  /** For four-digit years the short year reads as the year modulo 100. */
  lemma YearShortValue(year: int)
    requires 1000 <= year <= 9999
    ensures DigitsValue(YearShort(year)) == year % 100
  {
    YearShortFourDigits(year);
    TwoDigitsValue((year / 10) % 10, year % 10);
    assert year % 100 == ((year / 10) % 10) * 10 + year % 10;
  }

  lemma TwoDigitsValue(a: nat, b: nat)
    requires a < 10 && b < 10
    ensures DigitsValue([DigitChar(a), DigitChar(b)]) == a * 10 + b
  {
    var t := [DigitChar(a), DigitChar(b)];
    assert DigitsValue([DigitChar(a)]) == a by { assert [DigitChar(a)][..0] == []; }
    assert t[..1] == [DigitChar(a)];
    assert DigitsValue(t) == DigitsValue(t[..1]) * 10 + DigitValue(t[1]);
  }

  /** `format_column_header(now, include_mtd)`. */
  function ColumnHeader(now: Now, includeMtd: bool): (r: string)
    ensures StartsWith(r, MonthAbbrev(now.month) + "-")
    ensures EndsWith(r, " MTD") <==> includeMtd
    ensures |r| >= 5 && r[|r| - (if includeMtd then 5 else 1)] == 'A'
  {
    var header := MonthAbbrev(now.month) + "-" + YearShort(now.year) + "A";
    assert header[|header| - 1] == 'A';
    if includeMtd then
      assert (header + " MTD")[..|MonthAbbrev(now.month) + "-"|] == MonthAbbrev(now.month) + "-";
      header + " MTD"
    else
      assert header[..|MonthAbbrev(now.month) + "-"|] == MonthAbbrev(now.month) + "-";
      assert !EndsWith(header, " MTD") by {
        if |header| >= 4 { assert header[|header| - 4..][3] == 'A'; }
      }
      header
  }

  /** For a four-digit year the header is seven characters (eleven with " MTD"): the month, '-',
      the year modulo 100 in two digits, then 'A'. */
  lemma ColumnHeaderYear(now: Now, includeMtd: bool)
    requires 1000 <= now.year <= 9999
    ensures var r := ColumnHeader(now, includeMtd);
      && |r| == (if includeMtd then 11 else 7)
      && r[..4] == MonthAbbrev(now.month) + "-"
      && AllDigits(r[4..6]) && DigitsValue(r[4..6]) == now.year % 100
      && r[6] == 'A'
  {
    YearShortFourDigits(now.year);
    YearShortValue(now.year);
    var header := MonthAbbrev(now.month) + "-" + YearShort(now.year) + "A";
    assert header[4..6] == YearShort(now.year);
    assert (header + " MTD")[..7] == header;
  }

  /** `format_budget_header(now)`. */
  function BudgetHeader(now: Now): string {
    MonthAbbrev(now.month) + "-" + YearShort(now.year) + "B"
  }

  /** `format_prior_header(now, prior_year)`. Without an explicit prior year the code asks the
      clock again (`get_prior_year`), not `now`; `clockYear` is that second reading. */
  function PriorHeader(now: Now, priorYear: Option<int>, clockYear: int): string {
    MonthAbbrev(now.month) + "-" + YearShort(priorYear.GetOr(clockYear - 1)) + "A"
  }

  /** `get_year_labels(now)`: the short current and prior year. */
  function YearLabels(now: Now): (string, string) {
    (YearShort(now.year), YearShort(now.year - 1))
  }

  /** The budget header is the plain actuals header with 'B' in place of the final 'A'. */
  lemma BudgetHeaderMatchesColumnHeader(now: Now)
    ensures var a := ColumnHeader(now, false);
            BudgetHeader(now) == a[..|a| - 1] + "B"
  {
  }

  /** The prior header names the prior year with the current month; by default that year is the
      clock's year minus one. */
  lemma PriorHeaderIsColumnHeaderOfPriorYear(now: Now, priorYear: Option<int>, clockYear: int)
    ensures PriorHeader(now, priorYear, clockYear)
            == ColumnHeader(Now(priorYear.GetOr(clockYear - 1), now.month), false)
  {
  }

  lemma PreviousModulo(y: int)
    ensures y % 100 == ((y - 1) % 100 + 1) % 100
  {
  }

  /** For four-digit years after 1000 the current label is the prior label plus one, modulo 100. */
  lemma YearLabelsConsecutive(now: Now)
    requires 1001 <= now.year <= 9999
    ensures DigitsValue(YearLabels(now).0) == (DigitsValue(YearLabels(now).1) + 1) % 100
  {
    var y := now.year;
    assert YearLabels(now) == (YearShort(y), YearShort(y - 1));
    YearShortValue(y);
    YearShortValue(y - 1);
    PreviousModulo(y);
  }
}

=== FILE: wrappers.dfy ===
/** Optional values: a cell that may be null (pandas NaN / None) or a lookup that may miss. */
module Wrappers {

  datatype Option<+T> = None | Some(value: T) {

    /** The value, or `default` when there is none (pandas `fillna`). */
    function GetOr(default: T): T {
      match this
      case Some(v) => v
      case None => default
    }
  }
}
